=== FILE: README.md ===
# PLD-Agile routing core, modelled in Dafny

PLD-Agile plans delivery rounds for bicycle couriers over a city road plan.
This project models the routing pipeline of its Java back end, together with
the undo/redo layer on top of it. The pipeline has five stages:

- The road plan: the mapping between intersection ids and dense indices, the
  adjacency cost matrix with `Double.MAX_VALUE` as "no road", Dijkstra with
  early stop and predecessor-array path reconstruction, and tour stitching.
- The complete graph of shortest distances between the stops of one courier.
- The two travelling-salesman engines:
  - the array-based branch and bound, with swap/restore bookkeeping, a
    cost-sorted candidate order and a crossing-edge prune;
  - the template branch and bound `TemplateTSP`/`TSP1` with its `SeqIter`
    iterator, and the `TspStrategy` that runs it.
- The solver glue. It builds the restricted distance matrix, maps the circuit
  back to plan indices and validates it. It inserts a new stop at the point of
  cheapest detour and removes a deleted stop. It also simulates the courier's
  day: 08:00 start, 15 km/h, five minutes per stop, eight hours of work.
- The round. It covers couriers, the contiguous split of requests between
  couriers, request and warehouse edits, and local tour updates. The commands
  and the two-stack `CommandManager` sit on top of it.

The project is organised as follows:

- Every Java class with mutable state (plan, solver, strategy, round,
  commands, manager) becomes an immutable datatype.
- A method becomes a function that returns the updated record together with
  its result.
- A thrown exception becomes a `Failure`. Where the method has already
  changed its object, the failure carries the record as the method left it,
  except in the cases named under "Left out" (`RoadPlan.MakeCostsMatrix`,
  `TemplateTsp.SearchSolution`, `TspStrategies.Solve`, `Solvers.Solve`).
  A failed rebuild of a solver's complete graph is one such change: the
  shared matrix is cleared first, so the old graph keeps its size and loses
  its entries (`Solvers.Cleared`).
- Doubles are exact reals.
- `Double.MAX_VALUE` is the explicit sentinel `Costs.MaxValue`.
- `LocalTime` is seconds since midnight and wraps at 86400.
- The wall clock of the TSP search becomes a budget of recursive calls.

The modules follow the Java classes:

- `RoadPlan` and `Dijkstra` model `Plan`. `Paths` holds the road-path vocabulary.
- `CompleteGraphs` models `CompleteGraph`.
- `BranchBound` models `BranchAndBound`.
- `SeqIters` models `SeqIter`.
- `TemplateTsp` models `TemplateTSP` and `TSP1`.
- `TspOptimality` models the promise of the `TSP` interface.
- `TspStrategies` models `TspStrategy`.
- `Solvers` models `Solver`.
- `Rounds` models `Round`.
- `Commands` models the three command classes.
- `CommandManagers` models `CommandManager`.
- `Text` models `String.trim`.
- `Seqs` and `Costs` hold list and number helpers.

Where the documentation of the repository and its code disagree, the model
follows the code. The model departs from the code only where "Left out"
says so. The main departure is the deletion inside `Round.ComputeNewRound`,
which uses the corrected `deleteDeliveryPoint` described under "Findings".
The documented differences are these:

- `SeqIter`'s class comment promises the collection's order. `next` hands
  the candidates out last first (`SeqIters.DrainReverse`).
- Undoing an add is described as restoring the request set and the tours
  from before the add. The code deletes the first request whose trimmed id
  matches, which may be an earlier one. Without a courier it installs the
  list the command was built with (`Commands.AddExecuteUndo`). With a
  courier, `execute` put the command's own list in the round, so the undo's
  local update writes the recomputed tour into that list, and reinstalling
  it keeps that tour: the courier's slot holds a tour over the stops from
  before the add, and every other slot keeps the tour `execute` left
  (`Commands.AddLocalExecuteUndo`).
- A command is described as capturing the state needed to invert it. Undoing
  a warehouse definition sets the warehouse to `null`, not back to the
  previous one (`Commands.DefineExecuteUndo`).
- The branch-and-bound engine is described as exact. Its crossing-edge prune
  is a heuristic, so optimality is only proved for the template engine, and
  only when it is not cut short (`TspOptimality.SearchOptimal`).
- `served` is meant to count the stops reached within the day. The code sets
  it to the number of legs of the whole path, so the best possible path is
  always the whole path (`Solvers.WholePathServed`).

## Model

| member | source | states |
|---|---|---|
| RoadPlan.ReIndexFrom | src/main/java/com/pld/agile/model/graph/Plan.java:216-224 | After the loop, the reverse map holds index k exactly for the old keys and the positions from i on. Position k maps to the id at k, other old entries are unchanged, and consistency of the two maps is kept. |
| RoadPlan.ReIndexIntersections | src/main/java/com/pld/agile/model/graph/Plan.java:216-224 | Only the two index maps of the plan change. |
| RoadPlan.ReIndexLast | src/main/java/com/pld/agile/model/graph/Plan.java:216-224 | With duplicate ids, each id ends up at the position of its last occurrence. |
| RoadPlan.IndexBijection | src/main/java/com/pld/agile/model/graph/Plan.java:216-233 | With distinct ids, `indexes` and `reverseIndexes` are inverse bijections between the listed ids and 0..n-1, assigned in list order. |
| RoadPlan.ReverseIndexation | src/main/java/com/pld/agile/model/graph/Plan.java:229-233 | When no two ids share an index, every `index -> id` pair is written, entries for other indices survive, and nothing else in the plan changes. |
| RoadPlan.ReverseIdentity | src/main/java/com/pld/agile/model/graph/Plan.java:282-286 | After a consistent re-indexing, the second `reverseIndexation` of `preprocessData` is a no-op. |
| RoadPlan.ReverseIndexationNoop | src/main/java/com/pld/agile/model/graph/Plan.java:282-286 | On a freshly read plan, even with duplicate ids, the maps are injective and the second pass changes nothing. |
| RoadPlan.InitializeCostsMatrix | src/main/java/com/pld/agile/model/graph/Plan.java:240-253 | n new rows are appended and the existing rows are kept, because the field is never cleared. |
| RoadPlan.FillCostsSpec | src/main/java/com/pld/agile/model/graph/Plan.java:257-270 | Filling succeeds exactly when every section endpoint is indexed, keeps the matrix square, and leaves at (o,d) the last listed section's length or the old entry. |
| RoadPlan.FillCosts | src/main/java/com/pld/agile/model/graph/Plan.java:257-270 | A success means every section endpoint was indexed, and the matrix keeps its shape. An unindexed endpoint always throws, as a null unboxing or an out-of-range index. |
| RoadPlan.MakeCostsMatrix | src/main/java/com/pld/agile/model/graph/Plan.java:274-278 | Only the cost matrix of the plan changes. |
| RoadPlan.PreprocessData | src/main/java/com/pld/agile/model/graph/Plan.java:282-286 | On success only the two index maps and the matrix change, the matrix gains one row per intersection, every section endpoint is indexed, and each indexed id is mapped back to itself. |
| RoadPlan.PreprocessFresh | src/main/java/com/pld/agile/model/graph/Plan.java:240-286 | A fresh plan whose sections name listed intersections preprocesses into an n-by-n matrix. Each entry is the last listed section's length, 0 on the rest of the diagonal, or `MAX_VALUE`. |
| Dijkstra.SelectMin | src/main/java/com/pld/agile/model/graph/Plan.java:392-398 | The queue's poll returns nothing exactly when no unsettled node has a finite distance, and otherwise a queued node of minimum distance. |
| Dijkstra.Relax | src/main/java/com/pld/agile/model/graph/Plan.java:331-344 | Distances never grow. A distance changes only for an unvisited node over a finite edge, strictly downwards, with predecessor u. An unchanged distance keeps its predecessor. |
| Dijkstra.StepInv | src/main/java/com/pld/agile/model/graph/Plan.java:383-415 | One iteration keeps the loop invariant: the predecessor forest is rooted at the origin, settled nodes have finite distances and have relaxed their edges. |
| Dijkstra.SettledStep | src/main/java/com/pld/agile/model/graph/Plan.java:383-415 | With non-negative lengths, settling the queue's minimum keeps every settled distance final and at most every queued one. |
| Dijkstra.LoopInv | src/main/java/com/pld/agile/model/graph/Plan.java:383-415 | The loop ends with the invariant intact and the queue empty or holding the destination first. Settled distances stay final for non-negative lengths. |
| Dijkstra.Run | src/main/java/com/pld/agile/model/graph/Plan.java:375-415 | The final arrays have one entry per node and the origin at distance 0. The destination's distance is finite exactly when it is reachable. The predecessor walk then runs from the origin to it at that cost, and with non-negative lengths the cost is the shortest distance. |
| Dijkstra.Terminal | src/main/java/com/pld/agile/model/graph/Plan.java:383-415 | At the end the destination's distance is finite exactly when it is reachable. With non-negative lengths it is the shortest distance. |
| Dijkstra.WalkPath | src/main/java/com/pld/agile/model/graph/Plan.java:358-373 | Following predecessors back from a reached node yields a road path from the origin to it, costing its distance. |
| Dijkstra.ReconstructPath | src/main/java/com/pld/agile/model/graph/Plan.java:358-373 | The path ends at the destination and each entry's predecessor is the entry before it. A single-entry path is only returned when the destination is the origin. A destination without a predecessor gives the empty list exactly when it is not the origin. |
| Dijkstra.FindShortestPath | src/main/java/com/pld/agile/model/graph/Plan.java:425-430 | The path is empty exactly when the destination is unreachable. Otherwise it runs from origin to destination over finite edges, costs `findShortestDistance`, and is shortest for non-negative lengths. |
| Dijkstra.FindShortestDistance | src/main/java/com/pld/agile/model/graph/Plan.java:439-444 | Returns -1 for an unreachable destination, and 0 from a node to itself. A reachable destination gets the cost of some path to it. For non-negative lengths that cost is the minimum, and -1 comes back exactly when the destination is unreachable. |
| RoadPlan.LegPath | src/main/java/com/pld/agile/model/graph/Plan.java:425-444 | A reachable leg's shortest path is a non-empty road path costing the leg's shortest distance. |
| RoadPlan.ConstructTour | src/main/java/com/pld/agile/model/graph/Plan.java:452-467 | The old tour is kept as a prefix, and a completed tour ends on its first vertex. It fails exactly when a later leg is unreachable or the tour stays empty. |
| RoadPlan.StitchWhole | src/main/java/com/pld/agile/model/graph/Plan.java:452-467 | With two or more stops and every leg reachable, the stitched legs form one road path from the first stop to the last, costing the sum of the legs. The tour then closes on the first stop. |
| RoadPlan.Stitch | src/main/java/com/pld/agile/model/graph/Plan.java:452-462 | The loop finishes exactly when no leg after the first is empty. A finished loop starts with the whole first leg. |
| RoadPlan.MakeIntersectionsTour | src/main/java/com/pld/agile/model/graph/Plan.java:474-480 | The id of every tour index is appended (`null` when unknown) behind the old entries. |
| RoadPlan.ComputeTour | src/main/java/com/pld/agile/model/graph/Plan.java:488-493 | The returned list is the plan's `IntersectionsTour` field, and only the two tour fields change. |
| RoadPlan.ComputeTourTwice | src/main/java/com/pld/agile/model/graph/Plan.java:474-493 | `computeTour` is not idempotent: a second call returns the first result followed by twice as many entries again. |
| RoadPlan.FormatInput | src/main/java/com/pld/agile/model/graph/Plan.java:500-506 | Each id gets its index, or `null` exactly when it is not indexed. |
| RoadPlan.FormatInputRoundTrip | src/main/java/com/pld/agile/model/graph/Plan.java:500-506 | On an indexed plan with distinct ids, `formatInput` of the ids of some indices gives those indices back. |
| CompleteGraphs.Make | src/main/java/com/pld/agile/model/graph/CompleteGraph.java:21-42 | `getNbVertices` returns the count given to the constructor, and the matrix is stored unchanged. |
| CompleteGraphs.GetCost | src/main/java/com/pld/agile/model/graph/CompleteGraph.java:53-57 | -1.0 when either index is out of range, otherwise the stored entry. |
| CompleteGraphs.IsArc | src/main/java/com/pld/agile/model/graph/CompleteGraph.java:70-74 | True exactly for two distinct in-range vertices. |
| BranchBound.FindIndex | src/main/java/com/pld/agile/model/algorithm/bnb/BranchAndBound.java:135-142 | -1 exactly when the value is not among the first `length` entries. Otherwise it is the first position holding it. |
| BranchBound.ContainIntersection | src/main/java/com/pld/agile/model/algorithm/bnb/BranchAndBound.java:100-118 | True exactly when the new edge "crosses" some edge of the partial tour, by the cost criterion of `edgesIntersect`. |
| BranchBound.EdgesIntersect | src/main/java/com/pld/agile/model/algorithm/bnb/BranchAndBound.java:100-109 | True exactly when replacing the edges `i -> iNext` and `j -> jNext` by `i -> j` and `iNext -> jNext` strictly lowers their total cost. |
| BranchBound.RestoreUndoesUpdate | src/main/java/com/pld/agile/model/algorithm/bnb/BranchAndBound.java:120-133 | `restoreTables` undoes `updateTables` exactly. |
| BranchBound.UpdatePartition | src/main/java/com/pld/agile/model/algorithm/bnb/BranchAndBound.java:120-127 | `updateTables` appends the node to the tour prefix and leaves the old live entries minus that node in the live prefix. |
| BranchBound.UpdateTables | src/main/java/com/pld/agile/model/algorithm/bnb/BranchAndBound.java:120-127 | The tour prefix is kept and `nextNode` is placed behind it. `nextNode` moves to the end of the live prefix, the rest of `notVisited` is untouched, and the swap is a permutation when `nextNode` was at `i`. |
| BranchBound.RestoreTables | src/main/java/com/pld/agile/model/algorithm/bnb/BranchAndBound.java:129-133 | `nextNode` is back at `i`, the part after the live prefix is untouched, and the swap is a permutation when `nextNode` was at the end of the live prefix. |
| BranchBound.SortByCost | src/main/java/com/pld/agile/model/algorithm/bnb/BranchAndBound.java:61-72 | The candidates are a permutation of the live entries, in non-decreasing cost from the last placed vertex. The sort is stable: the entries of any one cost keep their order. |
| BranchBound.Permut | src/main/java/com/pld/agile/model/algorithm/bnb/BranchAndBound.java:39-98 | `notVisited` and the partial tour come back as they were. `best` never grows, and when it changes it is strictly smaller and is the closed cost of a complete tour, extending the partial one and recorded in `bestPath`. |
| BranchBound.LeafTour | src/main/java/com/pld/agile/model/algorithm/bnb/BranchAndBound.java:43-57 | At a leaf, the partial tour plus the return to 0 is a complete tour whose cost includes the return edge. |
| BranchBound.NewEngine | src/main/java/com/pld/agile/model/algorithm/bnb/BranchAndBound.java:8-11 | A new engine has no path, and its `best` of `MAX_VALUE` is at least every cost, so the first complete tour found is recorded. |
| BranchBound.FindBestCost | src/main/java/com/pld/agile/model/algorithm/bnb/BranchAndBound.java:14-37 | Fails exactly on an empty matrix. Otherwise `best` never grows and is not reset. A changed `best` is a found tour's cost, and an unchanged one leaves a zeroed `bestPath`. |
| SeqIters.New | src/main/java/com/pld/agile/model/algorithm/tsp/SeqIter.java:30-37 | The stored candidates are the arc-successors among the unvisited vertices, in the collection's order. |
| SeqIters.Successors | src/main/java/com/pld/agile/model/algorithm/tsp/SeqIter.java:30-37 | A vertex is a candidate exactly when it is unvisited and an arc-successor, with its multiplicity. |
| SeqIters.HasNext | src/main/java/com/pld/agile/model/algorithm/tsp/SeqIter.java:45-47 | True exactly while candidates remain. |
| SeqIters.Next | src/main/java/com/pld/agile/model/algorithm/tsp/SeqIter.java:55-58 | Throws exactly when nothing is left. Otherwise it yields the last remaining candidate and the counter drops by one. |
| SeqIters.Remove | src/main/java/com/pld/agile/model/algorithm/tsp/SeqIter.java:65-67 | The iterator is unchanged. |
| SeqIters.DrainReverse | src/main/java/com/pld/agile/model/algorithm/tsp/SeqIter.java:45-58 | The iterator yields the stored candidates in reverse order, each once, and `hasNext` is then false. |
| SeqIters.NewDrain | src/main/java/com/pld/agile/model/algorithm/tsp/SeqIter.java:30-58 | A fresh iterator yields exactly the unvisited arc-successors, last first. |
| TemplateTsp.Tsp1Bound | src/main/java/com/pld/agile/model/algorithm/tsp/TSP1.java:33-35 | The bound is always 0. |
| TemplateTsp.Tsp1Iterator | src/main/java/com/pld/agile/model/algorithm/tsp/TSP1.java:48-50 | The iterator yields every unvisited arc-successor of the current vertex and nothing else. |
| TemplateTsp.ToArray | src/main/java/com/pld/agile/model/algorithm/tsp/TemplateTSP.java:109-113 | `visited.toArray(bestSol)` copies the list into the array when it fits, with `null` after it when there is room. A longer list leaves the array untouched. |
| TemplateTsp.Leaf | src/main/java/com/pld/agile/model/algorithm/tsp/TemplateTSP.java:106-114 | At a leaf, `bestSolCost` never grows. When it changes it is the closed cost of a Hamiltonian circuit extending `visited`, recorded in `bestSol`. |
| TemplateTsp.Explore | src/main/java/com/pld/agile/model/algorithm/tsp/TemplateTSP.java:104-127 | `unvisited` comes back rearranged and `visited` unchanged. `bestSolCost` never grows and changes only to a strictly cheaper circuit extending `visited`, recorded in `bestSol`. |
| TemplateTsp.ExploreLoop | src/main/java/com/pld/agile/model/algorithm/tsp/TemplateTSP.java:116-125 | The `while (it.hasNext())` loop returns `unvisited` as a permutation of itself and never raises `bestSolCost`. From a valid entry state it ends in a valid exit state. |
| TemplateTsp.Branch | src/main/java/com/pld/agile/model/algorithm/tsp/TemplateTSP.java:116-125 | Removing and re-adding the next vertex around the recursive call gives the caller back its lists. The child call starts from a valid entry state. |
| TemplateTsp.SearchSolution | src/main/java/com/pld/agile/model/algorithm/tsp/TemplateTSP.java:31-45 | Nothing changes for a non-positive time limit. Otherwise it fails exactly without vertices, resets `bestSol` and `bestSolCost`, and ends with nothing found or a recorded circuit. |
| TemplateTsp.GetSolution | src/main/java/com/pld/agile/model/algorithm/tsp/TemplateTSP.java:53-57 | -1 before a search or out of range, otherwise the i-th entry of `bestSol`. |
| TemplateTsp.GetSolutionCost | src/main/java/com/pld/agile/model/algorithm/tsp/TemplateTSP.java:64-68 | -1.0 before a search, otherwise `bestSolCost`. |
| TemplateTsp.NewTsp | src/main/java/com/pld/agile/model/algorithm/tsp/TemplateTSP.java:17-21 | A new engine has no graph, so `getSolutionCost` is -1 and `getSolution` is -1 at every index. |
| TspOptimality.ExploreOptimal | src/main/java/com/pld/agile/model/algorithm/tsp/TemplateTSP.java:104-127 | The search is exhaustive when not cut short, with non-negative arc costs and a bound of at most 0. The final `bestSolCost` is at most the cost of every circuit extending `visited`. |
| TspOptimality.SearchOptimal | src/main/java/com/pld/agile/model/algorithm/tsp/TSP.java:8-10 | When not cut short, the search returns a cheapest Hamiltonian circuit from 0 and records it. This assumes non-negative arc costs and a bound of at most 0. |
| TspOptimality.Tsp1Optimistic | src/main/java/com/pld/agile/model/algorithm/tsp/TSP1.java:33-35 | `TSP1`'s bound meets the condition of `SearchOptimal`. |
| TspStrategies.NewStrategy | src/main/java/com/pld/agile/model/strategy/TspStrategy.java:26-29 | A fresh `TSP1` that has not searched yet, with an empty `bestPath` and cost 0.0. |
| TspStrategies.Collect | src/main/java/com/pld/agile/model/strategy/TspStrategy.java:50-54 | The solutions are appended in order. A `null` solution stops the loop, and what was appended before stays. |
| TspStrategies.Solve | src/main/java/com/pld/agile/model/strategy/TspStrategy.java:39-56 | The search runs with a positive limit. It fails exactly when no circuit is found, and otherwise appends the found circuit to the never-cleared `bestPath`. `bestCost` is untouched. |
| TspStrategies.GetBestPath | src/main/java/com/pld/agile/model/strategy/TspStrategy.java:64-67 | Fails exactly on an empty path. Otherwise it appends the first vertex and returns the field itself. |
| TspStrategies.GetBestCost | src/main/java/com/pld/agile/model/strategy/TspStrategy.java:75-77 | Returns the never-assigned field. |
| TspStrategies.GetTimeExceeded | src/main/java/com/pld/agile/model/strategy/TspStrategy.java:78-81 | Always false. |
| TspStrategies.SolveThenBestPath | src/main/java/com/pld/agile/model/strategy/TspStrategy.java:39-77 | After a successful solve, a fresh strategy returns a Hamiltonian circuit closed back on 0, with cost 0.0. |
| TspStrategies.SolveTwice | src/main/java/com/pld/agile/model/strategy/TspStrategy.java:39-56 | A second solve on the same graph appends the same circuit again. |
| TspStrategies.GetBestPathTwice | src/main/java/com/pld/agile/model/strategy/TspStrategy.java:64-67 | `getBestPath` is not idempotent: each call appends the first vertex once more. |
| Solvers.NewSolver | src/main/java/com/pld/agile/model/Solver.java:37-42 | The constructor keeps plan, vertices and strategy, with no graph, path or result yet. |
| Solvers.CreateCompleteGraph | src/main/java/com/pld/agile/model/Solver.java:59-76 | Succeeds exactly when all vertices are plan indices, giving a size-by-size graph. It holds -1.0 off the arcs and the plan's shortest distance on each arc. |
| Solvers.CompleteGraphShortest | src/main/java/com/pld/agile/model/Solver.java:59-76 | With non-negative lengths, an arc costs the shortest distance, and -1.0 exactly when there is no route. |
| Solvers.Init | src/main/java/com/pld/agile/model/Solver.java:50-76 | Stores the complete graph it builds. When building throws, the matrix shared with the old graph has been cleared: a previous graph keeps its vertex count and has no entries left, and nothing else changes. |
| Solvers.FailedBuildFirstRow | src/main/java/com/pld/agile/model/Solver.java:60-72 | A build that fails already fails in the first row, at a non-diagonal entry, so no row is stored in the cleared matrix. |
| Solvers.Cleared | src/main/java/com/pld/agile/model/graph/CompleteGraph.java:21-24 | The graph left after the shared matrix is cleared keeps its vertex count and has no entries. It is well formed only with no vertices. |
| Solvers.Solve | src/main/java/com/pld/agile/model/Solver.java:81-83 | Throws without a graph, and on a cleared graph. Otherwise it is the strategy's solve on the graph, and only the strategy changes. |
| Solvers.ToVertices | src/main/java/com/pld/agile/model/Solver.java:144-154 | Maps each graph index to `vertices.get(k)`, or fails exactly when one is out of range. |
| Solvers.GetBestPath | src/main/java/com/pld/agile/model/Solver.java:144-154 | A non-empty cached path is returned unchanged. A freshly mapped path is cached, and the other fields are untouched. |
| Solvers.GetBestPathCached | src/main/java/com/pld/agile/model/Solver.java:144-154 | Asking again after a success changes nothing. |
| Solvers.ValidatePathSpec | src/main/java/com/pld/agile/model/Solver.java:174-207 | The checks accept exactly the closed tours over the vertices that repeat only their ends. An empty path and duplicates are reported first, with the source's messages. |
| Solvers.ValidatePath | src/main/java/com/pld/agile/model/Solver.java:174-207 | An accepted path is non-empty, within the vertices, and ends where it starts. An empty path gets the "path is empty" message, and every rejection carries one of the four messages. |
| Solvers.SolvedPathValid | src/main/java/com/pld/agile/model/Solver.java:144-207 | On distinct vertices, a solved fresh strategy gives a path that passes `validatePath`, starts and ends at the warehouse, and meets every vertex. |
| Solvers.Insertion | src/main/java/com/pld/agile/model/Solver.java:226-248 | The new vertex goes right after the first leg of least detour: position 0 without a leg, otherwise strictly inside the path. |
| Solvers.AddDeliveryPoint | src/main/java/com/pld/agile/model/Solver.java:209-260 | The vertex is appended in all cases. It fails exactly when the grown list leaves the plan, and the old graph is then cleared. Otherwise the new graph is stored, and the vertex is spliced in once at the insertion point: the path gains exactly that one entry, and the other entries keep their order. |
| Solvers.FailedAddClearsGraph | src/main/java/com/pld/agile/model/Solver.java:209-260 | After a failed add to a closed tour, the path is still valid, but walking it, `computePointsToBeServed` and `solve` all throw, although walking it before the add succeeded. |
| Solvers.AddKeepsTour | src/main/java/com/pld/agile/model/Solver.java:209-260 | Adding a new point to a closed tour gives a closed tour of the grown vertex list, with the same start and one more entry. |
| Solvers.DeleteDeliveryPoint | src/main/java/com/pld/agile/model/Solver.java:263-293 | Throws without changes for a non-vertex. Throws after shortening the vertices and clearing the graph when the shortened list leaves the plan. Throws after shortening the vertices when the point is off the path. Otherwise the first occurrence leaves both the vertices and the path. |
| Solvers.DeleteKeepsTour | src/main/java/com/pld/agile/model/Solver.java:263-293 | Deleting a stop other than the start keeps a closed tour of the remaining vertices that no longer visits it. |
| Solvers.Remap | src/main/java/com/pld/agile/model/Solver.java:295-302 | Each entry is replaced by `getNewIndex` until a negative one throws, leaving the rest as they were. |
| Solvers.DeleteDeliveryPointAsWritten | src/main/java/com/pld/agile/model/Solver.java:263-332 | The deletion followed by the remapping, which rewrites each path entry as an index into the shortened vertex list. |
| Solvers.DeleteRemapCounterexample | src/main/java/com/pld/agile/model/Solver.java:295-302 | With vertices [2,0,5] and path [2,0,5,2], deleting 5 as written yields [-1,0,-1], which `validatePath` rejects. |
| Solvers.DeleteFixedExample | src/main/java/com/pld/agile/model/Solver.java:263-293 | Without the remapping, the same deletion yields the valid tour [2,0,2]. |
| Solvers.AddThenDelete | src/main/java/com/pld/agile/model/Solver.java:209-293 | Deleting a point just added gives back the vertices and the path. |
| Solvers.Tick | src/main/java/com/pld/agile/model/Solver.java:429-434 | `plusSeconds` stays a time of day, and is plain addition when no midnight is crossed. |
| Solvers.Recorded | src/main/java/com/pld/agile/model/Solver.java:410-447 | The recorded legs are those before the first leg ending past eight hours of work. |
| Solvers.Walk | src/main/java/com/pld/agile/model/Solver.java:410-447 | The loop yields the distance and the arrival map of exactly the recorded legs. |
| Solvers.PointsToBeServed | src/main/java/com/pld/agile/model/Solver.java:392-454 | Throws on an empty path, and on a path with a leg but no graph. On a cleared graph it throws exactly when a leg it reads has both ends in range. Otherwise `served` counts all legs, while cost and arrival times cover the recorded legs only, starting at 08:00. |
| Solvers.ClockInOrder | src/main/java/com/pld/agile/model/Solver.java:395-447 | With no negative leg, the clock over the recorded legs starts at 08:00, never goes back, and stays within eight hours. |
| Solvers.ArrivalTimesInOrder | src/main/java/com/pld/agile/model/Solver.java:392-454 | On a closed tour, the recorded arrival times of the stops are in path order and within the working day. |
| Solvers.ServedCount | src/main/java/com/pld/agile/model/Solver.java:449 | `served` is the number of legs of the whole path. |
| Solvers.ComputePointsToBeServed | src/main/java/com/pld/agile/model/Solver.java:368-389 | Fetches the path if it is empty, validates it, then walks it. The result is stored exactly when all three succeed, and is otherwise unchanged. |
| Solvers.GetBestPossiblePath | src/main/java/com/pld/agile/model/Solver.java:339-351 | Returns the first `served + 1` entries, closed on the start when needed; the appended start also lands in the solver's path. It fails exactly without a result or with too short a path. |
| Solvers.WholePathServed | src/main/java/com/pld/agile/model/Solver.java:339-351 | After a successful computation, the best possible path is the whole closed path. |
| Rounds.Couriers | src/main/java/com/pld/agile/model/entity/Round.java:58-66 | k couriers with ids 0..k-1, and none for a non-positive count. |
| Rounds.Init | src/main/java/com/pld/agile/model/entity/Round.java:58-66 | Fresh couriers in order, the new plan and no tours. Everything else is kept. |
| Rounds.OffsetClosed | src/main/java/com/pld/agile/model/entity/Round.java:116-132 | Courier j's first request is at j·(n/k) + min(j, n%k). |
| Rounds.Partition | src/main/java/com/pld/agile/model/entity/Round.java:116-132 | The division throws exactly when there is no courier. Otherwise there is one group per courier. |
| Rounds.PartitionSpec | src/main/java/com/pld/agile/model/entity/Round.java:116-173 | The groups are contiguous and, one after the other, give the request list. Courier j gets n/k requests, plus one when j < n%k. |
| Rounds.GroupAt | src/main/java/com/pld/agile/model/entity/Round.java:116-132 | Courier j's group is the slice of the list starting at its offset. |
| Rounds.IndexList | src/main/java/com/pld/agile/model/entity/Round.java:128-132 | Each request's address is looked up in the plan's index map. |
| Rounds.CourierIndices | src/main/java/com/pld/agile/model/entity/Round.java:116-132 | Fails exactly without couriers or without a warehouse. Each courier's list holds its share plus one and starts with the warehouse index. |
| Rounds.CourierIndicesAt | src/main/java/com/pld/agile/model/entity/Round.java:120-132 | Courier j's list continues with the indices of the requests from its offset on, in list order. |
| Rounds.EndTime | src/main/java/com/pld/agile/model/entity/Round.java:142-144 | The end time is a time of day. |
| Rounds.EndTimeMonotone | src/main/java/com/pld/agile/model/entity/Round.java:142-144 | Without a day wrap, a longer ride never ends earlier, nothing ends before 08:00, and a zero cost ends at 08:00. |
| Rounds.GetDeliveryRequestById | src/main/java/com/pld/agile/model/entity/Round.java:472-479 | `null` exactly when no trimmed address id matches. Otherwise it is the first match. |
| Rounds.DeleteDeliveryRequest | src/main/java/com/pld/agile/model/entity/Round.java:481-485 | Returns true exactly when a request matches, and then removes one copy of it. Otherwise it changes nothing. |
| Rounds.DeleteRemovesFirstMatch | src/main/java/com/pld/agile/model/entity/Round.java:472-485 | The first matching request goes, and the others keep their order. |
| Rounds.AddDeliveryIntersection | src/main/java/com/pld/agile/model/entity/Round.java:496-508 | An unknown trimmed id gives `null` and no change. A known one appends exactly one new request at the end. |
| Rounds.AddThenDeleteRequest | src/main/java/com/pld/agile/model/entity/Round.java:472-508 | Adding and then deleting by the added id restores the multiset of trimmed ids. When no earlier request has that id, it restores the list itself. |
| Rounds.DefineWarehousePoint | src/main/java/com/pld/agile/model/entity/Round.java:705-716 | An unknown trimmed id gives `null` and no change. A known one becomes the warehouse. |
| Rounds.DeleteWarehouse | src/main/java/com/pld/agile/model/entity/Round.java:721-724 | The warehouse becomes `null`, and nothing else changes. |
| Rounds.Edit | src/main/java/com/pld/agile/model/entity/Round.java:536-542 | Mode 1 adds the point to the solver's vertices and path. Mode -1 removes one copy from both, using the corrected deletion without the remapping (see "Left out"). |
| Rounds.TourOf | src/main/java/com/pld/agile/model/entity/Round.java:572-578 | The end time is the arrival at the route's last stop, `null` when it has none. |
| Rounds.Refresh | src/main/java/com/pld/agile/model/entity/Round.java:544-584 | Only slot c changes, among both the solvers and the tours. The new tour's route is the solver's closed path. |
| Rounds.ComputeNewRoundPath | src/main/java/com/pld/agile/model/entity/Round.java:536-584 | On success, the courier's new path holds the stops of its path before the update plus the point (mode 1) or minus one copy of it (mode -1). |
| Rounds.ComputeNewRound | src/main/java/com/pld/agile/model/entity/Round.java:523-590 | A bad courier index is rejected with nothing changed, and a mode other than ±1 is rejected. On success only courier c's solver and tour change: its vertices gain the point or lose one copy, and its route is the solver's path. The `computeTour` step and the remapping deletion are left out (see "Left out"). |
| Rounds.UpdateLocalPoint | src/main/java/com/pld/agile/model/entity/Round.java:592-609 | An id the plan has not indexed is rejected with nothing changed. Otherwise it runs `ComputeNewRound` on the id's index. |
| Commands.ExecuteAdd | src/main/java/com/pld/agile/controller/AddDeliveryPointCommand.java:42-48 | Records the added request. Without a courier it succeeds, and the tours become the command's list. With a courier and no request it throws without changes. A failed local update keeps the tours. On success only the courier's tour slot and solver change, the new tour follows the courier's path, and the command keeps the round's new list. |
| Commands.UndoAdd | src/main/java/com/pld/agile/controller/AddDeliveryPointCommand.java:55-63 | A no-op without a recorded request. Otherwise the request at its address is deleted. Without a courier the command's list becomes the tours. With a courier, only the courier's tour slot and solver change: the slot holds the recomputed tour, which follows the courier's path. A failed local update keeps the tours. |
| Commands.ExecuteDelete | src/main/java/com/pld/agile/controller/DeleteDeliveryCommand.java:18-21 | Records the first matching request, or `null`, then removes one copy of it. Nothing else changes. |
| Commands.UndoDelete | src/main/java/com/pld/agile/controller/DeleteDeliveryCommand.java:24-28 | Re-appends the recorded request at the end, and is a no-op without one. |
| Commands.ExecuteDefine | src/main/java/com/pld/agile/controller/DefineWarehousePointCommand.java:43-45 | Sets and records the warehouse for a known trimmed id. For an unknown id it records `null` and changes nothing. |
| Commands.UndoDefine | src/main/java/com/pld/agile/controller/DefineWarehousePointCommand.java:51-55 | Sets the warehouse to `null` after a successful define, and is a no-op otherwise. |
| Commands.Execute | src/main/java/com/pld/agile/controller/AddDeliveryPointCommand.java:42-48 | Only an add with a courier can throw. Delete and define leave the tours and solvers alone. |
| Commands.Undo | src/main/java/com/pld/agile/controller/AddDeliveryPointCommand.java:55-63 | Only an add with a courier can throw. Delete and define leave the tours and solvers alone. |
| Commands.DeleteExecuteUndo | src/main/java/com/pld/agile/controller/DeleteDeliveryCommand.java:17-28 | Execute then undo restores the multiset of requests, not necessarily their order, and touches nothing else. |
| Commands.DeleteLastExecuteUndo | src/main/java/com/pld/agile/controller/DeleteDeliveryCommand.java:17-28 | The list itself is restored when the deleted request was the last one. |
| Commands.DefineExecuteUndo | src/main/java/com/pld/agile/controller/DefineWarehousePointCommand.java:42-55 | A known id ends with no warehouse at all, rather than the previous one. An unknown id changes nothing, and the requests are never touched. |
| Commands.AddExecuteUndo | src/main/java/com/pld/agile/controller/AddDeliveryPointCommand.java:42-63 | Without a courier, execute then undo restores the multiset of trimmed request ids, and the tours are the command's list. |
| Commands.AddLocalExecuteUndo | src/main/java/com/pld/agile/controller/AddDeliveryPointCommand.java:42-63 | With a courier and both updates succeeding, the tours are those `execute` installed except in the courier's slot. That slot holds the undo's tour, whose route has the stops of the courier's path before the add: the added point is gone once. |
| Commands.AddLocalVertices | src/main/java/com/pld/agile/controller/AddDeliveryPointCommand.java:42-63 | The same sequence leaves the courier's vertex list with the point appended and its first occurrence removed, which is the list before the add when the point was new to it. |
| Commands.ExecuteLocal | src/main/java/com/pld/agile/controller/AddDeliveryPointCommand.java:42-48 | A courier add that goes through installs the command's tour list in the round, and the courier's path gains the point once. |
| Commands.UndoLocal | src/main/java/com/pld/agile/controller/AddDeliveryPointCommand.java:55-63 | A courier undo that goes through changes only the courier's tour slot, and the courier's path loses one copy of the point. |
| CommandManagers.NewManager | src/main/java/com/pld/agile/controller/CommandManager.java:17-19 | A new manager holds no command. |
| CommandManagers.ExecuteCommand | src/main/java/com/pld/agile/controller/CommandManager.java:23-29 | A command that throws is not pushed. Otherwise it goes on top of `commandStack` and the redo stack is emptied. |
| CommandManagers.Undo | src/main/java/com/pld/agile/controller/CommandManager.java:51-59 | A no-op on an empty stack. Otherwise it pops the top command and undoes it, pushing it on `undoStack` unless the undo throws. |
| CommandManagers.Redo | src/main/java/com/pld/agile/controller/CommandManager.java:97-105 | A no-op on an empty redo stack. Otherwise it pops and re-executes, pushing back on `commandStack` unless the execute throws. |
| CommandManagers.GetLastCommand | src/main/java/com/pld/agile/controller/CommandManager.java:83-93 | The top of `commandStack`, left in place, or `null` exactly when the stack is empty. |
| CommandManagers.ResetCommandStack | src/main/java/com/pld/agile/controller/CommandManager.java:129-135 | Both stacks become empty. |
| CommandManagers.UndoThenRedo | src/main/java/com/pld/agile/controller/CommandManager.java:51-105 | Undo then redo restores the redo stack. When the re-execution succeeds, it also restores the command stack up to the redone command's new record. |
| CommandManagers.UndoRedoCount | src/main/java/com/pld/agile/controller/CommandManager.java:51-105 | Undo and redo keep the total number of commands, except one that throws, which is lost. |
| CommandManagers.ExecuteThenLast | src/main/java/com/pld/agile/controller/CommandManager.java:23-93 | After a successful execute, the command is the last one and there is nothing to redo. |
| CommandManagers.ResetThenUndo | src/main/java/com/pld/agile/controller/CommandManager.java:51-135 | After a reset, undo and redo do nothing and there is no last command. |
| CommandManagers.DeleteUndoThroughManager | src/main/java/com/pld/agile/controller/CommandManager.java:23-59 | A delete executed and undone through the manager restores the command stack and the multiset of requests, and leaves one command to redo. |

## Left out

- XML reading (`Plan.readXml`, `readXmlbyFile`, `Round.loadRequests` and its helpers) is file I/O. The parsed intersections, sections and requests are inputs of the model.
- `Round.generateTourReport` is text formatting.
- `Round.computeRoundOptimized` and `KMeansClustering` use randomised k-means from a library that is not part of this model.
- The per-courier solving inside `Round.computeRound` is not modelled, because it runs `BnBStrategy`, which calls methods `BranchAndBound` does not define. The conversion of its results into intersections is not modelled either. The split of requests, the index lists and the end time are modelled.
- `Rounds.ComputeNewRound` works on plan indices. It does not model the call to `plan.computeTour` (Round.java:548), nor the conversion of the arrival map and requests through `getIntersectionById`. A tour's route is the solver's path, and its request list is left out. Three behaviours are lost with that call:
  - `computeTour` throws when a later leg is unreachable (`subList(1, 0)`, Plan.java:460) or when the tour is empty (`getFirst`, Plan.java:465), and the model's `ComputeNewRound` never fails there;
  - each call appends to the plan's `tour` and `IntersectionsTour` fields (`RoadPlan.ComputeTourTwice`), while the model leaves the round's plan unchanged;
  - Round.java:401 and Round.java:548 assign the `List<String>` that `computeTour` returns to a `List<Intersection>`, which does not type-check as written.
- `Rounds.Edit` deletes with the corrected `Solvers.DeleteDeliveryPoint`, not with `Solvers.DeleteDeliveryPointAsWritten`. The source's `deleteDeliveryPoint` also runs the remapping loop of Solver.java:295-302, so with vertices [2, 0, 5] and path [2, 0, 5, 2], deleting 5 leaves [-1, 0, -1]. `computePointsToBeServed` then rejects that path in `validatePath`, and `ComputeNewRound` throws. The model keeps [2, 0, 2] and goes on (see "Findings").
- `Rounds.ComputeNewRound` inherits this: with mode -1 it can succeed where the source throws.
- `Rounds.UpdateLocalPoint` inherits it too: with mode -1 it runs `ComputeNewRound` and can succeed where the source throws.
- `Commands.UndoAdd` inherits it for an add bound to a courier: its local update with mode -1 can succeed where the source throws.
- `Commands.Undo` inherits it through `Commands.UndoAdd`, for an add bound to a courier.
- `CommandManagers.Undo` inherits it through `Commands.Undo`: such an undo can push the command onto the redo stack where the source's undo throws.
- `Rounds.ComputeNewRound` does not model the `null` check on the courier's solver, because the solver list only ever receives non-null solvers.
- Aliasing between the command's `updatedTours` and the round's `tourAttribution` is modelled only for an undo that directly follows its execute, where the two are the same list. Lists are values: after other commands have replaced the round's list, the source's undo still writes into the list the command holds, which the model does not track.
- `Solver.updateIndexMappings` is not modelled, because it fills two maps that nothing reads.
- The wall clock of `TemplateTSP` and `TspStrategy` is replaced by a budget on the number of `branchAndBound` calls. The cut-off time is not modelled.
- Doubles are exact reals. Rounding, NaN and infinities are not modelled.
- `Costs.Trunc` models `(long)` truncation toward zero, but not its saturation at the bounds of `long`.
- `LocalTime` is seconds since midnight, with wrap-around at 86400.
- Java's `PriorityQueue` is not modelled. The queue is abstracted as "the lowest-numbered unsettled node of minimum finite distance".
- Integer identity is not modelled. In `getBestPossiblePath`, `!=` compares boxed `Integer`s by reference; the model compares values.
- Printing and logging are not modelled.
- Getters, setters, `softReset`, `clearDeliveryRequests`, `setTourAttribution` and `Solver.getCompleteMatrix` are not modelled.
- The interfaces `SolvingStrategy`, `TSP`, `Graph` and `Command` have no counterpart: each engine and each command is a concrete datatype.
- The `nbCalls` counter of `BranchAndBound` (BranchAndBound.java:8, 40, 153-159) is not modelled: `permut` only increments it, and nothing in the core reads it.
- `BranchBound.Permut` states the bookkeeping of the search, but no optimality: the crossing-edge prune is a heuristic and can discard the cheapest tour.
- `TspOptimality.SearchOptimal` holds only for searches the budget does not cut short, with non-negative arc costs.
- `Rounds.EndTimeMonotone` requires the ride to end before midnight. Past it, the time of day wraps.
- `Solvers.ClockInOrder` requires every recorded leg to have a non-negative length. `getCost` can return -1.0 for a missing route.
- `Commands.AddLocalExecuteUndo` assumes both local updates succeed. When one throws, the round keeps whatever the update had changed.
- `RoadPlan.MakeCostsMatrix` returns a bare `Failure` when a section names an unindexed intersection. By then the source has appended the n new rows and filled the matrix up to that section (Plan.java:240-270), and `RoadPlan.PreprocessData` has also re-indexed. The partial plan is not carried.
- `Solvers.Solve` returns the solver unchanged on a cleared graph. The source throws inside `TemplateTSP.searchSolution` (at the first `getCost` with two or more vertices, or on unboxing a `null` solution with one) after setting the search fields, and those are not carried.
- `TemplateTsp.SearchSolution` returns a bare `Failure` for fewer than one vertex. By then the source has set `startTime`, `timeLimit` and `g`, and for zero vertices `bestSol` is an empty array (TemplateTSP.java:34-38).
- `TspStrategies.Solve` passes that bare `Failure` on and returns its strategy unchanged, without the fields `searchSolution` has set.
- `RoadPlan.PreprocessData` requires that no two ids share an index after re-indexing. Otherwise `reverseIndexation` depends on the iteration order of a `HashMap`.

## Findings

| source | as written | input that shows it | evidently intended | confidence | as-written member | corrected member |
|---|---|---|---|---|---|---|
| src/main/java/com/pld/agile/model/Solver.java:295-302 | After a stop is deleted, every path entry is read as a position in the old vertex list. It is then replaced by that vertex's position in the new list. Path entries are plan vertices, not positions. | vertices [2, 0, 5], path [2, 0, 5, 2], delete 5: the path becomes [-1, 0, -1], which `validatePath` rejects | The path keeps its plan vertices: [2, 0, 2], still a closed tour of the remaining vertices | not executed | Solvers.DeleteRemapCounterexample | Solvers.DeleteKeepsTour |

=== FILE: branch_and_bound.dfy ===
/**
 * `algorithm/bnb/BranchAndBound.java`: depth-first search over tours from
 * vertex 0 with two int arrays.  `visited[0..nbVisited)` is the partial tour;
 * `notVisited[0..nbNotVisited)` holds the vertices still to place, kept up by
 * a swap on the way down (`updateTables`) and the inverse swap on the way up
 * (`restoreTables`).  Children are tried cheapest edge first, and are pruned
 * by the cost so far and by a crossing-edge heuristic, so the search is not
 * exhaustive and nothing here claims the result is optimal.
 *
 * The arrays become sequences threaded through the recursion; `best` and
 * `bestPath` are the engine's fields.
 */
module BranchBound {
  import opened Costs
  import opened Wrappers
  import opened Seqs

  type Weights = seq<seq<real>>

  predicate Square(c: Weights) {
    forall i | 0 <= i < |c| :: |c[i]| == |c|
  }

  /** The arrays `visited` and `notVisited`. */
  datatype Tables = Tables(visited: seq<nat>, notVisited: seq<nat>)

  /** The fields `best` and `bestPath`. */
  datatype Search = Search(best: Cost, bestPath: seq<nat>)

  predicate Below(xs: seq<nat>, n: nat) {
    forall k | 0 <= k < |xs| :: xs[k] < n
  }

  /** Cost of following `p` edge by edge (no return edge added). */
  function PrefixCost(c: Weights, p: seq<nat>): real
    requires Square(c) && Below(p, |c|)
    decreases |p|
  {
    if |p| <= 1 then 0.0 else PrefixCost(c, p[..|p| - 1]) + c[p[|p| - 2]][p[|p| - 1]]
  }

  /** A closed tour from 0: the n vertices once each, then 0 again. */
  predicate Tour(c: Weights, p: seq<nat>) {
    && |c| >= 1 && |p| == |c| + 1
    && p[0] == 0 && p[|c|] == 0
    && multiset(p[..|c|]) == multiset(Range(0, |c|))
  }

  /** The partial tour and the live unvisited prefix partition the vertices. */
  predicate Partition(c: Weights, t: Tables, nbVisited: nat, nbNotVisited: nat) {
    && |c| >= 1
    && |t.visited| == |c| + 1 && |t.notVisited| == |c| - 1
    && 1 <= nbVisited && nbVisited + nbNotVisited == |c|
    && t.visited[0] == 0
    && Below(t.visited[..nbVisited], |c|) && Below(t.notVisited[..nbNotVisited], |c|)
    && multiset(t.visited[..nbVisited]) + multiset(t.notVisited[..nbNotVisited]) == multiset(Range(0, |c|))
  }

  /** `best` is finite and is the cost of the tour recorded in `bestPath`. */
  predicate Found(c: Weights, s: Search) {
    && Square(c) && s.best.Fin? && Tour(c, s.bestPath) && Below(s.bestPath, |c|)
    && s.best.r == PrefixCost(c, s.bestPath)
  }

  // ---------------------------------------------------------------------------
  // Helpers of the search

  /** `findIndex`: first position below `length` holding `value`, else -1. */
  function FindIndex(a: seq<nat>, value: nat, length: nat): (r: int)
    requires length <= |a|
    ensures r == -1 <==> value !in a[..length]
    ensures r != -1 ==> 0 <= r < length && a[r] == value && value !in a[..r]
  {
    if length == 0 then -1
    else
      var r := FindIndex(a, value, length - 1);
      assert a[..length] == a[..length - 1] + [a[length - 1]];
      if r != -1 then r else if a[length - 1] == value then length - 1 else -1
  }

  /**
   * `edgesIntersect`: the two edges cost more than the two "crossed" edges,
   * that is, replacing `i -> iNext` and `j -> jNext` by `i -> j` and
   * `iNext -> jNext` would make a strictly cheaper pair of one-edge paths.
   */
  function EdgesIntersect(c: Weights, i: nat, iNext: nat, j: nat, jNext: nat): (b: bool)
    requires Square(c) && i < |c| && iNext < |c| && j < |c| && jNext < |c|
    ensures b <==> PrefixCost(c, [i, j]) + PrefixCost(c, [iNext, jNext]) < PrefixCost(c, [i, iNext]) + PrefixCost(c, [j, jNext])
  {
    assert [i, j][..1] == [i] && [iNext, jNext][..1] == [iNext] && [i, iNext][..1] == [i] && [j, jNext][..1] == [j];
    c[i][iNext] + c[j][jNext] > c[i][j] + c[iNext][jNext]
  }

  /** `containIntersection`: the new edge `lastVisited -> nextNode` "crosses" some edge of the partial tour. */
  function ContainIntersection(c: Weights, nbVisited: nat, lastVisited: nat, nextNode: nat, visited: seq<nat>): (b: bool)
    requires Square(c) && nbVisited <= |visited| && Below(visited[..nbVisited], |c|)
    requires lastVisited < |c| && nextNode < |c|
    ensures b <==> exists j | 0 <= j < nbVisited - 1 :: EdgesIntersect(c, visited[j], visited[j + 1], lastVisited, nextNode)
  {
    ContainFrom(c, 0, nbVisited, lastVisited, nextNode, visited)
  }

  function ContainFrom(c: Weights, j: nat, nbVisited: nat, lastVisited: nat, nextNode: nat, visited: seq<nat>): (b: bool)
    requires Square(c) && nbVisited <= |visited| && Below(visited[..nbVisited], |c|)
    requires lastVisited < |c| && nextNode < |c|
    ensures b <==> exists k | j <= k < nbVisited - 1 :: EdgesIntersect(c, visited[k], visited[k + 1], lastVisited, nextNode)
    decreases nbVisited - j
  {
    if j + 1 >= nbVisited then false
    else
      assert visited[..nbVisited][j] == visited[j] && visited[..nbVisited][j + 1] == visited[j + 1];
      if EdgesIntersect(c, visited[j], visited[j + 1], lastVisited, nextNode) then true
      else ContainFrom(c, j + 1, nbVisited, lastVisited, nextNode, visited)
  }

  /** `updateTables`: place `nextNode` (found at `i`) in the tour and swap it behind the live prefix. */
  function UpdateTables(t: Tables, nbVisited: nat, nbNotVisited: nat, nextNode: nat, i: nat): (u: Tables)
    requires nbVisited < |t.visited| && i < nbNotVisited <= |t.notVisited|
    ensures |u.visited| == |t.visited| && |u.notVisited| == |t.notVisited|
    ensures u.visited[..nbVisited] == t.visited[..nbVisited] && u.visited[nbVisited] == nextNode
    ensures u.notVisited[nbNotVisited - 1] == nextNode && u.notVisited[nbNotVisited..] == t.notVisited[nbNotVisited..]
    ensures t.notVisited[i] == nextNode ==> multiset(u.notVisited) == multiset(t.notVisited)
  {
    Tables(t.visited[nbVisited := nextNode],
           t.notVisited[i := t.notVisited[nbNotVisited - 1]][nbNotVisited - 1 := nextNode])
  }

  /** `restoreTables`: the inverse swap. */
  function RestoreTables(nv: seq<nat>, nbNotVisited: nat, nextNode: nat, i: nat): (r: seq<nat>)
    requires i < nbNotVisited <= |nv|
    ensures |r| == |nv| && r[i] == nextNode && r[nbNotVisited..] == nv[nbNotVisited..]
    ensures nv[nbNotVisited - 1] == nextNode ==> multiset(r) == multiset(nv)
  {
    nv[nbNotVisited - 1 := nv[i]][i := nextNode]
  }

  /** `restoreTables` undoes `updateTables` exactly, whenever `i` is where `nextNode` was. */
  lemma RestoreUndoesUpdate(t: Tables, nbVisited: nat, nbNotVisited: nat, nextNode: nat, i: nat)
    requires nbVisited < |t.visited| && i < nbNotVisited <= |t.notVisited| && t.notVisited[i] == nextNode
    ensures RestoreTables(UpdateTables(t, nbVisited, nbNotVisited, nextNode, i).notVisited, nbNotVisited, nextNode, i)
            == t.notVisited
  {
  }

  /**
   * The live prefix after `updateTables` holds the old live vertices minus
   * `nextNode`, and the tour prefix gains `nextNode`.
   */
  lemma UpdatePartition(t: Tables, nbVisited: nat, nbNotVisited: nat, nextNode: nat, i: nat)
    requires nbVisited < |t.visited| && i < nbNotVisited <= |t.notVisited| && t.notVisited[i] == nextNode
    ensures var u := UpdateTables(t, nbVisited, nbNotVisited, nextNode, i);
      && u.visited[..nbVisited + 1] == t.visited[..nbVisited] + [nextNode]
      && multiset(u.notVisited[..nbNotVisited - 1]) == multiset(t.notVisited[..nbNotVisited]) - multiset{nextNode}
  {
    var u := UpdateTables(t, nbVisited, nbNotVisited, nextNode, i);
    var nv := t.notVisited;
    var last := nbNotVisited - 1;
    assert nv[..nbNotVisited] == nv[..last] + [nv[last]];
    if i < last {
      assert u.notVisited[..last] == nv[..last][i := nv[last]];
    } else {
      assert u.notVisited[..last] == nv[..last];
    }
  }

  // ---------------------------------------------------------------------------
  // Sorting the candidates

  function Key(c: Weights, from: nat, x: nat): real
    requires Square(c) && from < |c| && x < |c|
  {
    c[from][x]
  }

  predicate SortedBy(c: Weights, from: nat, xs: seq<nat>)
    requires Square(c) && from < |c| && Below(xs, |c|)
  {
    forall i, j | 0 <= i < j < |xs| :: Key(c, from, xs[i]) <= Key(c, from, xs[j])
  }

  /**
   * Stable insertion: `x` goes behind every element that costs no more.  The
   * head of the result is `x` or the old head.
   */
  function Insert(c: Weights, from: nat, s: seq<nat>, x: nat): (r: seq<nat>)
    requires Square(c) && from < |c| && Below(s, |c|) && x < |c| && SortedBy(c, from, s)
    ensures multiset(r) == multiset(s) + multiset{x}
    ensures Below(r, |c|) && SortedBy(c, from, r)
    ensures |r| > 0 && (r[0] == x || (|s| > 0 && r[0] == s[0]))
    decreases |s|
  {
    if |s| == 0 then [x]
    else if Key(c, from, x) < Key(c, from, s[0]) then
      SortedCons(c, from, x, s);
      [x] + s
    else
      var r' := Insert(c, from, s[1..], x);
      InsertBehind(c, from, s, x, r');
      [s[0]] + r'
  }

  /** Inserting behind the head: the head stays first and the order holds. */
  lemma InsertBehind(c: Weights, from: nat, s: seq<nat>, x: nat, r': seq<nat>)
    requires Square(c) && from < |c| && |s| > 0 && Below(s, |c|) && x < |c| && SortedBy(c, from, s)
    requires Key(c, from, s[0]) <= Key(c, from, x)
    requires multiset(r') == multiset(s[1..]) + multiset{x}
    requires Below(r', |c|) && SortedBy(c, from, r')
    requires |r'| > 0 && (r'[0] == x || (|s| > 1 && r'[0] == s[1]))
    ensures multiset([s[0]] + r') == multiset(s) + multiset{x}
    ensures Below([s[0]] + r', |c|) && SortedBy(c, from, [s[0]] + r')
  {
    assert s == [s[0]] + s[1..];
    if r'[0] != x {
      assert r'[0] == s[1];
    }
    SortedCons(c, from, s[0], r');
  }

  /** Putting an element no dearer than the head in front keeps the order. */
  lemma SortedCons(c: Weights, from: nat, h: nat, r: seq<nat>)
    requires Square(c) && from < |c| && h < |c| && Below(r, |c|) && SortedBy(c, from, r)
    requires |r| > 0 ==> Key(c, from, h) <= Key(c, from, r[0])
    ensures Below([h] + r, |c|) && SortedBy(c, from, [h] + r)
  {
    var hr := [h] + r;
    forall i, j | 0 <= i < j < |hr|
      ensures Key(c, from, hr[i]) <= Key(c, from, hr[j])
    {
      if i > 0 {
        assert hr[i] == r[i - 1] && hr[j] == r[j - 1];
      } else {
        assert hr[j] == r[j - 1];
      }
    }
  }

  /** The entries of `xs` whose cost from `from` is `k`, in their order in `xs`. */
  function WithKey(c: Weights, from: nat, xs: seq<nat>, k: real): seq<nat>
    requires Square(c) && from < |c| && Below(xs, |c|)
    decreases |xs|
  {
    if |xs| == 0 then []
    else (if Key(c, from, xs[0]) == k then [xs[0]] else []) + WithKey(c, from, xs[1..], k)
  }

  lemma {:induction false} WithKeyAppend(c: Weights, from: nat, a: seq<nat>, b: seq<nat>)
    requires Square(c) && from < |c| && Below(a, |c|) && Below(b, |c|)
    ensures forall k: real :: WithKey(c, from, a + b, k) == WithKey(c, from, a, k) + WithKey(c, from, b, k)
    decreases |a|
  {
    if |a| == 0 {
      assert a + b == b;
    } else {
      assert (a + b)[1..] == a[1..] + b;
      WithKeyAppend(c, from, a[1..], b);
    }
  }

  /** A sorted sequence whose first cost exceeds `k` has no entry of cost `k`. */
  lemma {:induction false} WithKeyAbove(c: Weights, from: nat, s: seq<nat>, k: real)
    requires Square(c) && from < |c| && Below(s, |c|) && SortedBy(c, from, s)
    requires |s| > 0 ==> k < Key(c, from, s[0])
    ensures WithKey(c, from, s, k) == []
    decreases |s|
  {
    if |s| > 1 {
      assert Key(c, from, s[0]) <= Key(c, from, s[1]);
      WithKeyAbove(c, from, s[1..], k);
    }
  }

  /** `Insert` puts `x` behind every entry of equal cost. */
  lemma {:induction false} InsertStable(c: Weights, from: nat, s: seq<nat>, x: nat, k: real)
    requires Square(c) && from < |c| && Below(s, |c|) && x < |c| && SortedBy(c, from, s)
    ensures WithKey(c, from, Insert(c, from, s, x), k) == WithKey(c, from, s, k) + (if Key(c, from, x) == k then [x] else [])
    decreases |s|
  {
    var r := Insert(c, from, s, x);
    if |s| == 0 {
      assert r == [x] && r[1..] == [];
    } else if Key(c, from, x) < Key(c, from, s[0]) {
      InsertFront(c, from, s, x, k);
    } else {
      var r' := Insert(c, from, s[1..], x);
      InsertStable(c, from, s[1..], x, k);
      InsertBehindStable(c, from, s, x, k, r, r');
    }
  }

  lemma InsertFront(c: Weights, from: nat, s: seq<nat>, x: nat, k: real)
    requires Square(c) && from < |c| && Below(s, |c|) && x < |c| && SortedBy(c, from, s)
    requires |s| > 0 && Key(c, from, x) < Key(c, from, s[0])
    ensures WithKey(c, from, Insert(c, from, s, x), k) == WithKey(c, from, s, k) + (if Key(c, from, x) == k then [x] else [])
  {
    var r := Insert(c, from, s, x);
    assert r == [x] + s && r[1..] == s;
    if Key(c, from, x) == k {
      WithKeyAbove(c, from, s, k);
    }
  }

  lemma InsertBehindStable(c: Weights, from: nat, s: seq<nat>, x: nat, k: real, r: seq<nat>, r': seq<nat>)
    requires Square(c) && from < |c| && Below(s, |c|) && x < |c| && |s| > 0
    requires Below(r, |c|) && Below(r', |c|) && r == [s[0]] + r'
    requires WithKey(c, from, r', k) == WithKey(c, from, s[1..], k) + (if Key(c, from, x) == k then [x] else [])
    ensures WithKey(c, from, r, k) == WithKey(c, from, s, k) + (if Key(c, from, x) == k then [x] else [])
  {
    assert r[0] == s[0] && r[1..] == r';
    var h := if Key(c, from, s[0]) == k then [s[0]] else [];
    assert WithKey(c, from, r, k) == h + WithKey(c, from, r', k);
    assert WithKey(c, from, s, k) == h + WithKey(c, from, s[1..], k);
    ConcatAssoc(h, WithKey(c, from, s[1..], k), if Key(c, from, x) == k then [x] else []);
  }

  lemma ConcatAssoc(a: seq<nat>, b: seq<nat>, d: seq<nat>)
    ensures a + (b + d) == (a + b) + d
  {
  }

  /**
   * `Arrays.sort(sortedNotVisited, comparingDouble(cost from lastVisited))`:
   * a stable sort, so equal costs keep their array order.
   */
  function SortByCost(c: Weights, from: nat, xs: seq<nat>): (r: seq<nat>)
    requires Square(c) && from < |c| && Below(xs, |c|)
    ensures multiset(r) == multiset(xs)
    ensures Below(r, |c|) && SortedBy(c, from, r)
    ensures forall k: real :: WithKey(c, from, r, k) == WithKey(c, from, xs, k)
    decreases |xs|
  {
    if |xs| == 0 then []
    else
      var init, last := xs[..|xs| - 1], xs[|xs| - 1];
      assert xs == init + [last];
      var sorted := SortByCost(c, from, init);
      assert forall k: real :: WithKey(c, from, Insert(c, from, sorted, last), k)
                               == WithKey(c, from, sorted, k) + (if Key(c, from, last) == k then [last] else []) by {
        forall k: real {
          InsertStable(c, from, sorted, last, k);
        }
      }
      WithKeyAppend(c, from, init, [last]);
      assert forall k: real :: WithKey(c, from, [last], k) == (if Key(c, from, last) == k then [last] else []) by {
        assert [last][1..] == [];
      }
      Insert(c, from, sorted, last)
  }

  // ---------------------------------------------------------------------------
  // permut

  /** The tables come back with `notVisited` as it was and the first `nbVisited` places of the tour unchanged. */
  predicate Kept(t: Tables, nbVisited: nat, t': Tables) {
    t'.notVisited == t.notVisited && |t'.visited| == |t.visited|
    && nbVisited <= |t.visited| && t'.visited[..nbVisited] == t.visited[..nbVisited]
  }

  /**
   * `best` never grows; when it changes it drops strictly and is the cost of
   * a complete tour, recorded in `bestPath`, that extends `prefix`; when it
   * does not change neither field does.
   */
  predicate Improves(c: Weights, prefix: seq<nat>, s: Search, s': Search) {
    && s'.best.AtMost(s.best)
    && (s'.best == s.best ==> s' == s)
    && (s'.best != s.best ==>
          s'.best.Less(s.best) && Found(c, s') && |prefix| <= |s'.bestPath| && s'.bestPath[..|prefix|] == prefix)
  }

  /**
   * `permut(visited, nbVisited, notVisited, nbNotVisited, distance)` and the
   * engine's `best`/`bestPath` after it.  On return `notVisited` is exactly as
   * on entry and so is the partial tour; `best` never grows, and when it
   * changes it is the cost of a complete tour extending the partial one,
   * recorded in `bestPath`; otherwise neither field changes.
   */
  function Permut(c: Weights, t: Tables, s: Search, nbVisited: nat, nbNotVisited: nat, distance: real)
    : (r: (Tables, Search))
    requires Square(c) && Partition(c, t, nbVisited, nbNotVisited)
    requires distance == PrefixCost(c, t.visited[..nbVisited])
    ensures Kept(t, nbVisited, r.0) && Improves(c, t.visited[..nbVisited], s, r.1)
    decreases nbNotVisited, 1, 0, 0
  {
    if !Fin(distance).Less(s.best) then (t, s)
    else if nbNotVisited == 0 then
      var total := distance + c[t.visited[nbVisited - 1]][0];
      if Fin(total).Less(s.best) then
        var path := t.visited[..nbVisited] + [0];
        LeafTour(c, t, nbVisited, distance);
        assert path[..nbVisited] == t.visited[..nbVisited];
        (t, Search(Fin(total), path))
      else (t, s)
    else
      var lastVisited := t.visited[nbVisited - 1];
      assert t.visited[..nbVisited][nbVisited - 1] == lastVisited;
      var sorted := SortByCost(c, lastVisited, t.notVisited[..nbNotVisited]);
      PermutLoop(c, t, s, nbVisited, nbNotVisited, distance, sorted, 0)
  }

  /** The `for (idx ...)` loop of `permut` over the sorted candidates. */
  function PermutLoop(c: Weights, t: Tables, s: Search, nbVisited: nat, nbNotVisited: nat, distance: real,
                      sorted: seq<nat>, idx: nat)
    : (r: (Tables, Search))
    requires Square(c) && Partition(c, t, nbVisited, nbNotVisited)
    requires distance == PrefixCost(c, t.visited[..nbVisited])
    requires nbNotVisited >= 1 && Below(sorted, |c|) && idx <= |sorted|
    ensures Kept(t, nbVisited, r.0) && Improves(c, t.visited[..nbVisited], s, r.1)
    decreases nbNotVisited, 0, |sorted| - idx, 3
  {
    if idx == |sorted| then (t, s)
    else
      var b := Step(c, t, s, nbVisited, nbNotVisited, distance, sorted[idx]);
      PartitionKept(c, t, b.0, nbVisited, nbNotVisited);
      var r := PermutLoop(c, b.0, b.1, nbVisited, nbNotVisited, distance, sorted, idx + 1);
      SearchChain(c, t.visited[..nbVisited], s, b.1, r.1);
      r
  }

  /**
   * One turn of the loop: the candidate is skipped when the extended tour is
   * already no cheaper than `best`, when its new edge crosses the tour, or
   * when it is no longer live; otherwise the child is explored.
   */
  function Step(c: Weights, t: Tables, s: Search, nbVisited: nat, nbNotVisited: nat, distance: real, nextNode: nat)
    : (r: (Tables, Search))
    requires Square(c) && Partition(c, t, nbVisited, nbNotVisited)
    requires distance == PrefixCost(c, t.visited[..nbVisited])
    requires nbNotVisited >= 1 && nextNode < |c|
    ensures Kept(t, nbVisited, r.0) && Improves(c, t.visited[..nbVisited], s, r.1)
    decreases nbNotVisited, 0, 0, 2
  {
    var lastVisited := t.visited[nbVisited - 1];
    assert t.visited[..nbVisited][nbVisited - 1] == lastVisited;
    if !Fin(NewDistance(c, t, nbVisited, distance, nextNode)).Less(s.best) then (t, s)
    else if ContainIntersection(c, nbVisited, lastVisited, nextNode, t.visited) then (t, s)
    else
      var i := FindIndex(t.notVisited, nextNode, nbNotVisited);
      if i == -1 then (t, s)
      else Branch(c, t, s, nbVisited, nbNotVisited, distance, nextNode, i)
  }

  /** `newDistance`: the cost so far plus the edge from the last placed vertex to `nextNode`. */
  function NewDistance(c: Weights, t: Tables, nbVisited: nat, distance: real, nextNode: nat): real
    requires Square(c) && 1 <= nbVisited <= |t.visited| && t.visited[nbVisited - 1] < |c| && nextNode < |c|
  {
    distance + c[t.visited[nbVisited - 1]][nextNode]
  }

  /** The partition invariant only looks at the two live prefixes. */
  lemma PartitionKept(c: Weights, t: Tables, t': Tables, nbVisited: nat, nbNotVisited: nat)
    requires Partition(c, t, nbVisited, nbNotVisited)
    requires Kept(t, nbVisited, t')
    ensures Partition(c, t', nbVisited, nbNotVisited)
  {
    assert t'.visited[0] == t'.visited[..nbVisited][0];
  }

  /** Two searches in a row keep the promises of one. */
  lemma SearchChain(c: Weights, prefix: seq<nat>, s: Search, b: Search, r: Search)
    requires Improves(c, prefix, s, b) && Improves(c, prefix, b, r)
    ensures Improves(c, prefix, s, r)
  {
  }

  /**
   * One child of the loop: `updateTables`, the recursive `permut` with the
   * extended tour, then `restoreTables`.
   */
  function Branch(c: Weights, t: Tables, s: Search, nbVisited: nat, nbNotVisited: nat, distance: real,
                  nextNode: nat, i: nat)
    : (r: (Tables, Search))
    requires Square(c) && Partition(c, t, nbVisited, nbNotVisited)
    requires distance == PrefixCost(c, t.visited[..nbVisited])
    requires nbNotVisited >= 1 && nextNode < |c| && i < nbNotVisited && t.notVisited[i] == nextNode
    ensures Kept(t, nbVisited, r.0) && Improves(c, t.visited[..nbVisited], s, r.1)
    decreases nbNotVisited, 0, 0, 1
  {
    Restore(c, t, s, nbVisited, nbNotVisited, nextNode, i, Descend(c, t, s, nbVisited, nbNotVisited, distance, nextNode, i))
  }

  /** `updateTables`, then the recursive `permut` on the extended tour. */
  function Descend(c: Weights, t: Tables, s: Search, nbVisited: nat, nbNotVisited: nat, distance: real,
                   nextNode: nat, i: nat)
    : (r: (Tables, Search))
    requires Square(c) && Partition(c, t, nbVisited, nbNotVisited)
    requires distance == PrefixCost(c, t.visited[..nbVisited])
    requires nbNotVisited >= 1 && nextNode < |c| && i < nbNotVisited && t.notVisited[i] == nextNode
    ensures var u := UpdateTables(t, nbVisited, nbNotVisited, nextNode, i);
      Kept(u, nbVisited + 1, r.0) && Improves(c, u.visited[..nbVisited + 1], s, r.1)
    decreases nbNotVisited, 0, 0, 0
  {
    ChildReady(c, t, nbVisited, nbNotVisited, distance, nextNode, i);
    Permut(c, UpdateTables(t, nbVisited, nbNotVisited, nextNode, i), s, nbVisited + 1, nbNotVisited - 1,
           NewDistance(c, t, nbVisited, distance, nextNode))
  }

  /** The child call of `permut` starts from a valid state. */
  lemma ChildReady(c: Weights, t: Tables, nbVisited: nat, nbNotVisited: nat, distance: real, nextNode: nat, i: nat)
    requires Square(c) && Partition(c, t, nbVisited, nbNotVisited) && distance == PrefixCost(c, t.visited[..nbVisited])
    requires nbNotVisited >= 1 && nextNode < |c| && i < nbNotVisited && t.notVisited[i] == nextNode
    ensures 1 <= nbVisited < |t.visited| && t.visited[nbVisited - 1] < |c|
    ensures var u := UpdateTables(t, nbVisited, nbNotVisited, nextNode, i);
      && Partition(c, u, nbVisited + 1, nbNotVisited - 1)
      && NewDistance(c, t, nbVisited, distance, nextNode) == PrefixCost(c, u.visited[..nbVisited + 1])
  {
    ChildDistance(c, t, nbVisited, nbNotVisited, distance, nextNode, i);
    ChildPartition(c, t, nbVisited, nbNotVisited, nextNode, i);
  }

  /** `restoreTables` after the child call: the caller's tables come back, and the child's result is passed on. */
  function Restore(c: Weights, t: Tables, s: Search, nbVisited: nat, nbNotVisited: nat, nextNode: nat, i: nat,
                   child: (Tables, Search)): (r: (Tables, Search))
    requires |t.visited| == |c| + 1 && nbVisited < |t.visited| && i < nbNotVisited <= |t.notVisited| && t.notVisited[i] == nextNode
    requires var u := UpdateTables(t, nbVisited, nbNotVisited, nextNode, i);
      Kept(u, nbVisited + 1, child.0) && Improves(c, u.visited[..nbVisited + 1], s, child.1)
    ensures Kept(t, nbVisited, r.0) && Improves(c, t.visited[..nbVisited], s, r.1)
  {
    var u := UpdateTables(t, nbVisited, nbNotVisited, nextNode, i);
    RestoreUndoesUpdate(t, nbVisited, nbNotVisited, nextNode, i);
    PrefixOfPrefix(child.0.visited, u.visited, nbVisited);
    assert u.visited[..nbVisited] == t.visited[..nbVisited];
    if child.1.best != s.best then
      PrefixOfPrefix(child.1.bestPath, u.visited, nbVisited);
      (Tables(child.0.visited, RestoreTables(child.0.notVisited, nbNotVisited, nextNode, i)), child.1)
    else
      (Tables(child.0.visited, RestoreTables(child.0.notVisited, nbNotVisited, nextNode, i)), child.1)
  }


  lemma PrefixOfPrefix(a: seq<nat>, b: seq<nat>, n: nat)
    requires n + 1 <= |a| && n + 1 <= |b| && a[..n + 1] == b[..n + 1]
    ensures a[..n] == b[..n]
  {
    assert a[..n] == a[..n + 1][..n];
  }

  /** The child call of `permut` meets the partition invariant. */
  lemma ChildPartition(c: Weights, t: Tables, nbVisited: nat, nbNotVisited: nat, nextNode: nat, i: nat)
    requires Square(c) && Partition(c, t, nbVisited, nbNotVisited)
    requires nbNotVisited >= 1 && nextNode < |c| && i < nbNotVisited && t.notVisited[i] == nextNode
    ensures Partition(c, UpdateTables(t, nbVisited, nbNotVisited, nextNode, i), nbVisited + 1, nbNotVisited - 1)
  {
    var u := UpdateTables(t, nbVisited, nbNotVisited, nextNode, i);
    UpdatePartition(t, nbVisited, nbNotVisited, nextNode, i);
    var live := t.notVisited[..nbNotVisited];
    assert nextNode in multiset(live) by {
      assert live[i] == nextNode;
    }
    BelowSub(u.notVisited[..nbNotVisited - 1], live, |c|);
    MoveOne(multiset(t.visited[..nbVisited]), multiset(live), nextNode);
    assert u.visited[0] == 0;
  }

  /** A sub-multiset of a sequence below `n` is below `n` too. */
  lemma BelowSub(xs: seq<nat>, ys: seq<nat>, n: nat)
    requires Below(ys, n) && multiset(xs) <= multiset(ys)
    ensures Below(xs, n)
  {
    forall k | 0 <= k < |xs|
      ensures xs[k] < n
    {
      assert xs[k] in multiset(ys);
    }
  }

  /** Moving one element from one multiset to the other keeps their sum. */
  lemma MoveOne(a: multiset<nat>, b: multiset<nat>, x: nat)
    requires x in b
    ensures (a + multiset{x}) + (b - multiset{x}) == a + b
  {
  }

  /** The child's `distance` is the cost of the extended partial tour. */
  lemma ChildDistance(c: Weights, t: Tables, nbVisited: nat, nbNotVisited: nat, distance: real, nextNode: nat, i: nat)
    requires Square(c) && Partition(c, t, nbVisited, nbNotVisited) && distance == PrefixCost(c, t.visited[..nbVisited])
    requires nbNotVisited >= 1 && nextNode < |c| && i < nbNotVisited && t.notVisited[i] == nextNode
    ensures 1 <= nbVisited < |t.visited| && t.visited[nbVisited - 1] < |c|
    ensures var u := UpdateTables(t, nbVisited, nbNotVisited, nextNode, i);
      Below(u.visited[..nbVisited + 1], |c|)
      && NewDistance(c, t, nbVisited, distance, nextNode) == PrefixCost(c, u.visited[..nbVisited + 1])
  {
    var u := UpdateTables(t, nbVisited, nbNotVisited, nextNode, i);
    var q := t.visited[..nbVisited];
    assert u.visited[..nbVisited + 1] == q + [nextNode];
    assert q[nbVisited - 1] == t.visited[nbVisited - 1];
    PrefixCostSnoc(c, q, nextNode);
  }

  /** One more vertex adds the edge from the last one to it. */
  lemma PrefixCostSnoc(c: Weights, q: seq<nat>, x: nat)
    requires Square(c) && Below(q, |c|) && |q| >= 1 && x < |c|
    ensures Below(q + [x], |c|)
    ensures PrefixCost(c, q + [x]) == PrefixCost(c, q) + c[q[|q| - 1]][x]
  {
    var p := q + [x];
    forall k | 0 <= k < |p|
      ensures p[k] < |c|
    {
      if k < |q| {
        assert p[k] == q[k];
      }
    }
    assert p[..|p| - 1] == q;
    var a, b := q[|q| - 1], x;
    assert p[|p| - 2] == a && p[|p| - 1] == b;
    assert PrefixCost(c, p) == PrefixCost(c, p[..|p| - 1]) + c[a][b];
  }

  /** At a leaf the partial tour plus the return to 0 is a complete tour costing `distance` plus that edge. */
  lemma LeafTour(c: Weights, t: Tables, nbVisited: nat, distance: real)
    requires Square(c) && Partition(c, t, nbVisited, 0) && distance == PrefixCost(c, t.visited[..nbVisited])
    ensures var path := t.visited[..nbVisited] + [0];
      && Tour(c, path) && Below(path, |c|)
      && PrefixCost(c, path) == distance + c[t.visited[nbVisited - 1]][0]
  {
    var v := t.visited[..nbVisited];
    LeafCircuit(c, v);
    assert v[nbVisited - 1] == t.visited[nbVisited - 1];
    LeafCost(c, v);
  }

  /** A partial tour holding every vertex, closed by the edge back to 0, is a tour. */
  lemma LeafCircuit(c: Weights, v: seq<nat>)
    requires |c| >= 1 && |v| == |c| && v[0] == 0 && Below(v, |c|) && multiset(v) == multiset(Range(0, |c|))
    ensures Tour(c, v + [0]) && Below(v + [0], |c|)
  {
    assert (v + [0])[..|c|] == v;
  }

  /** Closing a walk adds the cost of its last edge. */
  lemma LeafCost(c: Weights, v: seq<nat>)
    requires Square(c) && |v| >= 1 && Below(v, |c|) && |c| >= 1
    ensures Below(v + [0], |c|) && PrefixCost(c, v + [0]) == PrefixCost(c, v) + c[v[|v| - 1]][0]
  {
    var p := v + [0];
    assert Below(p, |c|) by {
      forall k | 0 <= k < |p|
        ensures p[k] < |c|
      {
        if k < |v| {
          assert p[k] == v[k];
        }
      }
    }
    assert p[..|p| - 1] == v;
    assert p[|p| - 2] == v[|v| - 1] && p[|p| - 1] == 0;
  }


  // ---------------------------------------------------------------------------
  // findBestCost

  datatype Engine = Engine(costsMatrix: Weights, best: Cost, bestPath: seq<nat>)

  /** A new engine: `best = MAX_VALUE`, no path yet. */
  function NewEngine(costsMatrix: Weights): (e: Engine)
    ensures e.costsMatrix == costsMatrix && e.bestPath == []
    ensures forall x: Cost :: x.AtMost(e.best)
  {
    Engine(costsMatrix, MaxValue, [])
  }

  /**
   * `findBestCost`: seeds `visited[0] = 0`, `notVisited = [1..n-1]`, a fresh
   * zeroed `bestPath`, and runs `permut` from distance 0.  `best` is not reset.
   * With an empty matrix `new int[n - 1]` throws.
   */
  function FindBestCost(e: Engine): (r: Result<Engine, string>)
    requires Square(e.costsMatrix)
    ensures |e.costsMatrix| == 0 <==> r.Failure?
    ensures r.Success? ==> r.value.costsMatrix == e.costsMatrix && r.value.best.AtMost(e.best)
    ensures r.Success? ==> |r.value.bestPath| == |e.costsMatrix| + 1
    ensures r.Success? && r.value.best != e.best ==>
      r.value.best.Less(e.best) && Found(e.costsMatrix, Search(r.value.best, r.value.bestPath))
    ensures r.Success? && r.value.best == e.best ==> r.value.bestPath == seq(|e.costsMatrix| + 1, _ => 0)
  {
    var c := e.costsMatrix;
    var n := |c|;
    if n == 0 then Failure("NegativeArraySizeException")
    else
      var t := Tables(seq(n + 1, _ => 0), Range(1, n));
      var zeros := seq(n + 1, _ => 0);
      var s := Search(e.best, zeros);
      SeedPartition(c);
      var r := Permut(c, t, s, 1, n - 1, 0.0);
      Success(Engine(c, r.1.best, r.1.bestPath))
  }

  lemma SeedPartition(c: Weights)
    requires Square(c) && |c| >= 1
    ensures Partition(c, Tables(seq(|c| + 1, _ => 0), Range(1, |c|)), 1, |c| - 1)
    ensures PrefixCost(c, seq(|c| + 1, _ => 0)[..1]) == 0.0
  {
    var n := |c|;
    var t := Tables(seq(n + 1, _ => 0), Range(1, n));
    assert t.visited[..1] == [0];
    assert t.notVisited[..n - 1] == Range(1, n);
    assert Range(0, n) == [0] + Range(1, n);
    assert multiset(Range(0, n)) == multiset([0]) + multiset(Range(1, n));
  }

  /** With two vertices the only tour is 0 -> 1 -> 0, and a fresh engine finds it. */
  lemma TwoVertices(a: real, b: real, d: real, e: real)
    ensures var r := FindBestCost(NewEngine([[a, b], [d, e]]));
      r.Success? && r.value.best == Fin(b + d) && r.value.bestPath == [0, 1, 0]
  {
    var c: Weights := [[a, b], [d, e]];
    SeedPartition(c);
    assert seq(3, _ => 0) == [0, 0, 0];
    assert Range(1, 2) == [1];
    TwoPermut(a, b, d, e);
  }

  lemma TwoPermut(a: real, b: real, d: real, e: real)
    ensures var c: Weights := [[a, b], [d, e]];
      Partition(c, Tables([0, 0, 0], [1]), 1, 1)
      && Permut(c, Tables([0, 0, 0], [1]), Search(MaxValue, [0, 0, 0]), 1, 1, 0.0).1
         == Search(Fin(0.0 + b + d), [0, 1, 0])
  {
    var c: Weights := [[a, b], [d, e]];
    var t := Tables([0, 0, 0], [1]);
    var s0 := Search(MaxValue, [0, 0, 0]);
    SeedPartition(c);
    assert Range(1, 2) == [1];
    assert t.visited[..1] == [0];
    TwoBranch(a, b, d, e);
    var br := Branch(c, t, s0, 1, 1, 0.0, 1, 0);
    assert SortByCost(c, 0, t.notVisited[..1]) == [1] by {
      assert t.notVisited[..1] == [1];
    }
    assert FindIndex(t.notVisited, 1, 1) == 0;
    assert !ContainIntersection(c, 1, 0, 1, t.visited);
    assert PermutLoop(c, t, s0, 1, 1, 0.0, [1], 0) == PermutLoop(c, br.0, br.1, 1, 1, 0.0, [1], 1);
  }

  lemma TwoBranch(a: real, b: real, d: real, e: real)
    ensures var c: Weights := [[a, b], [d, e]];
      Partition(c, Tables([0, 0, 0], [1]), 1, 1)
      && Branch(c, Tables([0, 0, 0], [1]), Search(MaxValue, [0, 0, 0]), 1, 1, 0.0, 1, 0).1
         == Search(Fin(0.0 + b + d), [0, 1, 0])
  {
    var c: Weights := [[a, b], [d, e]];
    var t := Tables([0, 0, 0], [1]);
    var s0 := Search(MaxValue, [0, 0, 0]);
    SeedPartition(c);
    assert Range(1, 2) == [1];
    assert t.visited[..1] == [0];
    var u := UpdateTables(t, 1, 1, 1, 0);
    assert u == Tables([0, 1, 0], [1]);
    ChildPartition(c, t, 1, 1, 1, 0);
    ChildDistance(c, t, 1, 1, 0.0, 1, 0);
    TwoLeaf(a, b, d, e);
  }

  lemma TwoLeaf(a: real, b: real, d: real, e: real)
    ensures var c: Weights := [[a, b], [d, e]];
      Partition(c, Tables([0, 1, 0], [1]), 2, 0)
      && 0.0 + b == PrefixCost(c, [0, 1, 0][..2])
      && Permut(c, Tables([0, 1, 0], [1]), Search(MaxValue, [0, 0, 0]), 2, 0, 0.0 + b).1
         == Search(Fin(0.0 + b + d), [0, 1, 0])
  {
    var c: Weights := [[a, b], [d, e]];
    var v := [0, 1, 0];
    assert v[..2] == [0, 1];
    assert [0, 1][..1] == [0];
    assert Range(0, 2) == [0, 1];
    assert [1][..0] == [];
    assert v[..2] + [0] == v;
  }
}

=== FILE: command_manager.dfy ===
/**
 * Undo and redo (`controller/CommandManager.java`): two stacks of commands,
 * `commandStack` for what can be undone and `undoStack` for what can be
 * redone.  A stack is a sequence whose top is its last element.
 *
 * A command that throws inside `execute` or `undo` propagates the exception:
 * `executeCommand` then never pushes it, and `undo`/`redo` have already
 * popped it, so it is lost.
 */
module CommandManagers {
  import opened Wrappers
  import Rounds
  import opened Commands

  datatype Manager = Manager(commandStack: seq<Command>, undoStack: seq<Command>)

  /** The arguments of each command on a stack, bottom to top. */
  function Keys(cs: seq<Command>): (ks: seq<Command>)
    ensures |ks| == |cs| && forall i | 0 <= i < |cs| :: ks[i] == Key(cs[i])
  {
    seq(|cs|, i requires 0 <= i < |cs| => Key(cs[i]))
  }

  /** The number of commands held on both stacks. */
  function Total(m: Manager): nat {
    |m.commandStack| + |m.undoStack|
  }

  /** A fresh manager: both stacks empty. */
  function NewManager(): (m: Manager)
    ensures Total(m) == 0
  {
    Manager([], [])
  }

  /**
   * `executeCommand`: the command runs, then goes on top of `commandStack`,
   * and everything that could be redone is dropped.
   */
  function ExecuteCommand(m: Manager, c: Command, r: Rounds.Round): (res: (Manager, Rounds.Round, Result<(), string>))
    requires Rounds.SolversValid(r)
    ensures var (m1, r1, e) := res;
      && Rounds.SolversValid(r1)
      && (r1, e) == (Execute(c, r).1, Execute(c, r).2)
      && (e.Failure? ==> m1 == m)
      && (e.Success? ==>
          && m1.undoStack == [] && |m1.commandStack| == |m.commandStack| + 1
          && m1.commandStack[..|m.commandStack|] == m.commandStack
          && m1.commandStack[|m.commandStack|] == Execute(c, r).0
          && Key(m1.commandStack[|m.commandStack|]) == Key(c))
  {
    var (c1, r1, e) := Execute(c, r);
    if e.Failure? then (m, r1, e)
    else (Manager(m.commandStack + [c1], []), r1, Success(()))
  }

  /**
   * `undo`: nothing on an empty `commandStack`; otherwise the top command is
   * popped, undone, and pushed on `undoStack`.
   */
  function Undo(m: Manager, r: Rounds.Round): (res: (Manager, Rounds.Round, Result<(), string>))
    requires Rounds.SolversValid(r)
    ensures var (m1, r1, e) := res;
      && Rounds.SolversValid(r1)
      && (|m.commandStack| == 0 ==> res == (m, r, Success(())))
      && (|m.commandStack| > 0 ==>
          var n := |m.commandStack| - 1;
          && m1.commandStack == m.commandStack[..n]
          && (r1, e) == Commands.Undo(m.commandStack[n], r)
          && (e.Success? ==> m1.undoStack == m.undoStack + [m.commandStack[n]])
          && (e.Failure? ==> m1.undoStack == m.undoStack))
  {
    if |m.commandStack| == 0 then (m, r, Success(()))
    else
      var n := |m.commandStack| - 1;
      var c := m.commandStack[n];
      var (r1, e) := Commands.Undo(c, r);
      if e.Failure? then (m.(commandStack := m.commandStack[..n]), r1, e)
      else (Manager(m.commandStack[..n], m.undoStack + [c]), r1, Success(()))
  }

  /**
   * `redo`: nothing on an empty `undoStack`; otherwise the top command is
   * popped, executed again, and pushed on `commandStack`.
   */
  function Redo(m: Manager, r: Rounds.Round): (res: (Manager, Rounds.Round, Result<(), string>))
    requires Rounds.SolversValid(r)
    ensures var (m1, r1, e) := res;
      && Rounds.SolversValid(r1)
      && (|m.undoStack| == 0 ==> res == (m, r, Success(())))
      && (|m.undoStack| > 0 ==>
          var n := |m.undoStack| - 1;
          && m1.undoStack == m.undoStack[..n]
          && (r1, e) == (Execute(m.undoStack[n], r).1, Execute(m.undoStack[n], r).2)
          && (e.Success? ==> m1.commandStack == m.commandStack + [Execute(m.undoStack[n], r).0])
          && (e.Failure? ==> m1.commandStack == m.commandStack))
  {
    if |m.undoStack| == 0 then (m, r, Success(()))
    else
      var n := |m.undoStack| - 1;
      var (c1, r1, e) := Execute(m.undoStack[n], r);
      if e.Failure? then (m.(undoStack := m.undoStack[..n]), r1, e)
      else (Manager(m.commandStack + [c1], m.undoStack[..n]), r1, Success(()))
  }

  /** `getLastCommand`: the top of `commandStack`, left in place, or `null`. */
  function GetLastCommand(m: Manager): (c: Option<Command>)
    ensures c.None? <==> |m.commandStack| == 0
    ensures c.Some? ==> c.value == m.commandStack[|m.commandStack| - 1]
  {
    if |m.commandStack| == 0 then None else Some(m.commandStack[|m.commandStack| - 1])
  }

  /** `resetCommandStack`: both stacks emptied. */
  function ResetCommandStack(m: Manager): (m1: Manager)
    ensures m1.commandStack == [] && m1.undoStack == [] && Total(m1) == 0
  {
    Manager([], [])
  }

  // ---------------------------------------------------------------------------
  // Properties across calls

  /**
   * Undo followed by redo restores the redo stack; when the re-execution goes
   * through, it restores the command stack too: the same commands, the
   * redone one with the record of its new run.
   */
  lemma UndoThenRedo(m: Manager, r: Rounds.Round)
    requires Rounds.SolversValid(r) && |m.commandStack| > 0
    requires Undo(m, r).2.Success?
    ensures var (m1, r1, _) := Undo(m, r);
      var (m2, _, e) := Redo(m1, r1);
      && m2.undoStack == m.undoStack
      && (e.Success? ==> Keys(m2.commandStack) == Keys(m.commandStack))
      && (e.Success? ==> m2.commandStack[..|m.commandStack| - 1] == m.commandStack[..|m.commandStack| - 1])
  {
    var (m1, r1, _) := Undo(m, r);
    var n := |m.commandStack| - 1;
    assert m1.undoStack == m.undoStack + [m.commandStack[n]];
    assert m1.undoStack[..|m1.undoStack| - 1] == m.undoStack;
    var (m2, _, e) := Redo(m1, r1);
    if e.Success? {
      assert m.commandStack == m.commandStack[..n] + [m.commandStack[n]];
      KeysAppended(m.commandStack[..n], m.commandStack[n], m2.commandStack);
    }
  }

  lemma KeysAppended(cs: seq<Command>, c: Command, ds: seq<Command>)
    requires |ds| == |cs| + 1 && ds[..|cs|] == cs && Key(ds[|cs|]) == Key(c)
    ensures Keys(ds) == Keys(cs + [c])
  {
  }

  /**
   * Undo and redo move commands between the stacks without adding any; one
   * that throws is lost.
   */
  lemma UndoRedoCount(m: Manager, r: Rounds.Round)
    requires Rounds.SolversValid(r)
    ensures var (m1, _, e) := Undo(m, r);
      && (e.Success? ==> Total(m1) == Total(m))
      && (e.Failure? ==> Total(m1) + 1 == Total(m))
    ensures var (m2, _, e) := Redo(m, r);
      && (e.Success? ==> Total(m2) == Total(m))
      && (e.Failure? ==> Total(m2) + 1 == Total(m))
  {
  }

  /** A command that went through is the last one, and nothing is left to redo. */
  lemma ExecuteThenLast(m: Manager, c: Command, r: Rounds.Round)
    requires Rounds.SolversValid(r) && ExecuteCommand(m, c, r).2.Success?
    ensures var (m1, _, _) := ExecuteCommand(m, c, r);
      && GetLastCommand(m1).Some? && Key(GetLastCommand(m1).value) == Key(c)
      && Redo(m1, ExecuteCommand(m, c, r).1) == (m1, ExecuteCommand(m, c, r).1, Success(()))
  {
  }

  /** After a reset there is nothing to undo or redo. */
  lemma ResetThenUndo(m: Manager, r: Rounds.Round)
    requires Rounds.SolversValid(r)
    ensures var m1 := ResetCommandStack(m);
      && Undo(m1, r) == (m1, r, Success(()))
      && Redo(m1, r) == (m1, r, Success(()))
      && GetLastCommand(m1).None?
  {
  }

  /**
   * Deleting a delivery through the manager and undoing it gives back the
   * same requests, with the command now waiting to be redone.
   */
  lemma DeleteUndoThroughManager(m: Manager, c: Command, r: Rounds.Round)
    requires Rounds.SolversValid(r) && c.DeleteDelivery?
    ensures var (m1, r1, _) := ExecuteCommand(m, c, r);
      var (m2, r2, e) := Undo(m1, r1);
      && e.Success? && m2.commandStack == m.commandStack && |m2.undoStack| == 1
      && Key(m2.undoStack[0]) == Key(c)
      && r2 == r.(requests := r2.requests) && multiset(r2.requests) == multiset(r.requests)
  {
    var (c1, r1) := ExecuteDelete(c, r);
    DeleteExecuteUndo(c, r);
    var (m1, r1', _) := ExecuteCommand(m, c, r);
    assert m1.commandStack[..|m.commandStack|] == m.commandStack;
  }
}

=== FILE: commands.dfy ===
/**
 * The three reversible edits of a round (`controller/AddDeliveryPointCommand.java`,
 * `DeleteDeliveryCommand.java`, `DefineWarehousePointCommand.java`).  A
 * command is a value holding its arguments and what its last `execute`
 * recorded; `Execute` returns the command with the new record, and `Undo`
 * reads that record.
 */
module Commands {
  import opened Wrappers
  import opened Seqs
  import opened Text
  import Rounds
  import Solvers

  type Round = Rounds.Round
  type DeliveryRequest = Rounds.DeliveryRequest
  type DeliveryTour = Rounds.DeliveryTour

  datatype Command =
      /** Add a delivery at `intersectionId`; with `courierId >= 0` also to that courier's tour. */
    | AddPoint(intersectionId: string, courierId: int, addedRequest: Option<DeliveryRequest>, updatedTours: seq<DeliveryTour>)
      /** Delete the delivery request at `deliveryRequestId`. */
    | DeleteDelivery(deliveryRequestId: string, deletedRequest: Option<DeliveryRequest>)
      /** Put the warehouse at `intersectionId`. */
    | DefineWarehouse(intersectionId: string, warehouse: Option<Rounds.Intersection>)

  /** The command as its constructor leaves it: the arguments, nothing recorded. */
  function Key(c: Command): (k: Command)
    ensures k.AddPoint? <==> c.AddPoint?
    ensures k.DeleteDelivery? <==> c.DeleteDelivery?
    ensures k.DefineWarehouse? <==> c.DefineWarehouse?
  {
    match c
    case AddPoint(id, courier, _, _) => AddPoint(id, courier, None, [])
    case DeleteDelivery(id, _) => DeleteDelivery(id, None)
    case DefineWarehouse(id, _) => DefineWarehouse(id, None)
  }

  // ---------------------------------------------------------------------------
  // AddDeliveryPointCommand

  /**
   * `execute` of an add: the request is added (or `null` recorded), and with
   * a courier the local update runs with mode 1 on the added address, which
   * dereferences the request; the resulting tours, or the list the command
   * was built with when there is no courier, become the round's tours.
   */
  function ExecuteAdd(c: Command, r: Round): (res: (Command, Round, Result<(), string>))
    requires c.AddPoint? && Rounds.SolversValid(r)
    ensures var (c1, r1, e) := res;
      && Key(c1) == Key(c) && Rounds.SolversValid(r1)
      && c1.addedRequest == Rounds.AddDeliveryIntersection(r, c.intersectionId).1
      && r1.places == r.places && r1.plan == r.plan && r1.couriers == r.couriers && r1.warehouse == r.warehouse
      && (c.courierId < 0 ==> e.Success? && c1 == c.(addedRequest := c1.addedRequest) && r1.tours == c.updatedTours)
      && (c.courierId < 0 || c1.addedRequest.Some? ==> r1.requests == Rounds.AddDeliveryIntersection(r, c.intersectionId).0.requests)
      && (c.courierId >= 0 && c1.addedRequest.None? ==> e.Failure? && r1 == r)
      && (c.courierId >= 0 && e.Success? ==> r1.tours == c1.updatedTours && |r1.tours| == |r.tours|)
      && (c.courierId >= 0 && e.Failure? ==> r1.tours == r.tours)
      && (c.courierId >= 0 && e.Success? ==>
          var k := c.courierId;
          && c1.addedRequest.Some? && k < |r.couriers| && k < |r.tours| && k < |r.solvers|
          && r1.tours == r.tours[k := r1.tours[k]]
          && |r1.solvers| == |r.solvers| && (forall i | 0 <= i < |r.solvers| && i != k :: r1.solvers[i] == r.solvers[i])
          && r1.tours[k].courier == r.couriers[k] && r1.tours[k].route == r1.solvers[k].bestPath)
  {
    var (r1, q) := Rounds.AddDeliveryIntersection(r, c.intersectionId);
    var c1 := c.(addedRequest := q);
    if c.courierId >= 0 then
      if q.None? then (c1, r1, Failure("NullPointerException"))
      else
        var (r2, t) := Rounds.UpdateLocalPoint(r1, c.courierId, q.value.address.id, 1);
        if t.Failure? then (c1, r2, Failure(t.error))
        else (c1.(updatedTours := t.value), r2.(tours := t.value), Success(()))
    else (c1, r1.(tours := c.updatedTours), Success(()))
  }

  /**
   * `undo` of an add: nothing without a recorded request; otherwise the
   * request at its address is deleted, with a courier the local update runs
   * with mode -1, and the command's tour list is installed again.  With a
   * courier, `execute` installed that very list in the round, so the local
   * update has just written the recomputed tour into its slot: the round
   * keeps the tours the undo's local update leaves.  Without a courier the
   * list is the one the command was built with.
   */
  function UndoAdd(c: Command, r: Round): (res: (Round, Result<(), string>))
    requires c.AddPoint? && Rounds.SolversValid(r)
    ensures var (r1, e) := res;
      && Rounds.SolversValid(r1)
      && r1.places == r.places && r1.plan == r.plan && r1.couriers == r.couriers && r1.warehouse == r.warehouse
      && (c.addedRequest.None? ==> res == (r, Success(())))
      && (c.addedRequest.Some? ==>
          r1.requests == Rounds.DeleteDeliveryRequest(r, c.addedRequest.value.address.id).0.requests)
      && (c.courierId < 0 ==> e.Success? && r1.solvers == r.solvers)
      && (c.addedRequest.Some? && c.courierId < 0 ==> r1.tours == c.updatedTours)
      && (c.courierId >= 0 && e.Failure? ==> r1.tours == r.tours)
      && (c.addedRequest.Some? && c.courierId >= 0 && e.Success? ==>
          var k := c.courierId;
          && k < |r.couriers| && k < |r.tours| == |r1.tours| && k < |r1.solvers| && r1.tours == r.tours[k := r1.tours[k]]
          && |r1.solvers| == |r.solvers| && (forall i | 0 <= i < |r.solvers| && i != k :: r1.solvers[i] == r.solvers[i])
          && r1.tours[k].courier == r.couriers[k] && r1.tours[k].route == r1.solvers[k].bestPath)
  {
    match c.addedRequest
    case None => (r, Success(()))
    case Some(q) =>
      var (r1, _) := Rounds.DeleteDeliveryRequest(r, q.address.id);
      if c.courierId >= 0 then
        var (r2, t) := Rounds.UpdateLocalPoint(r1, c.courierId, q.address.id, -1);
        if t.Failure? then (r2, Failure(t.error))
        else (r2, Success(()))
      else (r1.(tours := c.updatedTours), Success(()))
  }

  // ---------------------------------------------------------------------------
  // DeleteDeliveryCommand

  /** `execute` of a delete: the first matching request is recorded, then removed. */
  function ExecuteDelete(c: Command, r: Round): (res: (Command, Round))
    requires c.DeleteDelivery?
    ensures Key(res.0) == Key(c)
    ensures res.0.deletedRequest == Rounds.GetDeliveryRequestById(r, c.deliveryRequestId)
    ensures res.1 == r.(requests := res.1.requests)
    ensures res.0.deletedRequest.None? ==> res.1 == r
    ensures res.0.deletedRequest.Some? ==>
      multiset(res.1.requests) + multiset{res.0.deletedRequest.value} == multiset(r.requests)
  {
    var q := Rounds.GetDeliveryRequestById(r, c.deliveryRequestId);
    var (r1, _) := Rounds.DeleteDeliveryRequest(r, c.deliveryRequestId);
    (c.(deletedRequest := q), r1)
  }

  /** `undo` of a delete: the recorded request goes back, at the end of the list. */
  function UndoDelete(c: Command, r: Round): (r1: Round)
    requires c.DeleteDelivery?
    ensures r1 == r.(requests := r1.requests)
    ensures c.deletedRequest.None? ==> r1 == r
    ensures c.deletedRequest.Some? ==>
      && |r1.requests| == |r.requests| + 1
      && r1.requests[..|r.requests|] == r.requests && r1.requests[|r.requests|] == c.deletedRequest.value
  {
    match c.deletedRequest
    case None => r
    case Some(q) => r.(requests := r.requests + [q])
  }

  // ---------------------------------------------------------------------------
  // DefineWarehousePointCommand

  /** `execute` of a define: the warehouse the round sets, or `null`, is recorded. */
  function ExecuteDefine(c: Command, r: Round): (res: (Command, Round))
    requires c.DefineWarehouse?
    ensures Key(res.0) == Key(c)
    ensures res.1 == r.(warehouse := res.1.warehouse)
    ensures res.0.warehouse.None? <==> Trim(c.intersectionId) !in r.places
    ensures res.0.warehouse.None? ==> res.1 == r
    ensures res.0.warehouse.Some? ==> res.0.warehouse == res.1.warehouse == Some(r.places[Trim(c.intersectionId)])
  {
    var (r1, w) := Rounds.DefineWarehousePoint(r, c.intersectionId);
    (c.(warehouse := w), r1)
  }

  /** `undo` of a define: the warehouse is deleted, whatever was there before. */
  function UndoDefine(c: Command, r: Round): (r1: Round)
    requires c.DefineWarehouse?
    ensures c.warehouse.None? ==> r1 == r
    ensures c.warehouse.Some? ==> r1 == r.(warehouse := None)
  {
    if c.warehouse.Some? then Rounds.DeleteWarehouse(r) else r
  }

  // ---------------------------------------------------------------------------
  // The command interface

  /** `execute()` of any command: the recorded command, the round, and whether it threw. */
  function Execute(c: Command, r: Round): (res: (Command, Round, Result<(), string>))
    requires Rounds.SolversValid(r)
    ensures Key(res.0) == Key(c) && Rounds.SolversValid(res.1)
    ensures !c.AddPoint? ==> res.2.Success?
    ensures !c.AddPoint? ==> res.1.tours == r.tours && res.1.solvers == r.solvers
    ensures c.AddPoint? && c.courierId < 0 ==> res.2.Success?
  {
    match c
    case AddPoint(_, _, _, _) => ExecuteAdd(c, r)
    case DeleteDelivery(_, _) => var (c1, r1) := ExecuteDelete(c, r); (c1, r1, Success(()))
    case DefineWarehouse(_, _) => var (c1, r1) := ExecuteDefine(c, r); (c1, r1, Success(()))
  }

  /** `undo()` of any command; only the local update of an add can throw. */
  function Undo(c: Command, r: Round): (res: (Round, Result<(), string>))
    requires Rounds.SolversValid(r)
    ensures Rounds.SolversValid(res.0)
    ensures !(c.AddPoint? && c.courierId >= 0) ==> res.1.Success?
    ensures !c.AddPoint? ==> res.0.tours == r.tours && res.0.solvers == r.solvers
  {
    match c
    case AddPoint(_, _, _, _) => UndoAdd(c, r)
    case DeleteDelivery(_, _) => (UndoDelete(c, r), Success(()))
    case DefineWarehouse(_, _) => (UndoDefine(c, r), Success(()))
  }

  // ---------------------------------------------------------------------------
  // Execute, then undo

  /**
   * A delete undone gives back the same requests, possibly reordered (the
   * request returns at the end); warehouse and tours are never touched.
   */
  lemma DeleteExecuteUndo(c: Command, r: Round)
    requires c.DeleteDelivery?
    ensures var (c1, r1) := ExecuteDelete(c, r);
      var r2 := UndoDelete(c1, r1);
      && r2 == r.(requests := r2.requests) && multiset(r2.requests) == multiset(r.requests)
      && (c1.deletedRequest.None? ==> r2 == r)
  {
    var (c1, r1) := ExecuteDelete(c, r);
    if c1.deletedRequest.Some? {
      var r2 := UndoDelete(c1, r1);
      assert r2.requests == r1.requests + [c1.deletedRequest.value];
    }
  }

  /**
   * A delete undone restores the list exactly when the deleted request was
   * the last one.
   */
  lemma DeleteLastExecuteUndo(c: Command, r: Round)
    requires c.DeleteDelivery? && |r.requests| > 0
    requires Rounds.FirstMatch(r.requests, c.deliveryRequestId) == |r.requests| - 1
    ensures var (c1, r1) := ExecuteDelete(c, r);
      UndoDelete(c1, r1) == r
  {
    var (c1, r1) := ExecuteDelete(c, r);
    var i := |r.requests| - 1;
    Rounds.DeleteRemovesFirstMatch(r, c.deliveryRequestId);
    LastBack(r.requests, i);
  }

  lemma LastBack<T>(xs: seq<T>, i: nat)
    requires i + 1 == |xs|
    ensures xs[..i] + xs[i + 1..] + [xs[i]] == xs
  {
  }

  /**
   * A define undone leaves no warehouse at all when the id was known, not the
   * one there was before; an unknown id changes nothing.  The requests are
   * never touched.
   */
  lemma DefineExecuteUndo(c: Command, r: Round)
    requires c.DefineWarehouse?
    ensures var (c1, r1) := ExecuteDefine(c, r);
      var r2 := UndoDefine(c1, r1);
      && r2.requests == r.requests
      && (Trim(c.intersectionId) in r.places ==> r2 == r.(warehouse := None))
      && (Trim(c.intersectionId) !in r.places ==> r2 == r)
  {
  }

  /**
   * An add without a courier, undone, leaves the ids of the requests as they
   * were (exactly the same list when no earlier request had that id), and the
   * tours are the list the command was built with.
   */
  lemma AddExecuteUndo(c: Command, r: Round)
    requires c.AddPoint? && c.courierId < 0 && Rounds.SolversValid(r)
    ensures var (c1, r1, _) := ExecuteAdd(c, r);
      var (r2, e) := UndoAdd(c1, r1);
      && e.Success? && r2.tours == c.updatedTours
      && r2 == r.(requests := r2.requests, tours := r2.tours)
      && multiset(Rounds.Ids(r2.requests)) == multiset(Rounds.Ids(r.requests))
  {
    var (c1, r1, _) := ExecuteAdd(c, r);
    if Trim(c.intersectionId) in r.places {
      Rounds.AddThenDeleteRequest(r, c.intersectionId);
    }
  }

  /**
   * An add to a courier's tour, undone with both local updates going
   * through: the tours are the ones `execute` produced except in the
   * courier's slot, which holds the tour the undo recomputed: the same
   * courier, along a path with the stops of the path before the add.
   */
  lemma AddLocalExecuteUndo(c: Command, r: Round)
    requires c.AddPoint? && c.courierId >= 0 && Rounds.SolversValid(r)
    requires ExecuteAdd(c, r).2.Success?
    requires var (c1, r1, _) := ExecuteAdd(c, r); UndoAdd(c1, r1).1.Success?
    ensures var (c1, r1, _) := ExecuteAdd(c, r);
      var (r2, _) := UndoAdd(c1, r1);
      var k := c.courierId;
      var x := r.plan.indexes[c1.addedRequest.value.address.id];
      && k < |r.solvers| && k < |r2.solvers| && k < |c1.updatedTours|
      && c1.addedRequest.value.address.id in r.plan.indexes
      && r2.tours == c1.updatedTours[k := r2.tours[k]]
      && r2.tours[k].courier == r.couriers[k] && r2.tours[k].route == r2.solvers[k].bestPath
      && multiset(r2.tours[k].route) == multiset(c1.updatedTours[k].route) - multiset{x}
      && multiset(r2.tours[k].route) == multiset(Solvers.GetBestPath(r.solvers[k]).0.bestPath)
  {
    var (c1, r1, _) := ExecuteAdd(c, r);
    var k := c.courierId;
    ExecuteLocal(c, r);
    var x := r.plan.indexes[c1.addedRequest.value.address.id];
    UndoLocal(c1, r1, x);
  }

  /**
   * The same add and undo, for the courier's vertex list: the point's plan
   * index was appended and its first occurrence removed, which gives back
   * the list before whenever the index was not in it yet.
   */
  lemma AddLocalVertices(c: Command, r: Round)
    requires c.AddPoint? && c.courierId >= 0 && Rounds.SolversValid(r)
    requires ExecuteAdd(c, r).2.Success?
    requires var (c1, r1, _) := ExecuteAdd(c, r); UndoAdd(c1, r1).1.Success?
    ensures var (c1, r1, _) := ExecuteAdd(c, r);
      var (r2, _) := UndoAdd(c1, r1);
      var k := c.courierId;
      && c1.addedRequest.Some? && c1.addedRequest.value.address.id in r.plan.indexes
      && var x := r.plan.indexes[c1.addedRequest.value.address.id];
      && k < |r.solvers| && k < |r2.solvers|
      && r2.solvers[k].vertices == RemoveFirst(r.solvers[k].vertices + [x], x)
      && (x !in r.solvers[k].vertices ==> r2.solvers[k].vertices == r.solvers[k].vertices)
  {
    var (c1, r1, _) := ExecuteAdd(c, r);
    var k := c.courierId;
    ExecuteLocal(c, r);
    var x := r.plan.indexes[c1.addedRequest.value.address.id];
    UndoLocal(c1, r1, x);
    var vs := r.solvers[k].vertices;
    if x !in vs {
      RemoveFirstInserted(vs, x, []);
      assert vs + [x] + [] == vs + [x];
    }
  }

  /** What a courier add leaves when it goes through: the courier's tour follows its path, which gained the point. */
  lemma ExecuteLocal(c: Command, r: Round)
    requires c.AddPoint? && c.courierId >= 0 && Rounds.SolversValid(r)
    requires ExecuteAdd(c, r).2.Success?
    ensures var (c1, r1, _) := ExecuteAdd(c, r);
      var k := c.courierId;
      && c1.addedRequest.Some? && c1.addedRequest.value.address.id in r.plan.indexes
      && var x := r.plan.indexes[c1.addedRequest.value.address.id];
      && k < |r.solvers| == |r1.solvers| && k < |r1.tours| && c1.updatedTours == r1.tours
      && r1.tours[k].route == r1.solvers[k].bestPath
      && r1.solvers[k].vertices == r.solvers[k].vertices + [x]
      && |Solvers.GetBestPath(r.solvers[k]).0.bestPath| > 0 && |r1.solvers[k].bestPath| >= 2
      && multiset(r1.solvers[k].bestPath) == multiset(Solvers.GetBestPath(r.solvers[k]).0.bestPath) + multiset{x}
  {
    var (c1, r1, _) := ExecuteAdd(c, r);
    var a := c1.addedRequest.value.address.id;
    var (ra, _) := Rounds.AddDeliveryIntersection(r, c.intersectionId);
    var (rb, t) := Rounds.UpdateLocalPoint(ra, c.courierId, a, 1);
    assert ra.solvers == r.solvers;
    Rounds.ComputeNewRoundPath(ra, c.courierId, r.plan.indexes[a], 1);
    var k := c.courierId;
    assert |multiset(r1.solvers[k].bestPath)| == |multiset(Solvers.GetBestPath(r.solvers[k]).0.bestPath)| + 1;
  }

  /**
   * What the undo of a courier add leaves when it goes through: the
   * courier's path lost the point once, and the courier's tour follows it.
   */
  lemma UndoLocal(c1: Command, r1: Round, x: int)
    requires c1.AddPoint? && c1.courierId >= 0 && c1.addedRequest.Some? && Rounds.SolversValid(r1)
    requires c1.addedRequest.value.address.id in r1.plan.indexes && x == r1.plan.indexes[c1.addedRequest.value.address.id]
    requires UndoAdd(c1, r1).1.Success?
    requires c1.courierId < |r1.solvers| && |r1.solvers[c1.courierId].bestPath| >= 2
    ensures var r2 := UndoAdd(c1, r1).0;
      var k := c1.courierId;
      && k < |r1.tours| == |r2.tours| && k < |r2.solvers| && r2.tours == r1.tours[k := r2.tours[k]]
      && r2.tours[k].courier == r1.couriers[k] && r2.tours[k].route == r2.solvers[k].bestPath
      && r2.solvers[k].vertices == RemoveFirst(r1.solvers[k].vertices, x)
      && multiset(r2.solvers[k].bestPath) == multiset(r1.solvers[k].bestPath) - multiset{x}
  {
    var a := c1.addedRequest.value.address.id;
    var (rd, _) := Rounds.DeleteDeliveryRequest(r1, a);
    assert rd.solvers == r1.solvers;
    Rounds.ComputeNewRoundPath(rd, c1.courierId, x, -1);
  }
}

=== FILE: complete_graph.dfy ===
/**
 * `graph/CompleteGraph.java`: the dense cost matrix the TSP engines search,
 * with bounds-checked access.  Entries are plain doubles; -1.0 is both the
 * out-of-range answer of `getCost` and what the solver stores on the diagonal.
 */
module CompleteGraphs {

  datatype CompleteGraph = CompleteGraph(nbVertices: int, cost: seq<seq<real>>)

  /** The constructor `CompleteGraph(nbVertices, cost)`. */
  function Make(nbVertices: int, cost: seq<seq<real>>): (g: CompleteGraph)
    ensures NbVertices(g) == nbVertices && g.cost == cost
  {
    CompleteGraph(nbVertices, cost)
  }

  function NbVertices(g: CompleteGraph): int {
    g.nbVertices
  }

  predicate InRange(g: CompleteGraph, i: int) {
    0 <= i < g.nbVertices
  }

  /** The stored matrix really is `nbVertices` square, as every caller builds it. */
  predicate WellFormed(g: CompleteGraph) {
    g.nbVertices >= 0 && |g.cost| == g.nbVertices && forall i | 0 <= i < |g.cost| :: |g.cost[i]| == g.nbVertices
  }

  /** `getCost`: -1.0 outside the vertex range, the stored entry inside it. */
  function GetCost(g: CompleteGraph, i: int, j: int): (c: real)
    requires WellFormed(g)
    ensures !(InRange(g, i) && InRange(g, j)) ==> c == -1.0
    ensures InRange(g, i) && InRange(g, j) ==> c == g.cost[i][j]
  {
    if i < 0 || i >= g.nbVertices || j < 0 || j >= g.nbVertices then -1.0 else g.cost[i][j]
  }

  /** `isArc`: the graph is complete without self-loops. */
  function IsArc(g: CompleteGraph, i: int, j: int): (b: bool)
    ensures b <==> InRange(g, i) && InRange(g, j) && i != j
  {
    if i < 0 || i >= g.nbVertices || j < 0 || j >= g.nbVertices then false else i != j
  }
}

=== FILE: costs.dfy ===
/**
 * Numeric conventions shared by the model.
 *
 * Doubles are modelled as exact reals. `Double.MAX_VALUE`, which the source uses
 * as "no edge" and "not reached yet", is the explicit sentinel `MaxValue`, larger
 * than every finite cost.
 */
module Costs {

  datatype Cost = Fin(r: real) | MaxValue {

    /** The source's `a < b` on doubles, with `MAX_VALUE` above every finite value. */
    predicate Less(other: Cost) {
      match (this, other)
      case (Fin(a), Fin(b)) => a < b
      case (Fin(_), MaxValue) => true
      case (MaxValue, _) => false
    }

    predicate AtMost(other: Cost) {
      !other.Less(this)
    }
  }

  /** Java's `(long)` cast of a double: truncation toward zero. */
  function Trunc(x: real): (t: int)
    ensures x >= 0.0 ==> t as real <= x < t as real + 1.0
    ensures x < 0.0 ==> t as real - 1.0 < x <= t as real
    ensures x >= 0.0 ==> t >= 0
  {
    if x >= 0.0 then x.Floor else -((-x).Floor)
  }

  lemma TruncMonotone(x: real, y: real)
    requires x <= y
    ensures Trunc(x) <= Trunc(y)
  {
  }
}

=== FILE: dijkstra.dfy ===
/**
 * Dijkstra's algorithm with early stop at the destination, and predecessor-array
 * path reconstruction, as `Plan.dijkstraAlgorithm`, `Plan.updateNeighborDistances`,
 * `Plan.reconstructPath`, `Plan.findShortestPath` and `Plan.findShortestDistance`.
 *
 * The priority queue is abstracted to "the lowest-numbered unsettled node of
 * minimum finite tentative distance": a node is in the source's queue exactly
 * when it is unsettled and has a finite distance, and re-polling a settled node
 * relaxes nothing.  The boolean `visited` array is kept as `order`, the list of
 * settled nodes in the order they were settled.
 */
module Dijkstra {
  import opened Costs
  import opened Paths
  import opened Wrappers
  import opened Seqs

  datatype State = State(dist: seq<Cost>, prev: seq<int>, order: seq<nat>)

  /** Index of the first occurrence of `v` in `xs`. */
  function Pos(xs: seq<nat>, v: nat): (k: nat)
    requires v in xs
    ensures k < |xs| && xs[k] == v && v !in xs[..k]
  {
    if xs[0] == v then 0 else 1 + Pos(xs[1..], v)
  }

  lemma PosDistinct(xs: seq<nat>, k: nat)
    requires Distinct(xs) && k < |xs|
    ensures Pos(xs, xs[k]) == k
  {
  }

  /** Pigeonhole: distinct values below `n` number at most `n`. */
  lemma {:induction false} DistinctBounded(xs: seq<nat>, n: nat)
    requires Distinct(xs) && forall i | 0 <= i < |xs| :: xs[i] < n
    ensures |xs| <= n
    decreases |xs|
  {
    if |xs| > 0 {
      var x := xs[|xs| - 1];
      var ys := seq(|xs| - 1, i requires 0 <= i < |xs| - 1 => if xs[i] > x then xs[i] - 1 else xs[i]);
      forall i, j | 0 <= i < j < |ys|
        ensures ys[i] != ys[j]
      {
        assert xs[i] != xs[j] && xs[i] != x && xs[j] != x;
      }
      forall i | 0 <= i < |ys|
        ensures ys[i] < n - 1
      {
        assert xs[i] != x;
      }
      DistinctBounded(ys, n - 1);
    }
  }

  /** Initial arrays: every distance `MAX_VALUE` but the origin's 0, every predecessor -1. */
  function Init(n: nat, origin: nat): State
    requires origin < n
  {
    State(seq(n, i => if i == origin then Fin(0.0) else MaxValue), seq(n, i => -1), [])
  }

  /** Well-formedness of the arrays, independent of the algorithm's progress. */
  ghost predicate WF(m: Matrix, s: State) {
    && IsSquare(m)
    && |s.dist| == |m| && |s.prev| == |m|
    && Distinct(s.order)
    && (forall i | 0 <= i < |s.order| :: s.order[i] < |m|)
    && (forall v | 0 <= v < |m| :: -1 <= s.prev[v] < |m|)
  }

  /** `v` is waiting in the priority queue: not settled, finite tentative distance. */
  predicate Queued(s: State, v: nat) {
    v < |s.dist| && v !in s.order && s.dist[v].Fin?
  }

  function SelectFrom(s: State, i: nat, best: Option<nat>): (r: Option<nat>)
    requires i <= |s.dist|
    requires best.Some? ==> Queued(s, best.value)
    requires best.Some? ==> forall j | 0 <= j < i && Queued(s, j) :: s.dist[best.value].r <= s.dist[j].r
    requires best.None? ==> forall j | 0 <= j < i :: !Queued(s, j)
    ensures r.None? <==> forall j | 0 <= j < |s.dist| :: !Queued(s, j)
    ensures r.Some? ==> Queued(s, r.value)
    ensures r.Some? ==> forall j | 0 <= j < |s.dist| && Queued(s, j) :: s.dist[r.value].r <= s.dist[j].r
    decreases |s.dist| - i
  {
    if i == |s.dist| then best
    else if !Queued(s, i) then SelectFrom(s, i + 1, best)
    else if best.None? || s.dist[i].Less(s.dist[best.value]) then SelectFrom(s, i + 1, Some(i))
    else SelectFrom(s, i + 1, best)
  }

  /** The queue's `poll`: `None` when the queue is empty. */
  function SelectMin(s: State): (r: Option<nat>)
    ensures r.None? <==> forall j | 0 <= j < |s.dist| :: !Queued(s, j)
    ensures r.Some? ==> Queued(s, r.value)
    ensures r.Some? ==> forall j | 0 <= j < |s.dist| && Queued(s, j) :: s.dist[r.value].r <= s.dist[j].r
  {
    SelectFrom(s, 0, None)
  }

  /** The relaxation test of `updateNeighborDistances` for neighbour `j` of `u`. */
  predicate Improves(m: Matrix, s: State, u: nat, j: nat)
    requires IsSquare(m) && |s.dist| == |m| && u < |m| && j < |m|
  {
    && j !in s.order
    && m[u][j].Fin?
    && s.dist[u].Fin?
    && Fin(s.dist[u].r + m[u][j].r).Less(s.dist[j])
  }

  /**
   * `updateNeighborDistances`: every unvisited neighbour over a finite edge whose
   * distance strictly improves through `u` gets the new distance and predecessor `u`.
   */
  function Relax(m: Matrix, s: State, u: nat): (r: State)
    requires IsSquare(m) && |s.dist| == |m| && |s.prev| == |m| && u < |m|
    ensures |r.dist| == |m| && |r.prev| == |m| && r.order == s.order
    ensures forall j | 0 <= j < |m| :: r.dist[j].AtMost(s.dist[j])
    ensures forall j | 0 <= j < |m| && r.dist[j] != s.dist[j] ::
              j !in s.order && m[u][j].Fin? && r.dist[j].Less(s.dist[j]) && r.prev[j] == u
    ensures forall j | 0 <= j < |m| && r.dist[j] == s.dist[j] :: r.prev[j] == s.prev[j]
  {
    var n := |m|;
    State(seq(n, j requires 0 <= j < n => if Improves(m, s, u, j) then Fin(s.dist[u].r + m[u][j].r) else s.dist[j]),
          seq(n, j requires 0 <= j < n => if Improves(m, s, u, j) then u as int else s.prev[j]),
          s.order)
  }

  /** One iteration of the main loop: mark `u` visited, then relax its neighbours. */
  function Step(m: Matrix, s: State, u: nat): State
    requires IsSquare(m) && |s.dist| == |m| && |s.prev| == |m| && u < |m|
  {
    Relax(m, s.(order := s.order + [u]), u)
  }

  lemma StepWF(m: Matrix, s: State, u: nat)
    requires WF(m, s) && Queued(s, u)
    ensures WF(m, Step(m, s, u))
    ensures |s.order| < |m|
  {
    var order := s.order + [u];
    forall i, j | 0 <= i < j < |order|
      ensures order[i] != order[j]
    {
      if j == |order| - 1 {
        assert order[i] == s.order[i];
      }
    }
    DistinctBounded(order, |m|);
  }

  /** The `while (!priorityQueue.isEmpty())` loop, stopping when `destination` is polled. */
  function Loop(m: Matrix, d: nat, s: State): State
    requires WF(m, s) && d < |m|
    decreases |m| - |s.order|
  {
    match SelectMin(s)
    case None => s
    case Some(u) =>
      if u == d then s
      else
        StepWF(m, s, u);
        Loop(m, d, Step(m, s, u))
  }

  /** `dijkstraAlgorithm(origin, destination)`: the final distances and predecessors. */
  function Run(m: Matrix, o: nat, d: nat): (s: State)
    requires IsSquare(m) && o < |m| && d < |m|
    ensures |s.dist| == |m| && |s.prev| == |m| && PrevInRange(s.prev)
    ensures s.dist[o] == Fin(0.0) && s.prev[o] == -1
    ensures s.dist[d].Fin? <==> Reachable(m, o, d)
    ensures s.dist[d].Fin? ==>
      PathFromTo(m, Walk(s.prev, d, |s.prev|), o, d) && PathCost(m, Walk(s.prev, d, |s.prev|)) == s.dist[d].r
    ensures s.dist[d].Fin? && NonNegative(m) ==> IsShortestDistance(m, o, d, s.dist[d].r)
  {
    InitInv(m, o, d);
    LoopInv(m, o, d, Init(|m|, o));
    var s := Loop(m, d, Init(|m|, o));
    Terminal(m, o, d, s);
    if s.dist[d].Fin? then
      WalkPath(m, o, s, d, |s.prev|);
      s
    else s
  }

  // ---------------------------------------------------------------------------
  // Invariants

  /** Shape of the predecessor forest for a node with a predecessor. */
  ghost predicate PrevOk(m: Matrix, s: State, v: nat)
    requires WF(m, s) && v < |m| && s.prev[v] != -1
  {
    var u := s.prev[v] as nat;
    && u in s.order
    && m[u][v].Fin?
    && s.dist[u].Fin?
    && s.dist[v] == Fin(s.dist[u].r + m[u][v].r)
    && (v in s.order ==> Pos(s.order, u) < Pos(s.order, v))
  }

  /** Every settled node has relaxed all its out-edges into unsettled nodes. */
  ghost predicate Relaxed(m: Matrix, s: State)
    requires WF(m, s)
  {
    forall i, v | 0 <= i < |s.order| && 0 <= v < |m| && v !in s.order && m[s.order[i]][v].Fin? ::
      s.dist[s.order[i]].Fin? ==> s.dist[v].AtMost(Fin(s.dist[s.order[i]].r + m[s.order[i]][v].r))
  }

  /** Invariant of the loop, for arbitrary (possibly negative) section lengths. */
  ghost predicate Inv(m: Matrix, o: nat, d: nat, s: State) {
    && WF(m, s) && o < |m| && d < |m|
    && d !in s.order
    && (|s.order| > 0 ==> s.order[0] == o)
    && (forall i | 0 <= i < |s.order| :: s.dist[s.order[i]].Fin?)
    && Forest(m, o, s)
    && Relaxed(m, s)
  }

  /** The predecessor links form a tree rooted at the origin over the reached nodes. */
  ghost predicate Forest(m: Matrix, o: nat, s: State)
    requires WF(m, s) && o < |m|
  {
    && s.dist[o] == Fin(0.0) && s.prev[o] == -1
    && (forall v | 0 <= v < |m| && v != o :: s.prev[v] == -1 <==> s.dist[v] == MaxValue)
    && (forall v | 0 <= v < |m| && s.prev[v] != -1 :: PrevOk(m, s, v))
  }

  /** Additional invariant when all lengths are non-negative: settled distances are final. */
  ghost predicate Settled(m: Matrix, o: nat, s: State)
    requires WF(m, s)
  {
    && (forall i | 0 <= i < |s.order| :: s.dist[s.order[i]].Fin? && LowerBound(m, o, s.order[i], s.dist[s.order[i]].r))
    && (forall i, v | 0 <= i < |s.order| && 0 <= v && Queued(s, v) :: s.dist[s.order[i]].AtMost(s.dist[v]))
  }

  lemma InitInv(m: Matrix, o: nat, d: nat)
    requires IsSquare(m) && o < |m| && d < |m|
    ensures Inv(m, o, d, Init(|m|, o)) && Settled(m, o, Init(|m|, o))
  {
  }

  lemma PosAppend(xs: seq<nat>, y: nat, x: nat)
    requires x in xs
    ensures x in xs + [y] && Pos(xs + [y], x) == Pos(xs, x)
    decreases |xs|
  {
    if xs[0] != x {
      assert (xs + [y])[1..] == xs[1..] + [y];
      PosAppend(xs[1..], y, x);
    }
  }

  lemma PosLast(xs: seq<nat>, y: nat)
    requires y !in xs
    ensures Pos(xs + [y], y) == |xs|
    decreases |xs|
  {
    if |xs| > 0 {
      assert (xs + [y])[1..] == xs[1..] + [y];
      PosLast(xs[1..], y);
    }
  }

  /** Membership in a settled-order list, by index. */
  lemma InOrder(xs: seq<nat>, x: nat)
    requires x in xs
    ensures exists i :: 0 <= i < |xs| && xs[i] == x
  {
    assert xs[Pos(xs, x)] == x;
  }

  /** With `order` empty, only the origin can be queued. */
  lemma QueuedFirst(m: Matrix, o: nat, d: nat, s: State, u: nat)
    requires Inv(m, o, d, s) && Queued(s, u)
    ensures |s.order| == 0 ==> u == o
  {
  }

  lemma {:induction false} StepInv(m: Matrix, o: nat, d: nat, s: State, u: nat)
    requires Inv(m, o, d, s) && Queued(s, u) && u != d
    ensures WF(m, Step(m, s, u)) && Inv(m, o, d, Step(m, s, u))
  {
    StepWF(m, s, u);
    QueuedFirst(m, o, d, s, u);
    var t := s.(order := s.order + [u]);
    var r := Step(m, s, u);
    assert r == Relax(m, t, u);
    assert r.order == t.order;
    assert o in t.order by {
      if |s.order| > 0 { assert s.order[0] == o; assert t.order[0] == o; } else { assert t.order[0] == o; }
    }
    SettledFixed(m, s, u, o);
    forall i | 0 <= i < |r.order|
      ensures r.dist[r.order[i]].Fin?
    {
      var x := r.order[i];
      if i < |s.order| {
        assert x == s.order[i];
        assert s.dist[x].Fin?;
      }
      assert x in t.order;
      SettledFixed(m, s, u, x);
    }
    forall v | 0 <= v < |m| && r.prev[v] != -1
      ensures PrevOk(m, r, v)
    {
      PrevStep(m, o, d, s, u, v);
    }
    forall v | 0 <= v < |m| && v != o
      ensures r.prev[v] == -1 <==> r.dist[v] == MaxValue
    {
      if r.dist[v] != s.dist[v] {
        assert r.prev[v] == u && r.dist[v].Fin?;
      }
    }
    assert Forest(m, o, r);
    RelaxedStep(m, o, d, s, u);
  }

  /** A settled node's distance is never changed again. */
  lemma SettledFixed(m: Matrix, s: State, u: nat, x: nat)
    requires IsSquare(m) && |s.dist| == |m| && |s.prev| == |m| && u < |m| && x < |m|
    requires x in s.order + [u]
    ensures Step(m, s, u).dist[x] == s.dist[x]
  {
  }

  lemma PrevStep(m: Matrix, o: nat, d: nat, s: State, u: nat, v: nat)
    requires Inv(m, o, d, s) && Queued(s, u) && u != d
    requires WF(m, Step(m, s, u)) && v < |m| && Step(m, s, u).prev[v] != -1
    ensures PrevOk(m, Step(m, s, u), v)
  {
    if Step(m, s, u).dist[v] != s.dist[v] {
      PrevStepChanged(m, s, u, v);
    } else {
      assert PrevOk(m, s, v);
      PrevStepKept(m, s, u, v);
    }
  }

  lemma PrevStepChanged(m: Matrix, s: State, u: nat, v: nat)
    requires WF(m, s) && Queued(s, u)
    requires WF(m, Step(m, s, u)) && v < |m| && Step(m, s, u).dist[v] != s.dist[v]
    ensures Step(m, s, u).prev[v] != -1 && PrevOk(m, Step(m, s, u), v)
  {
    var t := s.(order := s.order + [u]);
    var r := Step(m, s, u);
    SettledFixed(m, s, u, u);
    assert r.prev[v] == u;
    assert u in r.order by { assert r.order[|s.order|] == u; }
    assert v !in t.order;
    assert Improves(m, t, u, v);
    assert r.dist[v] == Fin(s.dist[u].r + m[u][v].r);
  }

  lemma PrevStepKept(m: Matrix, s: State, u: nat, v: nat)
    requires WF(m, s) && Queued(s, u) && WF(m, Step(m, s, u)) && v < |m|
    requires s.prev[v] != -1 && PrevOk(m, s, v)
    requires Step(m, s, u).dist[v] == s.dist[v] && Step(m, s, u).prev[v] == s.prev[v]
    ensures PrevOk(m, Step(m, s, u), v)
  {
    var r := Step(m, s, u);
    var w := s.prev[v] as nat;
    SettledFixed(m, s, u, w);
    PosAppend(s.order, u, w);
    if v in s.order {
      PosAppend(s.order, u, v);
    } else if v == u {
      PosLast(s.order, u);
    }
  }

  lemma RelaxedStep(m: Matrix, o: nat, d: nat, s: State, u: nat)
    requires Inv(m, o, d, s) && Queued(s, u) && u != d
    requires WF(m, Step(m, s, u))
    ensures Relaxed(m, Step(m, s, u))
  {
    var t := s.(order := s.order + [u]);
    var r := Step(m, s, u);
    forall i, v | 0 <= i < |r.order| && 0 <= v < |m| && v !in r.order && m[r.order[i]][v].Fin?
      ensures r.dist[r.order[i]].Fin? ==> r.dist[v].AtMost(Fin(r.dist[r.order[i]].r + m[r.order[i]][v].r))
    {
      var x := r.order[i];
      SettledFixed(m, s, u, x);
      if i == |s.order| {
        assert x == u;
        if !Improves(m, t, u, v) {
          assert r.dist[v] == s.dist[v];
        }
      } else {
        assert x == s.order[i];
        assert s.dist[x].Fin?;
        assert s.dist[v].AtMost(Fin(s.dist[x].r + m[x][v].r));
      }
    }
  }

  /** A path that starts inside `xs` and ends outside it leaves `xs` along some edge. */
  lemma FirstExit(xs: seq<nat>, p: seq<nat>) returns (k: nat)
    requires |p| >= 1 && p[0] in xs && p[|p| - 1] !in xs
    ensures 0 < k < |p| && p[k - 1] in xs && p[k] !in xs
  {
    k := 1;
    while p[k] in xs
      invariant 1 <= k < |p| && p[k - 1] in xs
      decreases |p| - k
    {
      k := k + 1;
    }
  }

  /** With non-negative lengths the queue's minimum is a lower bound on every path to it. */
  lemma MinQueuedLowerBound(m: Matrix, o: nat, d: nat, s: State, u: nat)
    requires Inv(m, o, d, s) && Settled(m, o, s) && NonNegative(m)
    requires Queued(s, u) && forall j | 0 <= j < |s.dist| && Queued(s, j) :: s.dist[u].r <= s.dist[j].r
    ensures LowerBound(m, o, u, s.dist[u].r)
  {
    QueuedFirst(m, o, d, s, u);
    forall p | PathFromTo(m, p, o, u)
      ensures s.dist[u].r <= PathCost(m, p)
    {
      if |s.order| == 0 {
        PathCostNonNegative(m, p);
      } else {
        MinQueuedBelowPath(m, o, d, s, u, p);
      }
    }
  }

  /** One path from the origin to the queue's minimum: it leaves the settled set along an edge to a queued vertex. */
  lemma MinQueuedBelowPath(m: Matrix, o: nat, d: nat, s: State, u: nat, p: seq<nat>)
    requires Inv(m, o, d, s) && Settled(m, o, s) && NonNegative(m) && |s.order| > 0
    requires Queued(s, u) && forall j | 0 <= j < |s.dist| && Queued(s, j) :: s.dist[u].r <= s.dist[j].r
    requires PathFromTo(m, p, o, u)
    ensures s.dist[u].r <= PathCost(m, p)
  {
    QueuedFirst(m, o, d, s, u);
    assert s.order[0] == o;
    var k := FirstExit(s.order, p);
    var x, y := p[k - 1], p[k];
    PathCostSplit(m, p, k);
    PathCostNonNegative(m, p[k..]);
    var q := p[..k];
    assert IsPath(m, q) && PathFromTo(m, q, o, x);
    PathExtend(m, q, y);
    assert q + [y] == p[..k + 1];
    var i := Pos(s.order, x);
    assert LowerBound(m, o, s.order[i], s.dist[s.order[i]].r);
    assert s.dist[x].r <= PathCost(m, q);
    assert s.dist[y].AtMost(Fin(s.dist[x].r + m[x][y].r));
    assert Queued(s, y);
  }

  lemma SettledStep(m: Matrix, o: nat, d: nat, s: State, u: nat)
    requires Inv(m, o, d, s) && Settled(m, o, s) && NonNegative(m)
    requires Queued(s, u) && forall j | 0 <= j < |s.dist| && Queued(s, j) :: s.dist[u].r <= s.dist[j].r
    requires WF(m, Step(m, s, u))
    ensures Settled(m, o, Step(m, s, u))
  {
    var r := Step(m, s, u);
    MinQueuedLowerBound(m, o, d, s, u);
    forall i | 0 <= i < |r.order|
      ensures r.dist[r.order[i]].Fin? && LowerBound(m, o, r.order[i], r.dist[r.order[i]].r)
    {
      var x := r.order[i];
      SettledFixed(m, s, u, x);
      if i < |s.order| {
        assert x == s.order[i];
      }
    }
    forall i, v | 0 <= i < |r.order| && 0 <= v && Queued(r, v)
      ensures r.dist[r.order[i]].AtMost(r.dist[v])
    {
      SettledBelow(m, s, u, i, v);
    }
  }

  /** After a step, a settled vertex is no farther than any vertex still queued. */
  lemma SettledBelow(m: Matrix, s: State, u: nat, i: nat, v: nat)
    requires WF(m, s) && NonNegative(m) && u < |m|
    requires forall i, v | 0 <= i < |s.order| && 0 <= v && Queued(s, v) :: s.dist[s.order[i]].AtMost(s.dist[v])
    requires Queued(s, u) && forall j | 0 <= j < |s.dist| && Queued(s, j) :: s.dist[u].r <= s.dist[j].r
    requires i < |Step(m, s, u).order| && Queued(Step(m, s, u), v)
    ensures Step(m, s, u).dist[Step(m, s, u).order[i]].AtMost(Step(m, s, u).dist[v])
  {
    var r := Step(m, s, u);
    var x := r.order[i];
    SettledFixed(m, s, u, x);
    assert v !in s.order && v != u by { assert v !in r.order; }
    if i < |s.order| {
      assert x == s.order[i];
      assert s.dist[x].AtMost(s.dist[u]);
    }
    if r.dist[v] == s.dist[v] {
      assert Queued(s, v);
    } else {
      assert r.dist[v] == Fin(s.dist[u].r + m[u][v].r);
    }
  }

  lemma {:induction false} LoopInv(m: Matrix, o: nat, d: nat, s: State)
    requires Inv(m, o, d, s)
    ensures Inv(m, o, d, Loop(m, d, s))
    ensures SelectMin(Loop(m, d, s)) in {None, Some(d)}
    ensures NonNegative(m) && Settled(m, o, s) ==> Settled(m, o, Loop(m, d, s))
    decreases |m| - |s.order|
  {
    match SelectMin(s)
    case None =>
    case Some(u) =>
      if u != d {
        StepWF(m, s, u);
        StepInv(m, o, d, s, u);
        if NonNegative(m) && Settled(m, o, s) {
          SettledStep(m, o, d, s, u);
        }
        LoopInv(m, o, d, Step(m, s, u));
      }
  }

  // ---------------------------------------------------------------------------
  // Path reconstruction

  predicate PrevInRange(prev: seq<int>) {
    forall v | 0 <= v < |prev| :: -1 <= prev[v] < |prev|
  }

  /** The walk ends at `node`, and each entry's predecessor is the entry before it. */
  lemma {:induction false} WalkLinks(prev: seq<int>, node: int, fuel: nat)
    requires PrevInRange(prev) && -1 <= node < |prev|
    ensures var w := Walk(prev, node, fuel);
      && |w| <= fuel
      && (node == -1 || fuel == 0 <==> w == [])
      && (w != [] ==> w[|w| - 1] == node)
      && (forall k | 0 <= k < |w| :: w[k] < |prev|)
      && (forall k | 0 < k < |w| :: prev[w[k]] == w[k - 1] as int)
    decreases fuel
  {
    if node != -1 && fuel > 0 {
      var w0 := Walk(prev, prev[node], fuel - 1);
      WalkLinks(prev, prev[node], fuel - 1);
      var w := w0 + [node as nat];
      assert Walk(prev, node, fuel) == w;
      if w0 != [] {
        assert prev[w[|w| - 1]] == w[|w| - 2] as int;
      }
    }
  }

  /** Follow predecessors from `node` back to -1 (at most `fuel` steps), listed origin-first. */
  function Walk(prev: seq<int>, node: int, fuel: nat): seq<nat>
    requires PrevInRange(prev) && -1 <= node < |prev|
    decreases fuel
  {
    if node == -1 || fuel == 0 then [] else Walk(prev, prev[node], fuel - 1) + [node as nat]
  }

  /** How many predecessor steps separate `v` from the origin, at most. */
  ghost function Rank(s: State, v: nat): nat {
    if v in s.order then Pos(s.order, v) else |s.order|
  }

  lemma {:induction false} WalkPath(m: Matrix, o: nat, s: State, v: nat, fuel: nat)
    requires WF(m, s) && o < |m| && Forest(m, o, s) && v < |m| && s.dist[v].Fin? && fuel > Rank(s, v)
    ensures PathFromTo(m, Walk(s.prev, v, fuel), o, v)
    ensures PathCost(m, Walk(s.prev, v, fuel)) == s.dist[v].r
    decreases Rank(s, v)
  {
    if v == o {
      assert Walk(s.prev, v, fuel) == Walk(s.prev, -1, fuel - 1) + [o];
    } else {
      var w := RankLink(m, o, s, v);
      WalkPath(m, o, s, w, fuel - 1);
      WalkLink(m, o, s, v, w, fuel);
    }
  }

  /** Every reached vertex other than the origin has a predecessor of smaller rank. */
  lemma RankLink(m: Matrix, o: nat, s: State, v: nat) returns (w: nat)
    requires WF(m, s) && o < |m| && Forest(m, o, s) && v < |m| && s.dist[v].Fin? && v != o
    ensures w < |m| && s.prev[v] == w && PrevOk(m, s, v) && s.dist[w].Fin? && Rank(s, w) < Rank(s, v)
  {
    assert s.prev[v] != -1;
    w := s.prev[v] as nat;
    assert PrevOk(m, s, v);
  }

  /** One predecessor link extends the walk to `w` into the walk to `v`, adding the edge's length. */
  lemma WalkLink(m: Matrix, o: nat, s: State, v: nat, w: nat, fuel: nat)
    requires WF(m, s) && v < |m| && fuel > 0 && s.prev[v] == w && PrevOk(m, s, v)
    requires PathFromTo(m, Walk(s.prev, w, fuel - 1), o, w)
    requires PathCost(m, Walk(s.prev, w, fuel - 1)) == s.dist[w].r
    ensures PathFromTo(m, Walk(s.prev, v, fuel), o, v)
    ensures PathCost(m, Walk(s.prev, v, fuel)) == s.dist[v].r
  {
    var q := Walk(s.prev, w, fuel - 1);
    assert Walk(s.prev, v, fuel) == q + [v];
    PathExtend(m, q, v);
  }

  /** The final arrays answer reachability, and optimality for non-negative lengths. */
  lemma Terminal(m: Matrix, o: nat, d: nat, r: State)
    requires Inv(m, o, d, r) && SelectMin(r) in {None, Some(d)}
    ensures r.dist[d].Fin? <==> Reachable(m, o, d)
    ensures r.dist[d].Fin? ==> Rank(r, d) == |r.order| < |m|
    ensures NonNegative(m) && Settled(m, o, r) && r.dist[d].Fin? ==> IsShortestDistance(m, o, d, r.dist[d].r)
  {
    if r.dist[d].Fin? {
      WalkPath(m, o, r, d, |r.order| + 1);
      var order := r.order + [d];
      forall i, j | 0 <= i < j < |order|
        ensures order[i] != order[j]
      {
        if j == |order| - 1 {
          assert order[i] == r.order[i];
        }
      }
      DistinctBounded(order, |m|);
      if NonNegative(m) && Settled(m, o, r) {
        MinQueuedLowerBound(m, o, d, r, d);
      }
    } else if Reachable(m, o, d) {
      var p :| PathFromTo(m, p, o, d);
      var y := ExitQueued(m, o, d, r, p);
    }
  }

  /** A path from the origin to a node not yet settled passes through a queued node. */
  lemma ExitQueued(m: Matrix, o: nat, d: nat, r: State, p: seq<nat>) returns (y: nat)
    requires Inv(m, o, d, r) && PathFromTo(m, p, o, d)
    ensures Queued(r, y)
  {
    if o in r.order {
      var k := FirstExit(r.order, p);
      var x := p[k - 1];
      y := p[k];
      var i := Pos(r.order, x);
      assert r.dist[y].AtMost(Fin(r.dist[r.order[i]].r + m[x][y].r));
    } else {
      y := o;
    }
  }

  // ---------------------------------------------------------------------------
  // Public operations

  /**
   * `reconstructPath`: predecessors from `dest` back to -1, origin first; a lone
   * node that is not the origin means "no path" and yields the empty list.
   */
  function ReconstructPath(dest: nat, origin: nat, prev: seq<int>): (p: seq<nat>)
    requires PrevInRange(prev) && dest < |prev|
    ensures |p| <= |prev|
    ensures p != [] ==> p[|p| - 1] == dest
    ensures forall k | 0 <= k < |p| :: p[k] < |prev|
    ensures forall k | 0 < k < |p| :: prev[p[k]] == p[k - 1] as int
    ensures |p| == 1 ==> p == [origin] && dest == origin
    ensures prev[dest] == -1 ==> (p == [] <==> dest != origin)
  {
    WalkLinks(prev, dest, |prev|);
    var path := Walk(prev, dest, |prev|);
    if |path| == 1 && path[0] != origin then [] else path
  }

  /** `findShortestPath`: empty exactly when `d` cannot be reached from `o`. */
  function FindShortestPath(m: Matrix, o: nat, d: nat): (p: seq<nat>)
    requires IsSquare(m) && o < |m| && d < |m|
    ensures p == [] <==> !Reachable(m, o, d)
    ensures p != [] ==> PathFromTo(m, p, o, d) && PathCost(m, p) == FindShortestDistance(m, o, d)
    ensures p != [] && NonNegative(m) ==> IsShortestDistance(m, o, d, PathCost(m, p))
  {
    var r := Run(m, o, d);
    InitInv(m, o, d);
    LoopInv(m, o, d, Init(|m|, o));
    Terminal(m, o, d, r);
    if r.dist[d].Fin? then
      WalkPath(m, o, r, d, |r.prev|);
      ReconstructPath(d, o, r.prev)
    else
      assert Walk(r.prev, d, |r.prev|) == Walk(r.prev, -1, |r.prev| - 1) + [d];
      ReconstructPath(d, o, r.prev)
  }

  /** `findShortestDistance`: the distance Dijkstra computes, or -1 when unreachable. */
  function FindShortestDistance(m: Matrix, o: nat, d: nat): (x: real)
    requires IsSquare(m) && o < |m| && d < |m|
    ensures !Reachable(m, o, d) ==> x == -1.0
    ensures Reachable(m, o, d) ==> exists p :: PathFromTo(m, p, o, d) && PathCost(m, p) == x
    ensures Reachable(m, o, d) && NonNegative(m) ==> IsShortestDistance(m, o, d, x) && x >= 0.0
    ensures NonNegative(m) ==> (x == -1.0 <==> !Reachable(m, o, d))
    ensures o == d ==> x == 0.0
  {
    var r := Run(m, o, d);
    InitInv(m, o, d);
    LoopInv(m, o, d, Init(|m|, o));
    Terminal(m, o, d, r);
    if r.dist[d] == MaxValue then -1.0
    else
      WalkPath(m, o, r, d, |r.prev|);
      ShortestNonNegative(m, o, d, r.dist[d].r);
      r.dist[d].r
  }

  lemma ShortestNonNegative(m: Matrix, o: nat, d: nat, x: real)
    requires IsSquare(m)
    ensures NonNegative(m) && IsShortestDistance(m, o, d, x) ==> x >= 0.0
  {
    if NonNegative(m) && IsShortestDistance(m, o, d, x) {
      var p :| PathFromTo(m, p, o, d) && PathCost(m, p) == x;
      PathCostNonNegative(m, p);
    }
  }
}

=== FILE: paths.dfy ===
/**
 * Road-graph paths over an n-by-n adjacency matrix whose entries are either a
 * finite section length or the `MaxValue` "no edge" sentinel.
 */
module Paths {
  import opened Costs

  type Matrix = seq<seq<Cost>>

  predicate IsSquare(m: Matrix) {
    forall i | 0 <= i < |m| :: |m[i]| == |m|
  }

  /** A walk along finite edges; a single vertex is a path of cost 0. */
  predicate IsPath(m: Matrix, p: seq<nat>)
    requires IsSquare(m)
  {
    && |p| >= 1
    && (forall i | 0 <= i < |p| :: p[i] < |m|)
    && (forall i | 0 <= i < |p| - 1 :: m[p[i]][p[i + 1]].Fin?)
  }

  predicate PathFromTo(m: Matrix, p: seq<nat>, o: nat, d: nat)
    requires IsSquare(m)
  {
    IsPath(m, p) && p[0] == o && p[|p| - 1] == d
  }

  /** Sum of the lengths of the edges of `p`. */
  function PathCost(m: Matrix, p: seq<nat>): real
    requires IsSquare(m) && IsPath(m, p)
    decreases |p|
  {
    if |p| == 1 then 0.0
    else
      assert IsPath(m, p[..|p| - 1]);
      PathCost(m, p[..|p| - 1]) + m[p[|p| - 2]][p[|p| - 1]].r
  }

  ghost predicate NonNegative(m: Matrix)
    requires IsSquare(m)
  {
    forall i, j | 0 <= i < |m| && 0 <= j < |m| && m[i][j].Fin? :: m[i][j].r >= 0.0
  }

  ghost predicate Reachable(m: Matrix, o: nat, d: nat)
    requires IsSquare(m)
  {
    exists p :: PathFromTo(m, p, o, d)
  }

  /** `x` is no larger than the cost of any path from `o` to `d`. */
  ghost predicate LowerBound(m: Matrix, o: nat, d: nat, x: real)
    requires IsSquare(m)
  {
    forall p | PathFromTo(m, p, o, d) :: x <= PathCost(m, p)
  }

  /** `x` is the minimum total cost over all paths from `o` to `d`. */
  ghost predicate IsShortestDistance(m: Matrix, o: nat, d: nat, x: real)
    requires IsSquare(m)
  {
    && (exists p :: PathFromTo(m, p, o, d) && PathCost(m, p) == x)
    && LowerBound(m, o, d, x)
  }

  lemma {:induction false} PathExtend(m: Matrix, p: seq<nat>, v: nat)
    requires IsSquare(m) && IsPath(m, p) && v < |m|
    requires m[p[|p| - 1]][v].Fin?
    ensures IsPath(m, p + [v])
    ensures PathCost(m, p + [v]) == PathCost(m, p) + m[p[|p| - 1]][v].r
  {
    var q := p + [v];
    forall i | 0 <= i < |q| - 1
      ensures m[q[i]][q[i + 1]].Fin?
    {
      if i < |p| - 1 {
        assert q[i] == p[i] && q[i + 1] == p[i + 1];
      }
    }
    assert q[..|p|] == p;
  }

  lemma {:induction false} PathPrefix(m: Matrix, p: seq<nat>, k: nat)
    requires IsSquare(m) && IsPath(m, p) && 1 <= k <= |p|
    ensures IsPath(m, p[..k])
  {
  }

  /** Cutting a path at vertex `k` splits its cost. */
  lemma {:induction false} PathCostSplit(m: Matrix, p: seq<nat>, k: nat)
    requires IsSquare(m) && IsPath(m, p) && k < |p|
    ensures IsPath(m, p[..k + 1]) && IsPath(m, p[k..])
    ensures PathCost(m, p) == PathCost(m, p[..k + 1]) + PathCost(m, p[k..])
    decreases |p|
  {
    if k == |p| - 1 {
      assert p[..k + 1] == p;
      assert p[k..] == [p[k]];
    } else {
      var q := p[..|p| - 1];
      assert IsPath(m, q);
      PathCostSplit(m, q, k);
      assert q[..k + 1] == p[..k + 1];
      assert q[k..] == p[k..|p| - 1];
      assert IsPath(m, p[k..]);
      assert p[k..][..|p[k..]| - 1] == p[k..|p| - 1];
    }
  }

  lemma {:induction false} PathCostNonNegative(m: Matrix, p: seq<nat>)
    requires IsSquare(m) && IsPath(m, p) && NonNegative(m)
    ensures PathCost(m, p) >= 0.0
    decreases |p|
  {
    if |p| > 1 {
      assert IsPath(m, p[..|p| - 1]);
      PathCostNonNegative(m, p[..|p| - 1]);
    }
  }

  /** Joining two paths that meet at a vertex adds their costs. */
  lemma {:induction false} PathJoin(m: Matrix, p: seq<nat>, q: seq<nat>)
    requires IsSquare(m) && IsPath(m, p) && IsPath(m, q) && p[|p| - 1] == q[0]
    ensures IsPath(m, p + q[1..])
    ensures PathCost(m, p + q[1..]) == PathCost(m, p) + PathCost(m, q)
    decreases |q|
  {
    if |q| == 1 {
      assert p + q[1..] == p;
    } else {
      var q' := q[..|q| - 1];
      assert IsPath(m, q');
      PathJoin(m, p, q');
      var v := q[|q| - 1];
      assert q'[|q'| - 1] == q[|q| - 2];
      assert (p + q'[1..])[|p + q'[1..]| - 1] == q[|q| - 2] by {
        if |q'| == 1 { assert p + q'[1..] == p; }
      }
      PathExtend(m, p + q'[1..], v);
      assert p + q'[1..] + [v] == p + q[1..];
    }
  }
}

=== FILE: plan.dfy ===
/**
 * The road plan (`graph/Plan.java` without its XML readers): the id <-> dense
 * index maps, the adjacency cost matrix, and tour stitching from consecutive
 * shortest paths.  Shortest paths themselves live in module `Dijkstra`.
 *
 * The plan is an immutable record; every mutating method returns the updated
 * record.  Fields the source never clears (`costsMatrix`, `tour`,
 * `IntersectionsTour`) are carried along so that repeated calls accumulate as
 * they do in the source.
 */
module RoadPlan {
  import opened Wrappers
  import opened Costs
  import opened Paths
  import Dijkstra

  datatype Intersection = Intersection(id: string, latitude: real, longitude: real)

  datatype Section = Section(origin: string, destination: string, name: string, length: real)

  datatype Plan = Plan(
    intersections: seq<Intersection>,
    sections: seq<Section>,
    indexes: map<string, nat>,
    reverseIndexes: map<nat, string>,
    costs: Matrix,
    tour: seq<nat>,
    intersectionsTour: seq<Option<string>>)

  /** A plan as the XML reader leaves it: nothing indexed, no matrix, no tour. */
  function Fresh(intersections: seq<Intersection>, sections: seq<Section>): Plan {
    Plan(intersections, sections, map[], map[], [], [], [])
  }

  predicate DistinctIds(xs: seq<Intersection>) {
    forall i, j | 0 <= i < j < |xs| :: xs[i].id != xs[j].id
  }

  /** `id` occurs at position `k` and at no later position. */
  predicate LastOccurrence(xs: seq<Intersection>, k: nat, id: string) {
    k < |xs| && xs[k].id == id && forall k' | k < k' < |xs| :: xs[k'].id != id
  }

  /** Every index the id map hands out names that id in the reverse map. */
  predicate Consistent(idx: map<string, nat>, rev: map<nat, string>) {
    forall id | id in idx :: idx[id] in rev && rev[idx[id]] == id
  }

  predicate Injective(idx: map<string, nat>) {
    forall a, b | a in idx && b in idx && a != b :: idx[a] != idx[b]
  }

  // ---------------------------------------------------------------------------
  // reIndexIntersections / reverseIndexation

  /** The loop of `reIndexIntersections` from position `i` on. */
  function ReIndexFrom(xs: seq<Intersection>, i: nat, idx: map<string, nat>, rev: map<nat, string>)
    : (r: (map<string, nat>, map<nat, string>))
    requires i <= |xs|
    ensures forall k: nat :: k in r.1 <==> k in rev || i <= k < |xs|
    ensures forall k | i <= k < |xs| :: r.1[k] == xs[k].id
    ensures forall k | k in rev && !(i <= k < |xs|) :: r.1[k] == rev[k]
    ensures Consistent(idx, rev) && (forall id | id in idx :: idx[id] < i) ==> Consistent(r.0, r.1)
    decreases |xs| - i
  {
    if i == |xs| then (idx, rev)
    else ReIndexFrom(xs, i + 1, idx[xs[i].id := i], rev[i := xs[i].id])
  }

  /** The ids `ReIndexFrom` indexes: the old ones and those from position `i` on. */
  lemma {:induction false} ReIndexDomain(xs: seq<Intersection>, i: nat, idx: map<string, nat>, rev: map<nat, string>)
    requires i <= |xs|
    ensures forall id :: id in ReIndexFrom(xs, i, idx, rev).0 <==> id in idx || exists k | i <= k < |xs| :: xs[k].id == id
    decreases |xs| - i
  {
    if i < |xs| {
      ReIndexDomain(xs, i + 1, idx[xs[i].id := i], rev[i := xs[i].id]);
    }
  }

  /** Each id from position `i` on ends up mapped to its last position. */
  lemma {:induction false} ReIndexLast(xs: seq<Intersection>, i: nat, idx: map<string, nat>, rev: map<nat, string>)
    requires i <= |xs|
    ensures var r := ReIndexFrom(xs, i, idx, rev);
      forall k | i <= k < |xs| && LastOccurrence(xs, k, xs[k].id) :: xs[k].id in r.0 && r.0[xs[k].id] == k
    decreases |xs| - i
  {
    if i < |xs| {
      var idx', rev' := idx[xs[i].id := i], rev[i := xs[i].id];
      ReIndexLast(xs, i + 1, idx', rev');
      ReIndexDomain(xs, i + 1, idx', rev');
      var r := ReIndexFrom(xs, i, idx, rev);
      if LastOccurrence(xs, i, xs[i].id) {
        Untouched(xs, i + 1, idx', rev', xs[i].id);
      }
    }
  }

  /** An id that does not occur from position `i` on keeps its old index. */
  lemma {:induction false} Untouched(xs: seq<Intersection>, i: nat, idx: map<string, nat>, rev: map<nat, string>, id: string)
    requires i <= |xs| && id in idx && forall k | i <= k < |xs| :: xs[k].id != id
    ensures id in ReIndexFrom(xs, i, idx, rev).0 && ReIndexFrom(xs, i, idx, rev).0[id] == idx[id]
    decreases |xs| - i
  {
    if i < |xs| {
      Untouched(xs, i + 1, idx[xs[i].id := i], rev[i := xs[i].id], id);
    }
  }

  /** `reIndexIntersections`: position `i` in the intersection list becomes index `i`. */
  function ReIndexIntersections(p: Plan): (q: Plan)
    ensures q == p.(indexes := q.indexes, reverseIndexes := q.reverseIndexes)
  {
    var r := ReIndexFrom(p.intersections, 0, p.indexes, p.reverseIndexes);
    p.(indexes := r.0, reverseIndexes := r.1)
  }

  lemma ConsistentInjective(idx: map<string, nat>, rev: map<nat, string>)
    requires Consistent(idx, rev)
    ensures Injective(idx)
  {
    forall a, b | a in idx && b in idx && a != b
      ensures idx[a] != idx[b]
    {
    }
  }

  /**
   * `reverseIndexation`: writes `index -> id` for every entry of `indexes`.  The
   * source iterates a `HashMap` in unspecified order, so the result is only
   * determined when no two ids share an index.
   */
  function ReverseIndexation(p: Plan): (q: Plan)
    requires Injective(p.indexes)
    ensures q == p.(reverseIndexes := q.reverseIndexes)
    ensures q.reverseIndexes.Keys == p.reverseIndexes.Keys + p.indexes.Values
    ensures forall id | id in p.indexes :: q.reverseIndexes[p.indexes[id]] == id
    ensures forall k | k in p.reverseIndexes && k !in p.indexes.Values :: q.reverseIndexes[k] == p.reverseIndexes[k]
  {
    p.(reverseIndexes := p.reverseIndexes + map id | id in p.indexes :: p.indexes[id] := id)
  }

  /**
   * On a fresh plan with distinct ids the two maps are mutually inverse
   * bijections between the ids and 0..n-1, assigned in list order.
   */
  lemma IndexBijection(xs: seq<Intersection>, secs: seq<Section>)
    requires DistinctIds(xs)
    ensures var q := ReIndexIntersections(Fresh(xs, secs));
      && (forall k: nat :: k in q.reverseIndexes <==> k < |xs|)
      && (forall id :: id in q.indexes <==> exists k | 0 <= k < |xs| :: xs[k].id == id)
      && (forall k | 0 <= k < |xs| :: q.indexes[xs[k].id] == k && q.reverseIndexes[k] == xs[k].id)
      && (forall id | id in q.indexes :: q.indexes[id] < |xs| && q.reverseIndexes[q.indexes[id]] == id)
  {
    var q := ReIndexIntersections(Fresh(xs, secs));
    assert forall id :: id in q.indexes <==> exists k | 0 <= k < |xs| :: xs[k].id == id by {
      ReIndexDomain(xs, 0, map[], map[]);
    }
    assert forall k | 0 <= k < |xs| :: q.indexes[xs[k].id] == k by {
      ReIndexLast(xs, 0, map[], map[]);
      assert forall k | 0 <= k < |xs| :: LastOccurrence(xs, k, xs[k].id);
    }
    assert Consistent(q.indexes, q.reverseIndexes);
    FreshIndexesBelow(xs, secs);
  }

  /** Even with duplicate ids, the second pass `reverseIndexation` of `preprocessData` changes nothing. */
  lemma ReverseIndexationNoop(xs: seq<Intersection>, secs: seq<Section>)
    ensures var q := ReIndexIntersections(Fresh(xs, secs));
      Injective(q.indexes) && ReverseIndexation(q) == q
  {
    ReverseIdentity(ReIndexIntersections(Fresh(xs, secs)));
  }

  /** `reverseIndexation` after `reIndexIntersections` is a no-op, with or without duplicate ids. */
  lemma ReverseIdentity(q: Plan)
    requires Consistent(q.indexes, q.reverseIndexes)
    ensures Injective(q.indexes) && ReverseIndexation(q) == q
  {
    ConsistentInjective(q.indexes, q.reverseIndexes);
    var r := ReverseIndexation(q);
    assert r.reverseIndexes.Keys == q.reverseIndexes.Keys;
    assert r.reverseIndexes == q.reverseIndexes;
  }

  // ---------------------------------------------------------------------------
  // initializeCostsMatrix / fillCostsMAtrix

  /** The row block appended by `initializeCostsMatrix`: 0 on the diagonal, `MAX_VALUE` elsewhere. */
  function EmptyRows(n: nat): (r: Matrix)
    ensures |r| == n && forall i | 0 <= i < n :: |r[i]| == n
  {
    seq(n, i requires 0 <= i < n => seq(n, j requires 0 <= j < n => if i == j then Fin(0.0) else MaxValue))
  }

  /** `initializeCostsMatrix`: appends n rows; the existing rows are kept, since the field is never cleared. */
  function InitializeCostsMatrix(m: Matrix, n: nat): (r: Matrix)
    ensures |r| == |m| + n && r[..|m|] == m
  {
    m + EmptyRows(n)
  }

  predicate Resolved(idx: map<string, nat>, s: Section) {
    s.origin in idx && s.destination in idx
  }

  /** Reference definition: the length of the last listed section from index `o` to index `d`. */
  function LastLength(idx: map<string, nat>, secs: seq<Section>, o: nat, d: nat): Option<real>
    decreases |secs|
  {
    if |secs| == 0 then None
    else match LastLength(idx, secs[1..], o, d)
      case Some(l) => Some(l)
      case None =>
        var s := secs[0];
        if Resolved(idx, s) && idx[s.origin] == o && idx[s.destination] == d then Some(s.length) else None
  }

  /**
   * `fillCostsMAtrix`: one `set` per section, in list order.  An endpoint missing
   * from `indexes` unboxes null (`NullPointerException`); an index outside the
   * matrix is an `IndexOutOfBoundsException`.
   */
  function FillCosts(m: Matrix, idx: map<string, nat>, secs: seq<Section>): (r: Result<Matrix, string>)
    ensures r.Success? ==> forall k | 0 <= k < |secs| :: Resolved(idx, secs[k])
    ensures r.Success? ==> |r.value| == |m| && forall o | 0 <= o < |m| :: |r.value[o]| == |m[o]|
    ensures (exists k | 0 <= k < |secs| :: !Resolved(idx, secs[k])) ==> r.Failure?
    ensures r.Failure? ==> r.error in {"NullPointerException", "IndexOutOfBoundsException"}
    decreases |secs|
  {
    if |secs| == 0 then Success(m)
    else
      var s := secs[0];
      if !Resolved(idx, s) then Failure("NullPointerException")
      else
        var o, d := idx[s.origin], idx[s.destination];
        if o >= |m| || d >= |m[o]| then Failure("IndexOutOfBoundsException")
        else FillCosts(m[o := m[o][d := Fin(s.length)]], idx, secs[1..])
  }

  ghost predicate IndexesBelow(idx: map<string, nat>, n: nat) {
    forall id | id in idx :: idx[id] < n
  }

  /**
   * On an n-by-n matrix with indexes below n, filling succeeds exactly when every
   * endpoint is indexed, keeps the shape, and leaves at (o, d) the last listed
   * section's length, or the old entry when no section goes from o to d.
   */
  lemma {:induction false} FillCostsSpec(m: Matrix, idx: map<string, nat>, secs: seq<Section>)
    requires IsSquare(m) && IndexesBelow(idx, |m|)
    ensures FillCosts(m, idx, secs).Success? <==> forall k | 0 <= k < |secs| :: Resolved(idx, secs[k])
    ensures FillCosts(m, idx, secs).Success? ==>
      var r := FillCosts(m, idx, secs).value;
      && |r| == |m| && IsSquare(r)
      && forall o, d | 0 <= o < |m| && 0 <= d < |m| ::
           r[o][d] == match LastLength(idx, secs, o, d) { case Some(l) => Fin(l) case None => m[o][d] }
    decreases |secs|
  {
    if |secs| > 0 {
      var s := secs[0];
      if Resolved(idx, s) {
        var o, d := idx[s.origin], idx[s.destination];
        var m' := m[o := m[o][d := Fin(s.length)]];
        FillCostsSpec(m', idx, secs[1..]);
        assert forall k | 1 <= k < |secs| :: secs[k] == secs[1..][k - 1];
        assert forall k | 0 <= k < |secs| - 1 :: secs[1..][k] == secs[k + 1];
      }
    }
  }

  /** `makeCostsMatrix`: initialise then fill. */
  function MakeCostsMatrix(p: Plan): (r: Result<Plan, string>)
    ensures r.Success? ==> r.value == p.(costs := r.value.costs)
  {
    var m := InitializeCostsMatrix(p.costs, |p.intersections|);
    match FillCosts(m, p.indexes, p.sections)
    case Success(m') => Success(p.(costs := m'))
    case Failure(e) => Failure(e)
  }

  /**
   * `preprocessData`: index, reverse-index, build the matrix.  `reverseIndexation`
   * walks a `HashMap`, so its outcome is only determined when no two ids end
   * up sharing an index, which always holds on a plan read afresh
   * (`ReverseIndexationNoop`).
   */
  function PreprocessData(p: Plan): (r: Result<Plan, string>)
    requires Injective(ReIndexIntersections(p).indexes)
    ensures r.Success? ==> r.value == p.(indexes := r.value.indexes, reverseIndexes := r.value.reverseIndexes, costs := r.value.costs)
    ensures r.Success? ==> |r.value.costs| == |p.costs| + |p.intersections|
    ensures r.Success? ==> forall k | 0 <= k < |p.sections| :: Resolved(r.value.indexes, p.sections[k])
    ensures r.Success? ==> forall id | id in r.value.indexes ::
      r.value.indexes[id] in r.value.reverseIndexes && r.value.reverseIndexes[r.value.indexes[id]] == id
  {
    var q := ReIndexIntersections(p);
    assert forall id | id in q.indexes :: q.indexes[id] in q.indexes.Values;
    MakeCostsMatrix(ReverseIndexation(q))
  }

  /** What the matrix holds at (o, d) after preprocessing a fresh plan. */
  function ExpectedCost(idx: map<string, nat>, secs: seq<Section>, o: nat, d: nat): Cost {
    match LastLength(idx, secs, o, d)
    case Some(l) => Fin(l)
    case None => if o == d then Fin(0.0) else MaxValue
  }

  /** Every section starts and ends at a listed intersection, as the XML reader checks. */
  ghost predicate SectionsKnown(xs: seq<Intersection>, secs: seq<Section>) {
    forall k | 0 <= k < |secs| :: (exists i | 0 <= i < |xs| :: xs[i].id == secs[k].origin)
                               && (exists i | 0 <= i < |xs| :: xs[i].id == secs[k].destination)
  }

  lemma FreshResolved(xs: seq<Intersection>, secs: seq<Section>)
    requires SectionsKnown(xs, secs)
    ensures var q := ReIndexIntersections(Fresh(xs, secs));
      && (forall k | 0 <= k < |secs| :: Resolved(q.indexes, secs[k]))
      && IndexesBelow(q.indexes, |xs|)
  {
    ReIndexDomain(xs, 0, map[], map[]);
    FreshIndexesBelow(xs, secs);
  }

  /**
   * A fresh plan whose sections only name listed intersections preprocesses
   * successfully into an n-by-n matrix: the last listed section's length where
   * there is one, 0 on the rest of the diagonal, `MAX_VALUE` elsewhere.
   */
  lemma PreprocessFresh(xs: seq<Intersection>, secs: seq<Section>)
    requires SectionsKnown(xs, secs)
    ensures Injective(ReIndexIntersections(Fresh(xs, secs)).indexes)
    ensures PreprocessData(Fresh(xs, secs)).Success?
    ensures var q := PreprocessData(Fresh(xs, secs)).value;
      && |q.costs| == |xs| && IsSquare(q.costs)
      && forall o, d | 0 <= o < |xs| && 0 <= d < |xs| :: q.costs[o][d] == ExpectedCost(q.indexes, secs, o, d)
  {
    var q := ReIndexIntersections(Fresh(xs, secs));
    ReverseIndexationNoop(xs, secs);
    FreshResolved(xs, secs);
    FillEmptyRows(|xs|, q.indexes, secs);
    var r := FillCosts(EmptyRows(|xs|), q.indexes, secs).value;
    assert PreprocessData(Fresh(xs, secs)) == Success(q.(costs := r)) by {
      ReverseIndexationNoop(xs, secs);
      assert InitializeCostsMatrix([], |xs|) == EmptyRows(|xs|);
    }
  }

  lemma FillEmptyRows(n: nat, idx: map<string, nat>, secs: seq<Section>)
    requires IndexesBelow(idx, n) && forall k | 0 <= k < |secs| :: Resolved(idx, secs[k])
    ensures FillCosts(EmptyRows(n), idx, secs).Success?
    ensures var r := FillCosts(EmptyRows(n), idx, secs).value;
      && |r| == n && IsSquare(r)
      && forall o, d | 0 <= o < n && 0 <= d < n :: r[o][d] == ExpectedCost(idx, secs, o, d)
  {
    var m := EmptyRows(n);
    FillCostsSpec(m, idx, secs);
    var r := FillCosts(m, idx, secs).value;
    forall o, d | 0 <= o < n && 0 <= d < n
      ensures r[o][d] == ExpectedCost(idx, secs, o, d)
    {
      assert m[o][d] == if o == d then Fin(0.0) else MaxValue;
    }
  }

  /** The last position holding the id found at position `k`. */
  lemma LastIndexOf(xs: seq<Intersection>, k: nat) returns (j: nat)
    requires k < |xs|
    ensures k <= j && LastOccurrence(xs, j, xs[k].id)
    decreases |xs| - k
  {
    var later := exists k' | k < k' < |xs| :: xs[k'].id == xs[k].id;
    if later {
      var k' :| k < k' < |xs| && xs[k'].id == xs[k].id;
      j := LastIndexOf(xs, k');
    } else {
      j := k;
    }
  }

  lemma FreshIndexesBelow(xs: seq<Intersection>, secs: seq<Section>)
    ensures IndexesBelow(ReIndexIntersections(Fresh(xs, secs)).indexes, |xs|)
  {
    var q := ReIndexIntersections(Fresh(xs, secs));
    ReIndexDomain(xs, 0, map[], map[]);
    ReIndexLast(xs, 0, map[], map[]);
    forall id | id in q.indexes
      ensures q.indexes[id] < |xs|
    {
      var k :| 0 <= k < |xs| && xs[k].id == id;
      var j := LastIndexOf(xs, k);
    }
  }

  // ---------------------------------------------------------------------------
  // constructTour / makeIntersectionsTour / computeTour / formatInput

  predicate ValidPath(m: Matrix, path: seq<nat>) {
    IsSquare(m) && forall i | 0 <= i < |path| :: path[i] < |m|
  }

  /** The shortest path of every leg `path[i] -> path[i + 1]`, as `constructTour` requests them. */
  function Legs(m: Matrix, path: seq<nat>): (subs: seq<seq<nat>>)
    requires ValidPath(m, path)
    ensures |subs| == if |path| == 0 then 0 else |path| - 1
  {
    seq(if |path| == 0 then 0 else |path| - 1,
        i requires 0 <= i < |path| - 1 => Dijkstra.FindShortestPath(m, path[i], path[i + 1]))
  }

  /**
   * The loop of `constructTour` from leg `i` on: what it appends to `tour`, and
   * whether it finished.  Leg 0 contributes its whole shortest path (possibly
   * empty); a later leg drops its first vertex, and an empty later leg makes
   * `subList(1, 0)` throw, leaving what was appended so far.
   */
  function Stitch(subs: seq<seq<nat>>, i: nat): (r: (seq<nat>, bool))
    ensures r.1 <==> forall k | i <= k < |subs| && k > 0 :: |subs[k]| > 0
    ensures r.1 && i == 0 < |subs| ==> |r.0| >= |subs[0]| && r.0[..|subs[0]|] == subs[0]
    decreases |subs| - i
  {
    if i >= |subs| then ([], true)
    else if i > 0 && |subs[i]| == 0 then ([], false)
    else
      var piece := if i == 0 then subs[i] else subs[i][1..];
      var rest := Stitch(subs, i + 1);
      (piece + rest.0, rest.1)
  }

  /**
   * `constructTour`: appends the stitched legs to the never-cleared `tour`, then
   * its first vertex again.  `false` is an exception (an unreachable later leg,
   * or `getFirst` on an empty tour); the appended prefix stays.
   */
  function ConstructTour(m: Matrix, tour: seq<nat>, path: seq<nat>): (r: (seq<nat>, bool))
    requires ValidPath(m, path)
    ensures |tour| <= |r.0| && r.0[..|tour|] == tour
    ensures r.1 ==> |r.0| >= 1 && r.0[|r.0| - 1] == r.0[0]
    ensures !r.1 <==> !Stitch(Legs(m, path), 0).1 || |tour + Stitch(Legs(m, path), 0).0| == 0
  {
    var st := Stitch(Legs(m, path), 0);
    var t := tour + st.0;
    if !st.1 || |t| == 0 then (t, false) else (t + [t[0]], true)
  }

  /** Sum of the path costs of the legs from `i` on. */
  function SubsCost(m: Matrix, subs: seq<seq<nat>>, i: nat): real
    requires IsSquare(m) && forall k | 0 <= k < |subs| :: IsPath(m, subs[k])
    decreases |subs| - i
  {
    if i >= |subs| then 0.0 else PathCost(m, subs[i]) + SubsCost(m, subs, i + 1)
  }

  /** Leg `k` of `subs` is a road path from `path[k]` to `path[k + 1]`. */
  ghost predicate LegsConnect(m: Matrix, path: seq<nat>, subs: seq<seq<nat>>)
    requires IsSquare(m)
  {
    && |path| >= 1 && |subs| == |path| - 1
    && (forall k | 0 <= k < |subs| :: IsPath(m, subs[k]))
    && (forall k | 0 <= k < |subs| :: PathFromTo(m, subs[k], path[k], path[k + 1]))
  }

  /** From leg `i >= 1` on, connected legs continue `path[i]` into one path. */
  lemma {:induction false} StitchTail(m: Matrix, path: seq<nat>, subs: seq<seq<nat>>, i: nat)
    requires ValidPath(m, path) && LegsConnect(m, path, subs) && 1 <= i < |path|
    ensures Stitch(subs, i).1
    ensures PathFromTo(m, [path[i]] + Stitch(subs, i).0, path[i], path[|path| - 1])
    ensures PathCost(m, [path[i]] + Stitch(subs, i).0) == SubsCost(m, subs, i)
    decreases |path| - i
  {
    var whole := [path[i]] + Stitch(subs, i).0;
    if i < |subs| {
      var sub := subs[i];
      var tail := Stitch(subs, i + 1).0;
      var rest := [path[i + 1]] + tail;
      assert PathFromTo(m, sub, path[i], path[i + 1]);
      assert Stitch(subs, i) == (sub[1..] + tail, Stitch(subs, i + 1).1);
      assert whole == sub + rest[1..] by {
        assert sub == [path[i]] + sub[1..];
      }
      StitchTail(m, path, subs, i + 1);
      assert IsPath(m, whole) && PathCost(m, whole) == PathCost(m, sub) + PathCost(m, rest) by {
        PathJoin(m, sub, rest);
      }
      assert SubsCost(m, subs, i) == PathCost(m, sub) + SubsCost(m, subs, i + 1);
    } else {
      assert whole == [path[i]];
    }
  }

  /** The shortest paths of reachable legs connect. */
  lemma LegsOfReachable(m: Matrix, path: seq<nat>)
    requires ValidPath(m, path) && LegsReachable(m, path) && |path| >= 1
    ensures LegsConnect(m, path, Legs(m, path))
  {
    var subs := Legs(m, path);
    forall k | 0 <= k < |subs|
      ensures PathFromTo(m, subs[k], path[k], path[k + 1])
    {
      assert Reachable(m, path[k], path[k + 1]);
      LegPath(m, path[k], path[k + 1]);
    }
  }

  ghost predicate LegsReachable(m: Matrix, path: seq<nat>)
    requires ValidPath(m, path)
  {
    forall i | 0 <= i < |path| - 1 :: Reachable(m, path[i], path[i + 1])
  }

  /** A reachable leg's shortest path is a road path costing the leg's distance. */
  lemma LegPath(m: Matrix, a: nat, b: nat)
    requires IsSquare(m) && a < |m| && b < |m| && Reachable(m, a, b)
    ensures var sub := Dijkstra.FindShortestPath(m, a, b);
      |sub| > 0 && PathFromTo(m, sub, a, b) && PathCost(m, sub) == Dijkstra.FindShortestDistance(m, a, b)
  {
  }

  /** Connected legs stitch into one path from the first stop to the last. */
  lemma StitchConnected(m: Matrix, path: seq<nat>, subs: seq<seq<nat>>)
    requires ValidPath(m, path) && LegsConnect(m, path, subs) && |path| >= 2
    ensures Stitch(subs, 0).1
    ensures PathFromTo(m, Stitch(subs, 0).0, path[0], path[|path| - 1])
    ensures PathCost(m, Stitch(subs, 0).0) == SubsCost(m, subs, 0)
  {
    var sub := subs[0];
    var tail := Stitch(subs, 1).0;
    var rest := [path[1]] + tail;
    var whole := Stitch(subs, 0).0;
    assert PathFromTo(m, sub, path[0], path[1]);
    assert Stitch(subs, 0) == (sub + tail, Stitch(subs, 1).1);
    assert whole == sub + rest[1..];
    StitchTail(m, path, subs, 1);
    assert IsPath(m, whole) && PathCost(m, whole) == PathCost(m, sub) + PathCost(m, rest) by {
      PathJoin(m, sub, rest);
    }
    assert SubsCost(m, subs, 0) == PathCost(m, sub) + SubsCost(m, subs, 1);
  }

  /** `constructTour` once the legs are known to stitch. */
  lemma ConstructTourStitched(m: Matrix, tour: seq<nat>, path: seq<nat>)
    requires ValidPath(m, path) && Stitch(Legs(m, path), 0).1 && |tour + Stitch(Legs(m, path), 0).0| > 0
    ensures var t := tour + Stitch(Legs(m, path), 0).0;
      ConstructTour(m, tour, path) == (t + [t[0]], true)
  {
  }

  /**
   * With at least two stops and every leg reachable, the stitched tour is one
   * road path from the first stop to the last whose length is the sum of the
   * legs' path lengths (each the leg's Dijkstra distance, by `LegPath`),
   * closed back to its start.
   */
  lemma StitchWhole(m: Matrix, path: seq<nat>)
    requires ValidPath(m, path) && LegsReachable(m, path) && |path| >= 2
    ensures var st := Stitch(Legs(m, path), 0);
      && st.1
      && PathFromTo(m, st.0, path[0], path[|path| - 1])
      && PathCost(m, st.0) == SubsCost(m, Legs(m, path), 0)
      && ConstructTour(m, [], path) == (st.0 + [path[0]], true)
  {
    LegsOfReachable(m, path);
    StitchConnected(m, path, Legs(m, path));
    ConstructTourStitched(m, [], path);
    assert [] + Stitch(Legs(m, path), 0).0 == Stitch(Legs(m, path), 0).0;
  }

  /**
   * `computeTour` is not idempotent: on a plan with no tour yet, a second call
   * with the same stops returns the first result followed by twice as many
   * entries again, because neither `tour` nor `IntersectionsTour` is cleared.
   */
  lemma ComputeTourTwice(p: Plan, path: seq<nat>)
    requires ValidPath(p.costs, path) && LegsReachable(p.costs, path) && |path| >= 2
    requires p.tour == [] && p.intersectionsTour == []
    ensures ComputeTour(p, path).1.Success?
    ensures var p1 := ComputeTour(p, path).0;
      var r1 := ComputeTour(p, path).1.value;
      ComputeTour(p1, path).1.Success? &&
      var r2 := ComputeTour(p1, path).1.value;
      |r1| >= 2 && |r2| == 3 * |r1| && r2[..|r1|] == r1
  {
    FirstTour(p.costs, path);
    var w := Stitch(Legs(p.costs, path), 0).0;
    TwiceLengths(p, path, w);
    TwicePrefix(p, path, w);
  }

  lemma FirstTour(m: Matrix, path: seq<nat>)
    requires ValidPath(m, path) && LegsReachable(m, path) && |path| >= 2
    ensures Stitch(Legs(m, path), 0).1 && |Stitch(Legs(m, path), 0).0| >= 1
  {
    StitchWhole(m, path);
  }

  /** The lengths of the two results of `ComputeTourTwice`, once the stitched legs `w` are known. */
  lemma TwiceLengths(p: Plan, path: seq<nat>, w: seq<nat>)
    requires ValidPath(p.costs, path) && Stitch(Legs(p.costs, path), 0) == (w, true) && |w| >= 1
    ensures ComputeTour(p, path).1.Success? && ComputeTour(ComputeTour(p, path).0, path).1.Success?
    ensures var r1 := ComputeTour(p, path).1.value;
      var r2 := ComputeTour(ComputeTour(p, path).0, path).1.value;
      && |r1| == |p.intersectionsTour| + |p.tour| + |w| + 1
      && |r2| == |r1| + |p.tour| + 2 * |w| + 2
  {
    ComputeTourOnce(p, path, w);
    ComputeTourOnce(ComputeTour(p, path).0, path, w);
  }

  /** The second result of `ComputeTourTwice` starts with the first. */
  lemma TwicePrefix(p: Plan, path: seq<nat>, w: seq<nat>)
    requires ValidPath(p.costs, path) && Stitch(Legs(p.costs, path), 0) == (w, true) && |w| >= 1
    ensures ComputeTour(p, path).1.Success? && ComputeTour(ComputeTour(p, path).0, path).1.Success?
    ensures var r1 := ComputeTour(p, path).1.value;
      var r2 := ComputeTour(ComputeTour(p, path).0, path).1.value;
      |r1| <= |r2| && r2[..|r1|] == r1
  {
    ComputeTourOnce(p, path, w);
    ComputeTourOnce(ComputeTour(p, path).0, path, w);
  }

  /**
   * One call with every leg reachable: the stitched legs, closed on the
   * tour's first vertex, are appended to `tour`, and their ids to
   * `IntersectionsTour`.
   */
  lemma ComputeTourOnce(p: Plan, path: seq<nat>, w: seq<nat>)
    requires ValidPath(p.costs, path) && Stitch(Legs(p.costs, path), 0) == (w, true) && |w| >= 1
    ensures var c := ComputeTour(p, path);
      && c.1.Success? && c.0.tour == p.tour + w + [(p.tour + w)[0]] && c.0.costs == p.costs
      && c.0.intersectionsTour == c.1.value
      && |c.1.value| == |p.intersectionsTour| + |p.tour| + |w| + 1
      && c.1.value[..|p.intersectionsTour|] == p.intersectionsTour
  {
    ConstructTourAppends(p.costs, p.tour, path, w);
    ComputeTourStitched(p, path, p.tour + w + [(p.tour + w)[0]]);
  }

  /** With every leg reachable, `constructTour` appends the stitched legs `w` and closes on the first vertex. */
  lemma ConstructTourAppends(m: Matrix, tour: seq<nat>, path: seq<nat>, w: seq<nat>)
    requires ValidPath(m, path) && Stitch(Legs(m, path), 0) == (w, true) && |w| >= 1
    ensures ConstructTour(m, tour, path) == (tour + w + [(tour + w)[0]], true)
  {
  }

  /** When `constructTour` succeeds, `computeTour` appends the ids of the whole new tour. */
  lemma ComputeTourStitched(p: Plan, path: seq<nat>, t: seq<nat>)
    requires ValidPath(p.costs, path) && ConstructTour(p.costs, p.tour, path) == (t, true)
    ensures ComputeTour(p, path).1.Success?
    ensures ComputeTour(p, path).0.tour == t && ComputeTour(p, path).0.costs == p.costs
    ensures var r := ComputeTour(p, path).1.value;
      |r| == |p.intersectionsTour| + |t| && r[..|p.intersectionsTour|] == p.intersectionsTour
  {
  }

  /** `makeIntersectionsTour`: appends the id of every tour index (null when unknown). */
  function MakeIntersectionsTour(rev: map<nat, string>, tour: seq<nat>, acc: seq<Option<string>>)
    : (r: seq<Option<string>>)
    ensures |r| == |acc| + |tour| && r[..|acc|] == acc
    ensures forall i | 0 <= i < |tour| :: r[|acc| + i] == if tour[i] in rev then Some(rev[tour[i]]) else None
  {
    acc + seq(|tour|, i requires 0 <= i < |tour| => if tour[i] in rev then Some(rev[tour[i]]) else None)
  }

  /**
   * `computeTour`: the returned list is the plan's `IntersectionsTour` field
   * itself.  `Failure` is an exception out of `constructTour`; the partial
   * tour it leaves is in the returned plan.
   */
  function ComputeTour(p: Plan, path: seq<nat>): (r: (Plan, Result<seq<Option<string>>, string>))
    requires ValidPath(p.costs, path)
    ensures r.1.Success? ==> r.1.value == r.0.intersectionsTour
    ensures r.0 == p.(tour := r.0.tour, intersectionsTour := r.0.intersectionsTour)
  {
    var ct := ConstructTour(p.costs, p.tour, path);
    if !ct.1 then (p.(tour := ct.0), Failure("exception in constructTour"))
    else
      var it := MakeIntersectionsTour(p.reverseIndexes, ct.0, p.intersectionsTour);
      (p.(tour := ct.0, intersectionsTour := it), Success(it))
  }

  /** `formatInput`: the index of each id, null for an unknown id. */
  function FormatInput(idx: map<string, nat>, ids: seq<string>): (r: seq<Option<nat>>)
    ensures |r| == |ids|
    ensures forall i | 0 <= i < |ids| :: r[i].Some? <==> ids[i] in idx
    ensures forall i | 0 <= i < |ids| && ids[i] in idx :: r[i].value == idx[ids[i]]
  {
    seq(|ids|, i requires 0 <= i < |ids| => if ids[i] in idx then Some(idx[ids[i]]) else None)
  }

  /** On an indexed plan with distinct ids, `formatInput` inverts the id lookup of `reverseIndexes`. */
  lemma FormatInputRoundTrip(xs: seq<Intersection>, secs: seq<Section>, ks: seq<nat>)
    requires DistinctIds(xs) && forall i | 0 <= i < |ks| :: ks[i] < |xs|
    ensures var q := ReIndexIntersections(Fresh(xs, secs));
      && (forall i | 0 <= i < |ks| :: ks[i] in q.reverseIndexes)
      && FormatInput(q.indexes, seq(|ks|, i requires 0 <= i < |ks| => q.reverseIndexes[ks[i]]))
         == seq(|ks|, i requires 0 <= i < |ks| => Some(ks[i]))
  {
    IndexBijection(xs, secs);
  }
}

=== FILE: round.dfy ===
/**
 * A delivery round (`entity/Round.java` without its XML readers, k-means and
 * report): the couriers, the delivery requests, the tour of each courier, the
 * warehouse, and one solver per courier for local updates.
 *
 * The round is an immutable record; an operation returns the updated record
 * together with its result, or with the exception it raised, in which case
 * the record holds whatever was changed before the throw.
 */
module Rounds {
  import opened Wrappers
  import opened Costs
  import opened Seqs
  import opened Text
  import RoadPlan
  import Solvers

  type Intersection = RoadPlan.Intersection

  /** `COURIER_SPEED`, in km/h. */
  const CourierSpeed: real := 15.0

  datatype Courier = Courier(id: int)

  /** A request for a delivery at `address`; `courier` stays `null` until a tour is built. */
  datatype DeliveryRequest = DeliveryRequest(address: Intersection, courier: Option<Courier>)

  /**
   * A courier's tour: its end time (seconds since midnight, `null` when the
   * arrival map has no entry for the last stop), the route as plan indices
   * and the arrival time at each index.  The start is always 08:00.
   */
  datatype DeliveryTour = DeliveryTour(courier: Courier, endTime: Option<int>, route: seq<int>, arrivalTimes: map<int, int>)

  /**
   * The fields of a round.  `places` is the plan's `intersectionMap` (id to
   * intersection), which the XML reader fills; `plan.indexes` is its
   * id-to-index map.  Solvers are only ever added non-null, so the list holds
   * plain solvers.
   */
  datatype Round = Round(
    plan: RoadPlan.Plan,
    places: map<string, Intersection>,
    couriers: seq<Courier>,
    requests: seq<DeliveryRequest>,
    tours: seq<DeliveryTour>,
    warehouse: Option<Intersection>,
    solvers: seq<Solvers.Solver>)

  /** Every solver of the round works on a square matrix. */
  predicate SolversValid(r: Round) {
    forall i | 0 <= i < |r.solvers| :: Solvers.Valid(r.solvers[i])
  }

  /** `plan.getIndexById`: `null` for an id the plan has not indexed. */
  function IndexById(p: RoadPlan.Plan, id: string): (k: Option<nat>)
    ensures k.Some? <==> id in p.indexes
    ensures k.Some? ==> k.value == p.indexes[id]
  {
    if id in p.indexes then Some(p.indexes[id]) else None
  }

  // ---------------------------------------------------------------------------
  // init

  /** `new Courier(0)`, ..., `new Courier(k - 1)`; none for a non-positive count. */
  function Couriers(k: int): (cs: seq<Courier>)
    ensures |cs| == if k > 0 then k else 0
    ensures forall i | 0 <= i < |cs| :: cs[i].id == i
  {
    if k <= 0 then [] else Couriers(k - 1) + [Courier(k - 1)]
  }

  /** `init(k, plan)`: fresh couriers numbered in order, the new plan, no tours. */
  function Init(r: Round, k: int, plan: RoadPlan.Plan): (r2: Round)
    ensures |r2.couriers| == (if k > 0 then k else 0)
    ensures forall i | 0 <= i < |r2.couriers| :: r2.couriers[i] == Courier(i)
    ensures r2.plan == plan && r2.tours == []
    ensures r2.places == r.places && r2.requests == r.requests
    ensures r2.warehouse == r.warehouse && r2.solvers == r.solvers
  {
    r.(couriers := Couriers(k), plan := plan, tours := [])
  }

  // ---------------------------------------------------------------------------
  // The partition of computeRound

  /** How many of `n` requests courier `j` of `k` receives: one more for the first `n % k`. */
  function Share(n: nat, k: nat, j: nat): nat
    requires k >= 1
  {
    n / k + (if j < n % k then 1 else 0)
  }

  /** Where the requests of courier `j` start: the shares of couriers `0..j-1` together. */
  function Offset(n: nat, k: nat, j: nat): nat
    requires k >= 1
  {
    if j == 0 then 0 else Offset(n, k, j - 1) + Share(n, k, j - 1)
  }

  lemma {:induction false} OffsetClosed(n: nat, k: nat, j: nat)
    requires k >= 1
    ensures Offset(n, k, j) == j * (n / k) + (if j < n % k then j else n % k)
  {
    if j > 0 {
      OffsetClosed(n, k, j - 1);
      assert j * (n / k) == (j - 1) * (n / k) + n / k;
    }
  }

  lemma {:induction false} OffsetGrows(n: nat, k: nat, i: nat, j: nat)
    requires k >= 1 && i <= j
    ensures Offset(n, k, i) <= Offset(n, k, j)
    decreases j
  {
    if i < j {
      OffsetGrows(n, k, i, j - 1);
    }
  }

  /** The shares of all `k` couriers add up to `n`, so every offset is within the list. */
  lemma OffsetWithin(n: nat, k: nat, j: nat)
    requires 1 <= k && j <= k
    ensures Offset(n, k, j) <= Offset(n, k, k) == n
  {
    OffsetClosed(n, k, k);
    OffsetGrows(n, k, j, k);
  }

  /**
   * The courier loop of `computeRound` from courier `j` on, with `cur`
   * requests handed out already and `extra` what is left of `n % k` after
   * `j` decrements: each courier is offered `base` requests, one more while
   * `extra` is positive, and takes them in list order while any remain.
   */
  function Assign<T>(xs: seq<T>, k: nat, j: nat, cur: nat, base: nat, extra: int): (gs: seq<seq<T>>)
    requires j <= k && cur <= |xs|
    ensures |gs| == k - j
    decreases k - j
  {
    if j == k then []
    else
      var want := base + (if extra > 0 then 1 else 0);
      var take := if want <= |xs| - cur then want else |xs| - cur;
      [xs[cur..cur + take]] + Assign(xs, k, j + 1, cur + take, base, extra - 1)
  }

  /** `a + b + ...`: the groups one after the other. */
  function Flatten<T>(gs: seq<seq<T>>): seq<T> {
    if |gs| == 0 then [] else gs[0] + Flatten(gs[1..])
  }

  /**
   * The division `n / k` of `computeRound`: with no courier it throws, with
   * `k` couriers it hands each a group of requests.
   */
  function Partition<T>(xs: seq<T>, k: nat): (r: Result<seq<seq<T>>, string>)
    ensures r.Failure? <==> k == 0
    ensures r.Success? ==> |r.value| == k
  {
    if k == 0 then Failure("ArithmeticException")
    else Success(Assign(xs, k, 0, 0, |xs| / k, |xs| % k))
  }

  /** One courier of the loop: it takes exactly its share, which still fits. */
  lemma AssignStep<T>(xs: seq<T>, k: nat, j: nat)
    requires 1 <= k && j < k
    ensures Offset(|xs|, k, j) + Share(|xs|, k, j) == Offset(|xs|, k, j + 1) <= |xs|
    ensures var gs := Assign(xs, k, j, Offset(|xs|, k, j), |xs| / k, |xs| % k - j);
      && gs[0] == xs[Offset(|xs|, k, j)..Offset(|xs|, k, j + 1)]
      && gs[1..] == Assign(xs, k, j + 1, Offset(|xs|, k, j + 1), |xs| / k, |xs| % k - (j + 1))
  {
    OffsetWithin(|xs|, k, j + 1);
  }

  lemma {:induction false} AssignFlat<T>(xs: seq<T>, k: nat, j: nat)
    requires 1 <= k && j <= k && Offset(|xs|, k, j) <= |xs|
    ensures Flatten(Assign(xs, k, j, Offset(|xs|, k, j), |xs| / k, |xs| % k - j)) == xs[Offset(|xs|, k, j)..]
    decreases k - j
  {
    var n := |xs|;
    if j == k {
      OffsetWithin(n, k, k);
    } else {
      var a, b := Offset(n, k, j), Offset(n, k, j + 1);
      AssignStep(xs, k, j);
      var gs := Assign(xs, k, j, a, n / k, n % k - j);
      AssignFlat(xs, k, j + 1);
      FlattenCons(gs, xs, a, b);
    }
  }

  /** A first group that is the slice up to `b`, followed by groups flattening to the rest, flattens to the whole. */
  lemma FlattenCons<T>(gs: seq<seq<T>>, xs: seq<T>, a: nat, b: nat)
    requires |gs| > 0 && a <= b <= |xs| && gs[0] == xs[a..b] && Flatten(gs[1..]) == xs[b..]
    ensures Flatten(gs) == xs[a..]
  {
    assert xs[a..b] + xs[b..] == xs[a..];
  }

  lemma AssignSizes<T>(xs: seq<T>, k: nat, j: nat)
    requires 1 <= k && j <= k && Offset(|xs|, k, j) <= |xs|
    ensures var gs := Assign(xs, k, j, Offset(|xs|, k, j), |xs| / k, |xs| % k - j);
      forall i | 0 <= i < k - j :: |gs[i]| == Share(|xs|, k, j + i)
  {
    var gs := Assign(xs, k, j, Offset(|xs|, k, j), |xs| / k, |xs| % k - j);
    forall i | 0 <= i < k - j
      ensures |gs[i]| == Share(|xs|, k, j + i)
    {
      AssignAt(xs, k, j, i);
    }
  }

  /**
   * The partition is contiguous and complete: courier `j` gets `n / k`
   * requests, one more when `j < n % k`, and the groups one after the other
   * are the request list itself, so each request goes to exactly one courier.
   */
  lemma PartitionSpec<T>(xs: seq<T>, k: nat, gs: seq<seq<T>>)
    requires Partition(xs, k) == Success(gs)
    ensures |gs| == k && Flatten(gs) == xs
    ensures forall j | 0 <= j < k :: |gs[j]| == Share(|xs|, k, j)
  {
    AssignFlat(xs, k, 0);
    AssignSizes(xs, k, 0);
  }

  /** The group of courier `j` is the slice of the list that starts at its offset. */
  lemma {:induction false} AssignAt<T>(xs: seq<T>, k: nat, j: nat, i: nat)
    requires 1 <= k && j <= k && Offset(|xs|, k, j) <= |xs| && i < k - j
    ensures Offset(|xs|, k, j + i) <= Offset(|xs|, k, j + i + 1) <= |xs|
    ensures var gs := Assign(xs, k, j, Offset(|xs|, k, j), |xs| / k, |xs| % k - j);
      gs[i] == xs[Offset(|xs|, k, j + i)..Offset(|xs|, k, j + i + 1)]
    decreases i
  {
    AssignStep(xs, k, j);
    if i > 0 {
      AssignAt(xs, k, j + 1, i - 1);
    }
  }

  lemma GroupAt<T>(xs: seq<T>, k: nat, gs: seq<seq<T>>, j: nat)
    requires Partition(xs, k) == Success(gs) && j < k
    ensures Offset(|xs|, k, j) <= Offset(|xs|, k, j + 1) <= |xs|
    ensures gs[j] == xs[Offset(|xs|, k, j)..Offset(|xs|, k, j + 1)]
  {
    OffsetWithin(|xs|, k, j + 1);
    OffsetGrows(|xs|, k, j, j + 1);
    AssignAt(xs, k, 0, j);
  }

  /** The plan index of each request's address, `null` where the plan has none. */
  function IndexList(p: RoadPlan.Plan, g: seq<DeliveryRequest>): (ks: seq<Option<nat>>)
    ensures |ks| == |g|
    ensures forall i | 0 <= i < |g| :: ks[i] == IndexById(p, g[i].address.id)
  {
    seq(|g|, i requires 0 <= i < |g| => IndexById(p, g[i].address.id))
  }

  /**
   * The index lists `computeRound` hands to the solvers: for each courier,
   * the warehouse index and then the indices of its group.  The division
   * throws first when there is no courier; `warehouse.getId()` throws on the
   * first courier when there is no warehouse.
   */
  function CourierIndices(r: Round): (res: Result<seq<seq<Option<nat>>>, string>)
    ensures res.Failure? <==> |r.couriers| == 0 || r.warehouse.None?
    ensures res.Success? ==>
      && |res.value| == |r.couriers|
      && forall j | 0 <= j < |r.couriers| ::
        && |res.value[j]| == 1 + Share(|r.requests|, |r.couriers|, j)
        && res.value[j][0] == IndexById(r.plan, r.warehouse.value.id)
  {
    match Partition(r.requests, |r.couriers|)
    case Failure(e) => Failure(e)
    case Success(gs) =>
      if r.warehouse.None? then Failure("NullPointerException")
      else
        PartitionSpec(r.requests, |r.couriers|, gs);
        var w := IndexById(r.plan, r.warehouse.value.id);
        Success(seq(|gs|, j requires 0 <= j < |gs| => [w] + IndexList(r.plan, gs[j])))
  }

  /**
   * Courier `j`'s list holds, after the warehouse, the addresses of the
   * requests from its offset on, in list order.
   */
  lemma CourierIndicesAt(r: Round, ls: seq<seq<Option<nat>>>, j: nat, i: nat)
    requires CourierIndices(r) == Success(ls) && j < |r.couriers| && i < Share(|r.requests|, |r.couriers|, j)
    ensures Offset(|r.requests|, |r.couriers|, j) + i < |r.requests|
    ensures ls[j][1 + i] == IndexById(r.plan, r.requests[Offset(|r.requests|, |r.couriers|, j) + i].address.id)
  {
    var gs := Partition(r.requests, |r.couriers|).value;
    GroupAt(r.requests, |r.couriers|, gs, j);
    CourierList(r, ls, gs, j);
    ListAt(r.plan, ls[j], gs[j], i);
    var o := Offset(|r.requests|, |r.couriers|, j);
    assert gs[j][i] == r.requests[o + i];
  }

  lemma CourierList(r: Round, ls: seq<seq<Option<nat>>>, gs: seq<seq<DeliveryRequest>>, j: nat)
    requires CourierIndices(r) == Success(ls) && Partition(r.requests, |r.couriers|) == Success(gs) && j < |r.couriers|
    ensures ls[j][1..] == IndexList(r.plan, gs[j])
  {
  }

  lemma ListAt(p: RoadPlan.Plan, l: seq<Option<nat>>, g: seq<DeliveryRequest>, i: nat)
    requires |l| >= 1 && l[1..] == IndexList(p, g) && i < |g|
    ensures l[1 + i] == IndexById(p, g[i].address.id)
  {
    assert l[1 + i] == l[1..][i];
  }

  /**
   * The tour end time of `computeRound`: 08:00 plus the cost ridden at
   * 15 km/h, in whole seconds (`(long)` truncates), as a time of day.
   */
  function EndTime(cost: real): (t: int)
    ensures 0 <= t < Solvers.SecondsPerDay
  {
    Solvers.Tick(Solvers.DayStart, Trunc(cost / (CourierSpeed * 1000.0) * 3600.0))
  }

  /**
   * A longer ride never ends earlier as long as the day does not wrap: no
   * cost ends before 08:00, and a zero cost ends at 08:00 sharp.
   */
  lemma EndTimeMonotone(a: real, b: real)
    requires 0.0 <= a <= b && b / 15000.0 * 3600.0 < 57600.0
    ensures Solvers.DayStart <= EndTime(a) <= EndTime(b)
    ensures a == 0.0 ==> EndTime(a) == Solvers.DayStart
  {
    TruncMonotone(a / 15000.0 * 3600.0, b / 15000.0 * 3600.0);
  }

  // ---------------------------------------------------------------------------
  // Delivery requests

  /** Whether the request's address, trimmed, is the trimmed `id`. */
  predicate Matches(q: DeliveryRequest, id: string) {
    Trim(id) == Trim(q.address.id)
  }

  /** The position of the first request from `i` on matching `id`, or -1. */
  function FirstMatchFrom(qs: seq<DeliveryRequest>, id: string, i: nat): (k: int)
    requires i <= |qs|
    ensures k == -1 || i <= k < |qs|
    ensures k == -1 <==> forall j | i <= j < |qs| :: !Matches(qs[j], id)
    ensures k >= 0 ==> Matches(qs[k], id) && forall j | i <= j < k :: !Matches(qs[j], id)
    decreases |qs| - i
  {
    if i == |qs| then -1
    else if Matches(qs[i], id) then i
    else FirstMatchFrom(qs, id, i + 1)
  }

  function FirstMatch(qs: seq<DeliveryRequest>, id: string): (k: int)
    ensures -1 <= k < |qs|
    ensures k == -1 <==> forall j | 0 <= j < |qs| :: !Matches(qs[j], id)
    ensures k >= 0 ==> Matches(qs[k], id) && forall j | 0 <= j < k :: !Matches(qs[j], id)
  {
    FirstMatchFrom(qs, id, 0)
  }

  /** `getDeliveryRequestById`: the first request whose trimmed address is the trimmed id. */
  function GetDeliveryRequestById(r: Round, id: string): (q: Option<DeliveryRequest>)
    ensures q.None? <==> forall k | 0 <= k < |r.requests| :: !Matches(r.requests[k], id)
    ensures q.Some? ==> q.value in r.requests && Matches(q.value, id)
    ensures q.Some? ==> var i := FirstMatch(r.requests, id); q.value == r.requests[i]
  {
    var i := FirstMatch(r.requests, id);
    if i == -1 then None else Some(r.requests[i])
  }

  /**
   * `deleteDeliveryRequest`: `remove` of what `getDeliveryRequestById`
   * found, which removes its first occurrence; `remove(null)` finds nothing.
   */
  function DeleteDeliveryRequest(r: Round, id: string): (res: (Round, bool))
    ensures res.0 == r.(requests := res.0.requests)
    ensures res.1 <==> GetDeliveryRequestById(r, id).Some?
    ensures !res.1 ==> res.0 == r
    ensures res.1 ==> var q := GetDeliveryRequestById(r, id).value;
      multiset(res.0.requests) == multiset(r.requests) - multiset{q} && |res.0.requests| + 1 == |r.requests|
  {
    match GetDeliveryRequestById(r, id)
    case None => (r, false)
    case Some(q) => (r.(requests := RemoveFirst(r.requests, q)), true)
  }

  /** Deleting removes the first matching request and keeps the others in order. */
  lemma DeleteRemovesFirstMatch(r: Round, id: string)
    requires GetDeliveryRequestById(r, id).Some?
    ensures var i := FirstMatch(r.requests, id);
      DeleteDeliveryRequest(r, id).0.requests == r.requests[..i] + r.requests[i + 1..]
  {
    var i := FirstMatch(r.requests, id);
    var q := r.requests[i];
    assert q !in r.requests[..i] by {
      forall k | 0 <= k < i
        ensures r.requests[..i][k] != q
      {
        assert !Matches(r.requests[k], id);
      }
    }
    RemoveFirstAt(r.requests, q, i);
  }

  /**
   * `addDeliveryIntersection`: the id is trimmed and looked up in the plan;
   * an unknown id gives `null`, a known one a new request at the end.
   */
  function AddDeliveryIntersection(r: Round, id: string): (res: (Round, Option<DeliveryRequest>))
    ensures res.1.None? <==> Trim(id) !in r.places
    ensures res.1.None? ==> res.0 == r
    ensures res.1.Some? ==>
      && res.1.value == DeliveryRequest(r.places[Trim(id)], None)
      && res.0 == r.(requests := r.requests + [res.1.value])
  {
    var t := Trim(id);
    if t !in r.places then (r, None)
    else
      var q := DeliveryRequest(r.places[t], None);
      (r.(requests := r.requests + [q]), Some(q))
  }

  /** The trimmed address ids of the requests, in list order: what the lookups compare. */
  function Ids(qs: seq<DeliveryRequest>): (a: seq<string>)
    ensures |a| == |qs| && forall i | 0 <= i < |qs| :: a[i] == Trim(qs[i].address.id)
  {
    seq(|qs|, i requires 0 <= i < |qs| => Trim(qs[i].address.id))
  }

  lemma IdsWithout(qs: seq<DeliveryRequest>, i: nat)
    requires i < |qs|
    ensures Ids(qs[..i] + qs[i + 1..]) == Ids(qs)[..i] + Ids(qs)[i + 1..]
  {
  }

  /** Taking out of `b + [v]` an entry equal to `v` leaves the elements of `b`. */
  lemma DropCopy<T>(b: seq<T>, v: T, i: nat)
    requires i <= |b| && (b + [v])[i] == v
    ensures multiset((b + [v])[..i] + (b + [v])[i + 1..]) == multiset(b)
  {
    var a := b + [v];
    if i == |b| {
      assert a[..i] + a[i + 1..] == b;
    } else {
      assert a[..i] + a[i + 1..] == b[..i] + b[i + 1..] + [b[i]];
      assert b == b[..i] + [b[i]] + b[i + 1..];
    }
  }

  /**
   * Deleting by the id of a request just appended takes out a request with
   * that trimmed id: the appended one, or an earlier one that matches too.
   */
  lemma DeleteAppended(r: Round, q: DeliveryRequest)
    ensures var (r2, found) := DeleteDeliveryRequest(r.(requests := r.requests + [q]), q.address.id);
      && found && r2 == r.(requests := r2.requests)
      && multiset(Ids(r2.requests)) == multiset(Ids(r.requests))
      && ((forall k | 0 <= k < |r.requests| :: !Matches(r.requests[k], q.address.id)) ==> r2.requests == r.requests)
  {
    var a := q.address.id;
    var r1 := r.(requests := r.requests + [q]);
    var qs := r1.requests;
    assert Matches(qs[|qs| - 1], a);
    var r2 := DeleteDeliveryRequest(r1, a).0;
    DeleteRemovesFirstMatch(r1, a);
    var i := FirstMatch(qs, a);
    assert r2.requests == qs[..i] + qs[i + 1..];
    IdsWithout(qs, i);
    var b := Ids(r.requests);
    assert Ids(qs) == b + [Trim(a)];
    assert (b + [Trim(a)])[i] == Trim(a);
    DropCopy(b, Trim(a), i);
    assert Ids(r2.requests) == (b + [Trim(a)])[..i] + (b + [Trim(a)])[i + 1..];
    if forall k | 0 <= k < |r.requests| :: !Matches(r.requests[k], a) {
      DeleteAppendedFresh(r, q);
    }
  }

  /** With no earlier request matching, the appended request is the one deleted. */
  lemma DeleteAppendedFresh(r: Round, q: DeliveryRequest)
    requires forall k | 0 <= k < |r.requests| :: !Matches(r.requests[k], q.address.id)
    ensures DeleteDeliveryRequest(r.(requests := r.requests + [q]), q.address.id).0.requests == r.requests
  {
    var a := q.address.id;
    var r1 := r.(requests := r.requests + [q]);
    var qs := r1.requests;
    assert Matches(qs[|qs| - 1], a);
    DeleteRemovesFirstMatch(r1, a);
    var i := FirstMatch(qs, a);
    assert i == |r.requests|;
    assert qs[..i] + qs[i + 1..] == r.requests;
  }

  /**
   * `addDeliveryIntersection` and then `deleteDeliveryRequest` of the added
   * address's id leave the requests' ids as they were; when no earlier
   * request has that id, the list is exactly the one before.
   */
  lemma AddThenDeleteRequest(r: Round, id: string)
    requires Trim(id) in r.places
    ensures var (r1, q) := AddDeliveryIntersection(r, id);
      var (r2, found) := DeleteDeliveryRequest(r1, q.value.address.id);
      && found && r2 == r.(requests := r2.requests)
      && multiset(Ids(r2.requests)) == multiset(Ids(r.requests))
      && ((forall k | 0 <= k < |r.requests| :: !Matches(r.requests[k], q.value.address.id)) ==> r2.requests == r.requests)
  {
    var (r1, q) := AddDeliveryIntersection(r, id);
    DeleteAppended(r, q.value);
  }

  // ---------------------------------------------------------------------------
  // Warehouse

  /** `defineWarehousePoint`: the trimmed id's intersection becomes the warehouse; `null` if unknown. */
  function DefineWarehousePoint(r: Round, id: string): (res: (Round, Option<Intersection>))
    ensures res.1.None? <==> Trim(id) !in r.places
    ensures res.1.None? ==> res.0 == r
    ensures res.1.Some? ==> res.1.value == r.places[Trim(id)] && res.0 == r.(warehouse := res.1)
  {
    var t := Trim(id);
    if t !in r.places then (r, None)
    else (r.(warehouse := Some(r.places[t])), Some(r.places[t]))
  }

  /** `deleteWarehouse`. */
  function DeleteWarehouse(r: Round): (r2: Round)
    ensures r2.warehouse.None? && r2 == r.(warehouse := None)
  {
    r.(warehouse := None)
  }

  // ---------------------------------------------------------------------------
  // ComputeNewRound / updateLocalPoint

  /** The round with courier `c`'s solver replaced, as the source mutates it in place. */
  function Store(r: Round, c: nat, s: Solvers.Solver): (r2: Round)
    requires c < |r.solvers|
    ensures r2 == r.(solvers := r.solvers[c := s])
  {
    r.(solvers := r.solvers[c := s])
  }

  /**
   * The solver's edit for `mode`: -1 deletes the point, 1 adds it.  The
   * deletion is `Solvers.DeleteDeliveryPoint`, without the remapping loop
   * that turns the path into positions (`Solvers.DeleteRemapCounterexample`).
   */
  function Edit(s: Solvers.Solver, x: int, mode: int): (r: (Solvers.Solver, Result<seq<int>, string>))
    requires Solvers.Valid(s) && (mode == -1 || mode == 1)
    ensures Solvers.Valid(r.0) && r.0.plan == s.plan
    ensures mode == 1 && r.1.Success? ==>
      && x in r.0.bestPath && r.0.vertices == s.vertices + [x]
      && multiset(r.0.bestPath) == multiset(s.bestPath) + multiset{x} && |r.0.bestPath| == |s.bestPath| + 1
    ensures mode == -1 && r.1.Success? ==>
      && x in s.vertices && r.0.vertices == RemoveFirst(s.vertices, x)
      && multiset(r.0.bestPath) == multiset(s.bestPath) - multiset{x}
  {
    if mode == -1 then Solvers.DeleteDeliveryPoint(s, x)
    else
      var (s1, p) := Solvers.AddDeliveryPoint(s, x);
      assert p.Success? ==> x in s1.bestPath by {
        if p.Success? {
          var pos := Solvers.Insertion(s1.g.value, s1.vertices, s.bestPath);
          assert p.value[pos] == x;
        }
      }
      (s1, p)
  }

  /** The tour built from the solver's best possible path and its arrival times. */
  function TourOf(courier: Courier, route: seq<int>, arrivals: map<int, int>): (t: DeliveryTour)
    requires |route| > 0
    ensures t.courier == courier && t.route == route && t.arrivalTimes == arrivals
    ensures var last := route[|route| - 1];
      (t.endTime.Some? <==> last in arrivals) && (t.endTime.Some? ==> t.endTime.value == arrivals[last])
  {
    var last := route[|route| - 1];
    DeliveryTour(courier, if last in arrivals then Some(arrivals[last]) else None, route, arrivals)
  }

  /**
   * The recomputation of courier `c`'s tour after its solver has edited its
   * path: arrival times, best possible path, new tour in slot `c`.
   */
  function Refresh(r: Round, c: nat, s: Solvers.Solver): (res: (Round, Result<seq<DeliveryTour>, string>))
    requires c < |r.couriers| && c < |r.solvers| && SolversValid(r) && Solvers.Valid(s)
    ensures SolversValid(res.0) && res.0 == r.(solvers := res.0.solvers, tours := res.0.tours)
    ensures |res.0.solvers| == |r.solvers|
    ensures forall i | 0 <= i < |r.solvers| && i != c :: res.0.solvers[i] == r.solvers[i]
    ensures res.0.solvers[c].vertices == s.vertices && res.0.solvers[c].plan == s.plan
    ensures |res.0.tours| == |r.tours|
    ensures res.1.Failure? ==> res.0.tours == r.tours
    ensures res.1.Success? && |s.bestPath| > 0 ==> res.0.solvers[c].bestPath == s.bestPath
    ensures res.1.Success? ==>
      && c < |r.tours| && res.1.value == res.0.tours && res.0.tours == r.tours[c := res.0.tours[c]]
      && res.0.tours[c].courier == r.couriers[c] && res.0.tours[c].route == res.0.solvers[c].bestPath
      && (var p := res.0.tours[c].route; |p| > 0 && p[0] == p[|p| - 1])
  {
    var (s1, e1) := Solvers.ComputePointsToBeServed(s);
    if e1.Failure? then (Store(r, c, s1), Failure(e1.error))
    else
      Solvers.WholePathServed(s, s1);
      var (s2, route) := Solvers.GetBestPossiblePath(s1);
      if c >= |r.tours| then (Store(r, c, s2), Failure("IndexOutOfBoundsException"))
      else
        var tour := TourOf(r.couriers[c], route.value, s2.result.value.pointsWithTime);
        var r2 := Store(r, c, s2).(tours := r.tours[c := tour]);
        (r2, Success(r2.tours))
  }

  /**
   * `ComputeNewRound(c, x, mode)`: the courier index must name a courier and
   * a solver; the solver's path is fetched for the log line before the mode
   * is checked; then the solver adds (1) or deletes (-1) the point and the
   * courier's tour is rebuilt.  Any other mode is rejected.
   */
  function ComputeNewRound(r: Round, c: int, x: int, mode: int): (res: (Round, Result<seq<DeliveryTour>, string>))
    requires SolversValid(r)
    ensures SolversValid(res.0)
    ensures res.0 == r.(solvers := res.0.solvers, tours := res.0.tours)
    ensures (c < 0 || c >= |r.couriers|) ==> res == (r, Failure("IllegalArgumentException"))
    ensures 0 <= c < |r.couriers| && c < |r.solvers| && mode != -1 && mode != 1 ==> res.1.Failure?
    ensures |res.0.tours| == |r.tours| && |res.0.solvers| == |r.solvers|
    ensures res.1.Failure? ==> res.0.tours == r.tours
    ensures res.1.Success? ==>
      && 0 <= c < |r.couriers| && c < |r.solvers| && c < |r.tours| && (mode == -1 || mode == 1)
      && res.1.value == res.0.tours && |res.0.solvers| == |r.solvers|
      && (forall i | 0 <= i < |r.solvers| && i != c :: res.0.solvers[i] == r.solvers[i])
      && (forall i | 0 <= i < |r.tours| && i != c :: res.0.tours[i] == r.tours[i])
      && res.0.tours[c].courier == r.couriers[c] && res.0.tours[c].route == res.0.solvers[c].bestPath
      && (mode == 1 ==> res.0.solvers[c].vertices == r.solvers[c].vertices + [x])
      && (mode == -1 ==> x in r.solvers[c].vertices && res.0.solvers[c].vertices == RemoveFirst(r.solvers[c].vertices, x))
  {
    if c < 0 || c >= |r.couriers| then (r, Failure("IllegalArgumentException"))
    else if c >= |r.solvers| then (r, Failure("IndexOutOfBoundsException"))
    else
      var (s0, p0) := Solvers.GetBestPath(r.solvers[c]);
      assert Solvers.Valid(s0);
      if p0.Failure? then (Store(r, c, s0), Failure(p0.error))
      else if mode != -1 && mode != 1 then (Store(r, c, s0), Failure("IllegalArgumentException"))
      else
        var (s1, e1) := Edit(s0, x, mode);
        if e1.Failure? then (Store(r, c, s1), Failure(e1.error))
        else Refresh(r, c, s1)
  }

  /**
   * The courier's path after a successful update: the point spliced into the
   * path the solver had (fetched first), or its first occurrence removed.
   */
  lemma ComputeNewRoundPath(r: Round, c: int, x: int, mode: int)
    requires SolversValid(r) && ComputeNewRound(r, c, x, mode).1.Success?
    ensures 0 <= c < |r.solvers|
    ensures var res := ComputeNewRound(r, c, x, mode).0;
      var b := Solvers.GetBestPath(r.solvers[c]).0.bestPath;
      && |b| > 0
      && (mode == 1 ==> multiset(res.solvers[c].bestPath) == multiset(b) + multiset{x})
      && (mode == -1 && |b| >= 2 ==> multiset(res.solvers[c].bestPath) == multiset(b) - multiset{x})
  {
    var (s0, p0) := Solvers.GetBestPath(r.solvers[c]);
    assert p0.Success? && (mode == -1 || mode == 1);
    var (s1, e1) := Edit(s0, x, mode);
    assert e1.Success?;
    assert ComputeNewRound(r, c, x, mode) == Refresh(r, c, s1);
    var b := s0.bestPath;
    if mode == 1 {
      assert |s1.bestPath| > 0;
    } else if |b| >= 2 {
      assert |multiset(s1.bestPath)| >= |multiset(b)| - 1;
    }
  }

  /** `updateLocalPoint`: the id must be indexed by the plan (it is not trimmed). */
  function UpdateLocalPoint(r: Round, c: int, id: string, mode: int): (res: (Round, Result<seq<DeliveryTour>, string>))
    requires SolversValid(r)
    ensures SolversValid(res.0)
    ensures res.0 == r.(solvers := res.0.solvers, tours := res.0.tours)
    ensures id !in r.plan.indexes ==> res == (r, Failure("IllegalArgumentException"))
    ensures id in r.plan.indexes ==> res == ComputeNewRound(r, c, r.plan.indexes[id], mode)
  {
    match IndexById(r.plan, id)
    case None => (r, Failure("IllegalArgumentException"))
    case Some(x) => ComputeNewRound(r, c, x, mode)
  }
}

=== FILE: seq_iter.dfy ===
/**
 * `algorithm/tsp/SeqIter.java`: the candidate iterator of `TSP1`.  The
 * constructor keeps, in the collection's order, the unvisited vertices the
 * current vertex has an arc to; `next` then hands them out from the last one
 * stored back to the first.
 */
module SeqIters {
  import opened CompleteGraphs
  import opened Wrappers
  import opened Seqs

  /** The array `candidates` (its filled part) and the counter `nbCandidates`. */
  datatype SeqIter = SeqIter(candidates: seq<nat>, nbCandidates: nat)

  predicate Valid(it: SeqIter) {
    it.nbCandidates <= |it.candidates|
  }

  /** The elements of `unvisited`, in order, that are arc-successors of `current`. */
  function Successors(g: CompleteGraph, unvisited: seq<nat>, current: int): (r: seq<nat>)
    ensures |r| <= |unvisited|
    ensures forall x :: x in r <==> x in unvisited && IsArc(g, current, x)
    ensures forall x :: multiset(r)[x] == if IsArc(g, current, x) then multiset(unvisited)[x] else 0
  {
    if |unvisited| == 0 then []
    else
      var rest := Successors(g, unvisited[..|unvisited| - 1], current);
      var x := unvisited[|unvisited| - 1];
      assert unvisited == unvisited[..|unvisited| - 1] + [x];
      if IsArc(g, current, x) then rest + [x] else rest
  }

  /** Filtering commutes with concatenation, so the stored order is the collection's order. */
  lemma {:induction false} SuccessorsAppend(g: CompleteGraph, a: seq<nat>, b: seq<nat>, current: int)
    ensures Successors(g, a + b, current) == Successors(g, a, current) + Successors(g, b, current)
    decreases |b|
  {
    if |b| > 0 {
      var b' := b[..|b| - 1];
      assert (a + b)[..|a + b| - 1] == a + b';
      assert (a + b)[|a + b| - 1] == b[|b| - 1];
      SuccessorsAppend(g, a, b', current);
    } else {
      assert a + b == a;
    }
  }

  /** The constructor `SeqIter(unvisited, currentVertex, g)`. */
  function New(g: CompleteGraph, unvisited: seq<nat>, current: int): (it: SeqIter)
    ensures Valid(it) && it.nbCandidates <= |unvisited|
    ensures it.candidates[..it.nbCandidates] == Successors(g, unvisited, current)
  {
    var s := Successors(g, unvisited, current);
    SeqIter(s, |s|)
  }

  /** `hasNext`. */
  function HasNext(it: SeqIter): (b: bool)
    ensures b <==> it.nbCandidates > 0
  {
    it.nbCandidates != 0
  }

  /** The candidate the next `next` returns: the last one not yet returned. */
  function Top(it: SeqIter): nat
    requires Valid(it) && it.nbCandidates > 0
  {
    it.candidates[it.nbCandidates - 1]
  }

  /** The iterator after one `next`: one candidate fewer, the array untouched. */
  function Advance(it: SeqIter): SeqIter
    requires it.nbCandidates > 0
  {
    it.(nbCandidates := it.nbCandidates - 1)
  }

  /**
   * `next`: decrements the counter and returns the entry it now points at.
   * With nothing left, `candidates[-1]` throws.
   */
  function Next(it: SeqIter): (r: Result<(SeqIter, nat), string>)
    requires Valid(it)
    ensures r.Failure? <==> !HasNext(it)
    ensures r.Success? ==>
      && r.value.0 == Advance(it)
      && r.value.1 == Top(it)
      && Valid(r.value.0)
  {
    if it.nbCandidates == 0 then Failure("ArrayIndexOutOfBoundsException")
    else Success((Advance(it), Top(it)))
  }

  /** `remove` is unsupported and does nothing. */
  function Remove(it: SeqIter): (r: SeqIter)
    ensures r == it
  {
    it
  }

  /** Everything `next` yields until `hasNext` turns false. */
  function Drain(it: SeqIter): (r: (seq<nat>, SeqIter))
    requires Valid(it)
    ensures !HasNext(r.1) && Valid(r.1) && |r.0| == it.nbCandidates
    decreases it.nbCandidates
  {
    match Next(it)
    case Failure(_) => ([], it)
    case Success((it', x)) =>
      var rest := Drain(it');
      ([x] + rest.0, rest.1)
  }

  /**
   * The iterator yields the stored candidates in reverse order, each of them
   * exactly once; the class comment promises the collection's order instead.
   */
  lemma {:induction false} DrainReverse(it: SeqIter)
    requires Valid(it)
    ensures Drain(it).0 == Reverse(it.candidates[..it.nbCandidates])
    decreases it.nbCandidates
  {
    if it.nbCandidates > 0 {
      var it' := it.(nbCandidates := it.nbCandidates - 1);
      DrainReverse(it');
      var c := it.candidates[..it.nbCandidates];
      assert c[1..] == it.candidates[1..it.nbCandidates];
      assert it.candidates[..it'.nbCandidates] == c[..|c| - 1];
      ReverseSnoc(c[..|c| - 1], c[|c| - 1]);
      assert c == c[..|c| - 1] + [c[|c| - 1]];
    }
  }

  lemma ReverseSnoc<T>(xs: seq<T>, x: T)
    ensures Reverse(xs + [x]) == [x] + Reverse(xs)
  {
  }

  /** Over a fresh iterator, the vertices yielded are the arc-successors in `unvisited`, last first. */
  lemma NewDrain(g: CompleteGraph, unvisited: seq<nat>, current: int)
    ensures Drain(New(g, unvisited, current)).0 == Reverse(Successors(g, unvisited, current))
    ensures multiset(Drain(New(g, unvisited, current)).0) == multiset(Successors(g, unvisited, current))
  {
    var it := New(g, unvisited, current);
    DrainReverse(it);
    ReversePermutes(Successors(g, unvisited, current));
  }

  lemma {:induction false} ReversePermutes<T>(xs: seq<T>)
    ensures multiset(Reverse(xs)) == multiset(xs)
  {
    if |xs| > 0 {
      ReversePermutes(xs[1..]);
      assert xs == [xs[0]] + xs[1..];
    }
  }
}

=== FILE: seqs.dfy ===
/** Sequence helpers standing in for Java's `ArrayList` operations on vertex lists. */
module Seqs {

  predicate Distinct<T(==)>(xs: seq<T>) {
    forall i, j | 0 <= i < j < |xs| :: xs[i] != xs[j]
  }

  /** `list.indexOf(x)`: the first position holding `x`, or -1. */
  function IndexOf<T(==)>(xs: seq<T>, x: T): (i: int)
    ensures -1 <= i < |xs|
    ensures i == -1 <==> x !in xs
    ensures i >= 0 ==> xs[i] == x && x !in xs[..i]
  {
    if |xs| == 0 then -1
    else if xs[0] == x then 0
    else
      var j := IndexOf(xs[1..], x);
      assert j >= 0 ==> xs[..j + 1] == [xs[0]] + xs[1..][..j];
      if j == -1 then -1 else j + 1
  }

  /** The values a list holds, as `new HashSet<>(list)` collects them. */
  function Elements<T>(xs: seq<T>): set<T> {
    set k | 0 <= k < |xs| :: xs[k]
  }

  /** A list has as many distinct values as entries exactly when no value repeats. */
  lemma {:induction false} DistinctCard<T>(xs: seq<T>)
    ensures |Elements(xs)| <= |xs|
    ensures |Elements(xs)| == |xs| <==> Distinct(xs)
  {
    if |xs| > 0 {
      var ys := xs[..|xs| - 1];
      var x := xs[|xs| - 1];
      DistinctCard(ys);
      assert Elements(xs) == Elements(ys) + {x} by {
        forall v | v in Elements(xs)
          ensures v in Elements(ys) + {x}
        {
          var k :| 0 <= k < |xs| && xs[k] == v;
          if k < |xs| - 1 {
            assert ys[k] == v;
          }
        }
      }
      if x in Elements(ys) {
        var k :| 0 <= k < |ys| && ys[k] == x;
        assert xs[k] == xs[|xs| - 1];
      } else {
        if Distinct(ys) {
          forall i, j | 0 <= i < j < |xs|
            ensures xs[i] != xs[j]
          {
            if j == |xs| - 1 {
              assert ys[i] in Elements(ys);
            } else {
              assert ys[i] != ys[j];
            }
          }
        } else {
          var i, j :| 0 <= i < j < |ys| && ys[i] == ys[j];
          assert xs[i] == xs[j];
        }
      }
    }
  }

  /** The vertices `lo, lo+1, ..., hi-1`. */
  function Range(lo: nat, hi: nat): (r: seq<nat>)
    ensures |r| == if lo <= hi then hi - lo else 0
    ensures forall k | 0 <= k < |r| :: r[k] == lo + k
    decreases hi - lo
  {
    if lo >= hi then [] else [lo] + Range(lo + 1, hi)
  }

  /** Each vertex occurs at most once in a range. */
  lemma {:induction false} RangeCount(lo: nat, hi: nat, x: nat)
    ensures multiset(Range(lo, hi))[x] == if lo <= x < hi then 1 else 0
    decreases hi - lo
  {
    if lo < hi {
      RangeCount(lo + 1, hi, x);
      assert Range(lo, hi) == [lo] + Range(lo + 1, hi);
    }
  }

  /** A value held at two positions is counted twice. */
  lemma CountTwice<T>(v: seq<T>, i: nat, j: nat)
    requires i < j < |v|
    ensures v[i] == v[j] ==> multiset(v)[v[i]] >= 2
  {
    assert v == v[..j] + v[j..];
    assert v[i] == v[..j][i] && v[j] == v[j..][0];
  }

  /** An arrangement of `0, ..., n-1` holds each of them exactly once and nothing else. */
  lemma PermutationOfRange(v: seq<nat>, n: nat)
    requires multiset(v) == multiset(Range(0, n))
    ensures |v| == n && Distinct(v)
    ensures forall k | 0 <= k < |v| :: v[k] < n
    ensures forall x | 0 <= x < n :: x in v
  {
    assert |v| == |multiset(v)| == |multiset(Range(0, n))| == n;
    forall k | 0 <= k < |v|
      ensures v[k] < n
    {
      RangeCount(0, n, v[k]);
      assert v[k] in multiset(v);
    }
    forall i, j | 0 <= i < j < |v|
      ensures v[i] != v[j]
    {
      RangeCount(0, n, v[i]);
      CountTwice(v, i, j);
    }
    forall x | 0 <= x < n
      ensures x in v
    {
      RangeCount(0, n, x);
      assert x in multiset(v);
    }
  }

  /** `list.remove(Object x)`: drops the first occurrence of `x`, if any. */
  function RemoveFirst<T(==)>(xs: seq<T>, x: T): (r: seq<T>)
    ensures x in xs ==> multiset(r) == multiset(xs) - multiset{x} && |r| == |xs| - 1
    ensures x !in xs ==> r == xs
  {
    if |xs| == 0 then []
    else
      assert xs == [xs[0]] + xs[1..];
      if xs[0] == x then xs[1..] else [xs[0]] + RemoveFirst(xs[1..], x)
  }

  /** `list.remove(list.indexOf(x))`: the entry at the first occurrence `i` goes, the rest close up. */
  lemma {:induction false} RemoveFirstAt<T>(xs: seq<T>, x: T, i: nat)
    requires i < |xs| && xs[i] == x && x !in xs[..i]
    ensures RemoveFirst(xs, x) == xs[..i] + xs[i + 1..]
  {
    if i > 0 {
      var ys := xs[1..];
      assert xs[0] != x by {
        assert xs[..i][0] == xs[0];
      }
      assert ys[..i - 1] == xs[1..i];
      RemoveFirstAt(ys, x, i - 1);
      assert RemoveFirst(xs, x) == [xs[0]] + RemoveFirst(ys, x);
      assert xs[..i] == [xs[0]] + ys[..i - 1];
      assert xs[i + 1..] == ys[i..];
    }
  }

  /** Removing a value that occurs nowhere but at one spliced-in place gives the splice back. */
  lemma RemoveFirstInserted<T>(a: seq<T>, x: T, b: seq<T>)
    requires x !in a
    ensures RemoveFirst(a + [x] + b, x) == a + b
  {
    var xs := a + [x] + b;
    assert xs[..|a|] == a && xs[|a| + 1..] == b;
    RemoveFirstAt(xs, x, |a|);
  }

  /** Splicing a new value into a list without repeats keeps it without repeats. */
  lemma DistinctInsert<T>(a: seq<T>, x: T, b: seq<T>)
    requires Distinct(a + b) && x !in a && x !in b
    ensures Distinct(a + [x] + b)
  {
    var xs := a + [x] + b;
    forall i, j | 0 <= i < j < |xs|
      ensures xs[i] != xs[j]
    {
      if i < |a| && j > |a| {
        assert xs[i] == (a + b)[i] && xs[j] == (a + b)[j - 1];
      } else if i > |a| {
        assert xs[i] == (a + b)[i - 1] && xs[j] == (a + b)[j - 1];
      } else if i < |a| && j < |a| {
        assert xs[i] == (a + b)[i] && xs[j] == (a + b)[j];
      } else if i < |a| {
        assert xs[i] == a[i] && xs[j] == x;
      } else {
        assert xs[i] == x && xs[j] == b[j - |a| - 1];
      }
    }
  }

  /** Dropping one entry of a list without repeats keeps it without repeats. */
  lemma DistinctRemoveAt<T>(xs: seq<T>, i: nat)
    requires Distinct(xs) && i < |xs|
    ensures Distinct(xs[..i] + xs[i + 1..])
  {
    var ys := xs[..i] + xs[i + 1..];
    forall a, b | 0 <= a < b < |ys|
      ensures ys[a] != ys[b]
    {
      var a' := if a < i then a else a + 1;
      var b' := if b < i then b else b + 1;
      assert ys[a] == xs[a'] && ys[b] == xs[b'];
    }
  }

  /** Removing a value that was just appended, and occurs nowhere else, gives the list back. */
  lemma {:induction false} RemoveFirstAppended<T>(xs: seq<T>, x: T)
    requires x !in xs
    ensures RemoveFirst(xs + [x], x) == xs
  {
    if |xs| > 0 {
      assert (xs + [x])[1..] == xs[1..] + [x];
      RemoveFirstAppended(xs[1..], x);
    }
  }

  function Reverse<T>(xs: seq<T>): (r: seq<T>)
    ensures |r| == |xs| && forall k | 0 <= k < |xs| :: r[k] == xs[|xs| - 1 - k]
  {
    if |xs| == 0 then [] else Reverse(xs[1..]) + [xs[0]]
  }
}

=== FILE: solver.dfy ===
/**
 * `Solver.java`: the glue between a plan and the TSP strategy.  It restricts
 * the plan to a list of vertices (plan indices: the warehouse first, then the
 * delivery points), builds the complete graph of shortest distances between
 * them, maps the strategy's circuit back to plan indices, edits that circuit
 * when a delivery point is added or removed, and simulates the courier's day
 * along it.
 *
 * Every operation returns the updated solver together with its outcome; an
 * outcome `Failure` stands for the exception the Java method throws, and the
 * solver returned with it holds whatever the method had already changed.
 */
module Solvers {
  import opened Wrappers
  import opened Costs
  import opened Seqs
  import opened Paths
  import Dijkstra
  import opened CompleteGraphs
  import TemplateTsp
  import opened TspStrategies

  /** What `pointsToBeServed` leaves in `resultPoint`; times are seconds since midnight. */
  datatype Served = Served(served: int, cost: real, pointsWithTime: map<int, int>)

  /**
   * The solver's fields.  `plan` is the plan's cost matrix, since all the
   * solver asks of the plan is `findShortestDistance`; `g` is `None` until
   * `createCompleteGraph` has run; `result` is `None` while `resultPoint` is
   * still empty.
   */
  datatype Solver = Solver(
    plan: Matrix,
    vertices: seq<int>,
    g: Option<CompleteGraph>,
    strategy: Strategy,
    bestPath: seq<int>,
    result: Option<Served>)

  /**
   * The plan's matrix is square, and the complete graph is either square, as
   * `createCompleteGraph` builds it, or a graph whose rows a failed rebuild
   * has cleared (`Cleared`).
   */
  predicate Valid(s: Solver) {
    IsSquare(s.plan) && (s.g.Some? ==> Readable(s.g.value))
  }

  /** A square graph, or one with a vertex count and no rows left. */
  predicate Readable(g: CompleteGraph) {
    WellFormed(g) || (g.nbVertices >= 0 && g.cost == [])
  }

  /**
   * Every graph the solver builds stores the solver's own `completeMatrix`
   * list, and `createCompleteGraph` starts by clearing that list.  A rebuild
   * that throws leaves the previous graph, if any, with its vertex count and
   * no rows (`FailedBuildFirstRow`: the throw comes in row 0, before a row is
   * added).
   */
  function Cleared(g: Option<CompleteGraph>): (h: Option<CompleteGraph>)
    requires g.Some? ==> Readable(g.value)
    ensures h.Some? <==> g.Some?
    ensures h.Some? ==> Readable(h.value) && h.value.nbVertices == g.value.nbVertices && h.value.cost == []
    ensures h.Some? ==> (WellFormed(h.value) <==> h.value.nbVertices == 0)
  {
    if g.Some? then Some(CompleteGraph(g.value.nbVertices, [])) else None
  }

  /** The constructor: no graph, no path, no result yet. */
  function NewSolver(plan: Matrix, vertices: seq<int>, strategy: Strategy): (s: Solver)
    ensures s.plan == plan && s.vertices == vertices && s.strategy == strategy
    ensures s.g.None? && s.bestPath == [] && s.result.None?
  {
    Solver(plan, vertices, None, strategy, [], None)
  }

  // ---------------------------------------------------------------------------
  // createCompleteGraph

  /**
   * Dijkstra is run for every ordered pair of distinct positions, so with two
   * or more vertices each of them must be a plan index; a single vertex is
   * never looked up.
   */
  predicate Addressable(m: Matrix, vs: seq<int>) {
    |vs| < 2 || forall k | 0 <= k < |vs| :: 0 <= vs[k] < |m|
  }

  /** The entry at row `i`, column `j`: -1.0 on the diagonal, the plan distance elsewhere. */
  function Entry(m: Matrix, vs: seq<int>, i: nat, j: nat): real
    requires IsSquare(m) && Addressable(m, vs) && i < |vs| && j < |vs|
  {
    if i == j then -1.0 else Dijkstra.FindShortestDistance(m, vs[i], vs[j])
  }

  /**
   * `createCompleteGraph()`: an out-of-range vertex makes Dijkstra index
   * outside its arrays.  The engine then reads -1.0 on the diagonal and
   * outside the vertex range, and the plan's shortest distance between the
   * two vertices on every arc.
   */
  function CreateCompleteGraph(m: Matrix, vs: seq<int>): (r: Result<CompleteGraph, string>)
    requires IsSquare(m)
    ensures r.Success? <==> Addressable(m, vs)
    ensures r.Success? ==> WellFormed(r.value) && r.value.nbVertices == |vs|
    ensures r.Success? ==> forall i, j :: IsArc(r.value, i, j) <==> 0 <= i < |vs| && 0 <= j < |vs| && i != j
    ensures r.Success? ==> forall i, j | !IsArc(r.value, i, j) :: GetCost(r.value, i, j) == -1.0
    ensures r.Success? ==> forall i, j | IsArc(r.value, i, j) ::
      0 <= vs[i] < |m| && 0 <= vs[j] < |m| && GetCost(r.value, i, j) == Dijkstra.FindShortestDistance(m, vs[i], vs[j])
  {
    if !Addressable(m, vs) then Failure("IndexOutOfBoundsException")
    else
      var rows := seq(|vs|, i requires 0 <= i < |vs| => seq(|vs|, j requires 0 <= j < |vs| => Entry(m, vs, i, j)));
      Success(CompleteGraph(|vs|, rows))
  }

  /** With non-negative lengths, an arc costs the plan's shortest distance, or -1.0 exactly when none exists. */
  lemma CompleteGraphShortest(m: Matrix, vs: seq<int>, i: nat, j: nat)
    requires IsSquare(m) && NonNegative(m) && CreateCompleteGraph(m, vs).Success?
    requires i < |vs| && j < |vs| && i != j
    ensures 0 <= vs[i] < |m| && 0 <= vs[j] < |m|
    ensures var c := GetCost(CreateCompleteGraph(m, vs).value, i, j);
      && (c == -1.0 <==> !Reachable(m, vs[i], vs[j]))
      && (c != -1.0 ==> IsShortestDistance(m, vs[i], vs[j], c))
  {
    assert IsArc(CreateCompleteGraph(m, vs).value, i, j);
  }

  /**
   * When two or more vertices are not all plan indices, row 0 already asks
   * Dijkstra for a distance from or to an out-of-range vertex, so the failed
   * build stores no row at all.
   */
  lemma FailedBuildFirstRow(m: Matrix, vs: seq<int>) returns (j: nat)
    requires IsSquare(m) && !Addressable(m, vs)
    ensures 0 < j < |vs| && !(0 <= vs[0] < |m| && 0 <= vs[j] < |m|)
  {
    var k :| 0 <= k < |vs| && !(0 <= vs[k] < |m|);
    j := if k == 0 then 1 else k;
  }

  /**
   * `init()`: builds the complete graph.  When the build throws, a graph
   * built earlier has lost its rows.
   */
  function Init(s: Solver): (r: (Solver, Result<CompleteGraph, string>))
    requires Valid(s)
    ensures Valid(r.0) && r.0.vertices == s.vertices && r.0.bestPath == s.bestPath
    ensures r.1 == CreateCompleteGraph(s.plan, s.vertices)
    ensures r.1.Success? ==> r.0 == s.(g := Some(r.1.value))
    ensures r.1.Failure? ==> r.0 == s.(g := r.0.g) && (r.0.g.Some? <==> s.g.Some?)
    ensures r.1.Failure? && s.g.Some? ==> r.0.g.value.nbVertices == s.g.value.nbVertices && r.0.g.value.cost == []
  {
    var c := CreateCompleteGraph(s.plan, s.vertices);
    if c.Success? then (s.(g := Some(c.value)), c) else (s.(g := Cleared(s.g)), c)
  }

  // ---------------------------------------------------------------------------
  // solve and getBestPath

  /**
   * `solve()`: the strategy runs on the complete graph; without one,
   * `solve(null)` throws.  On a graph with cleared rows the search throws:
   * with two or more vertices at the first `getCost`, with one vertex when
   * the empty solution is unboxed.
   */
  function Solve(s: Solver, budget: nat): (r: (Solver, Result<nat, string>))
    requires Valid(s)
    ensures Valid(r.0) && r.0 == s.(strategy := r.0.strategy)
    ensures s.g.None? ==> r.1.Failure? && r.0 == s
    ensures s.g.Some? && !WellFormed(s.g.value) ==> r.1.Failure? && r.0 == s
    ensures s.g.Some? && WellFormed(s.g.value) ==>
      r == (s.(strategy := TspStrategies.Solve(s.strategy, s.g.value, budget).0),
            TspStrategies.Solve(s.strategy, s.g.value, budget).1)
  {
    if s.g.None? then (s, Failure("NullPointerException"))
    else if !WellFormed(s.g.value) then
      (s, Failure(if s.g.value.nbVertices == 1 then "NullPointerException" else "IndexOutOfBoundsException"))
    else
      var (st, out) := TspStrategies.Solve(s.strategy, s.g.value, budget);
      (s.(strategy := st), out)
  }

  /** `vertices.get(k)` for every index `k` of a path, or `None` when one is out of range. */
  function ToVertices(vs: seq<int>, p: seq<int>): (r: Option<seq<int>>)
    ensures r.Some? <==> forall k | 0 <= k < |p| :: 0 <= p[k] < |vs|
    ensures r.Some? ==> |r.value| == |p| && forall k | 0 <= k < |p| :: r.value[k] == vs[p[k]]
  {
    if forall k | 0 <= k < |p| :: 0 <= p[k] < |vs| then
      Some(seq(|p|, k requires 0 <= k < |p| => vs[p[k]]))
    else None
  }

  /**
   * `getBestPath()`: a non-empty cached path is returned as it is; otherwise
   * the strategy's path (which grows by its first vertex on every request) is
   * mapped from graph indices to plan vertices and cached.  When the mapping
   * throws, the unmapped strategy path has already been stored.
   */
  function GetBestPath(s: Solver): (r: (Solver, Result<seq<int>, string>))
    ensures r.0.plan == s.plan && r.0.vertices == s.vertices && r.0.g == s.g && r.0.result == s.result
    ensures |s.bestPath| > 0 ==> r == (s, Success(s.bestPath))
    ensures r.1.Success? ==> r.0.bestPath == r.1.value && |r.1.value| > 0
  {
    if |s.bestPath| > 0 then (s, Success(s.bestPath))
    else
      match TspStrategies.GetBestPath(s.strategy)
      case Failure(e) => (s, Failure(e))
      case Success((st, p)) =>
        match ToVertices(s.vertices, p)
        case None => (s.(strategy := st, bestPath := p), Failure("IndexOutOfBoundsException"))
        case Some(q) => (s.(strategy := st, bestPath := q), Success(q))
  }

  /** Once a path is cached, asking again changes nothing and returns the same path. */
  lemma GetBestPathCached(s: Solver)
    requires GetBestPath(s).1.Success?
    ensures var (s1, r1) := GetBestPath(s);
      GetBestPath(s1) == (s1, r1)
  {
  }

  // ---------------------------------------------------------------------------
  // validatePath

  /** What `validatePath` checks, stated directly: a closed tour over the solver's vertices that repeats nothing but its ends. */
  predicate ClosedTour(vs: seq<int>, path: seq<int>) {
    && |path| > 0
    && Distinct(path[..|path| - 1])
    && (forall k | 0 <= k < |path| :: path[k] in vs)
    && path[0] == path[|path| - 1]
  }

  /** The first entry of `path` that `vs` does not contain, or `|path|`. */
  function FirstStranger(vs: seq<int>, path: seq<int>, i: nat): (k: nat)
    requires i <= |path|
    ensures i <= k <= |path|
    ensures forall j | i <= j < k :: path[j] in vs
    ensures k < |path| ==> path[k] !in vs
    decreases |path| - i
  {
    if i == |path| || path[i] !in vs then i else FirstStranger(vs, path, i + 1)
  }

  /**
   * `validatePath()`: the four checks in the order the method makes them,
   * the duplicate check comparing the size of a hash set with the length.
   */
  function ValidatePath(vs: seq<int>, path: seq<int>): (r: Result<(), string>)
    ensures r.Success? ==> |path| >= 1 && path[0] == path[|path| - 1] && forall k | 0 <= k < |path| :: path[k] in vs
    ensures |path| == 0 ==> r == Failure("Invalid path state: path is empty")
    ensures r.Failure? ==> r.error in {"Invalid path state: path is empty", "Invalid path state: contains duplicates",
                                       "Invalid path state: vertex not found in vertices",
                                       "Invalid path state: different start and end points"}
  {
    if |path| == 0 then Failure("Invalid path state: path is empty")
    else if |Elements(path[..|path| - 1])| != |path| - 1 then Failure("Invalid path state: contains duplicates")
    else if FirstStranger(vs, path, 0) < |path| then Failure("Invalid path state: vertex not found in vertices")
    else if path[0] != path[|path| - 1] then Failure("Invalid path state: different start and end points")
    else Success(())
  }

  /** The checks accept exactly the closed tours, and each rejection names the first check that fails. */
  lemma ValidatePathSpec(vs: seq<int>, path: seq<int>)
    ensures ValidatePath(vs, path).Success? <==> ClosedTour(vs, path)
    ensures |path| == 0 ==> ValidatePath(vs, path) == Failure("Invalid path state: path is empty")
    ensures |path| > 0 && !Distinct(path[..|path| - 1]) ==>
      ValidatePath(vs, path) == Failure("Invalid path state: contains duplicates")
  {
    if |path| > 0 {
      DistinctCard(path[..|path| - 1]);
    }
  }

  /** Mapping a circuit over graph indices through distinct vertices gives a closed tour that meets every vertex. */
  lemma MappedTour(vs: seq<int>, v: seq<nat>, q: seq<int>)
    requires Distinct(vs) && Distinct(v) && |v| == |vs| >= 1 && v[0] == 0
    requires forall k | 0 <= k < |v| :: v[k] < |vs|
    requires forall i | 0 <= i < |vs| :: i in v
    requires ToVertices(vs, v + [0]) == Some(q)
    ensures ClosedTour(vs, q)
    ensures forall i | 0 <= i < |vs| :: vs[i] in q
  {
    var n := |vs|;
    forall a, b | 0 <= a < b < n
      ensures q[..n][a] != q[..n][b]
    {
      assert q[a] == vs[v[a]] && q[b] == vs[v[b]];
    }
    forall i | 0 <= i < n
      ensures vs[i] in q
    {
      assert i in v;
      var k :| 0 <= k < |v| && v[k] == i;
      assert q[k] == vs[(v + [0])[k]];
    }
    assert q[n] == vs[(v + [0])[n]];
  }

  /**
   * Search and path on distinct vertices: when a fresh strategy finds a
   * circuit in the solver's complete graph (whatever its costs), the path the
   * solver returns starts and ends at the first vertex (the warehouse), meets
   * every vertex once in between, and passes `validatePath`.
   */
  lemma SolvedPathValid(s: Solver, budget: nat, s2: Solver)
    requires Valid(s) && s.g.Some? && s.g.value.nbVertices == |s.vertices| && Distinct(s.vertices)
    requires s.strategy == NewStrategy() && s.bestPath == []
    requires s2 == Solve(s, budget).0 && Solve(s, budget).1.Success?
    ensures GetBestPath(s2).1.Success?
    ensures var q := GetBestPath(s2).1.value;
      && ValidatePath(s.vertices, q).Success?
      && |q| == |s.vertices| + 1 && q[0] == s.vertices[0]
      && forall i | 0 <= i < |s.vertices| :: s.vertices[i] in q
  {
    var v := StrategyCircuit(s.g.value, budget, s2.strategy);
    SolverCircuit(s2, v);
  }

  /** What the solver needs from a successful search: an arrangement `v` of the graph's vertices, closed by 0. */
  lemma StrategyCircuit(g: CompleteGraph, budget: nat, st: Strategy) returns (v: seq<nat>)
    requires WellFormed(g)
    requires TspStrategies.Solve(NewStrategy(), g, budget).1.Success? && st == TspStrategies.Solve(NewStrategy(), g, budget).0
    ensures TspStrategies.GetBestPath(st).Success? && TspStrategies.GetBestPath(st).value.1 == v + [0]
    ensures |v| == g.nbVertices >= 1 && v[0] == 0 && multiset(v) == multiset(Range(0, |v|))
  {
    SolveThenBestPath(g, budget, st);
    v := TemplateTsp.Values(st.tsp.bestSol);
    assert TemplateTsp.Hamiltonian(g, v);
  }

  /** The solver's side of the pipeline, for a strategy holding an arrangement `v` of the graph's vertices. */
  lemma SolverCircuit(s: Solver, v: seq<nat>)
    requires s.bestPath == [] && Distinct(s.vertices)
    requires TspStrategies.GetBestPath(s.strategy).Success? && TspStrategies.GetBestPath(s.strategy).value.1 == v + [0]
    requires |v| == |s.vertices| >= 1 && v[0] == 0 && multiset(v) == multiset(Range(0, |v|))
    ensures GetBestPath(s).1.Success?
    ensures var q := GetBestPath(s).1.value;
      && ValidatePath(s.vertices, q).Success?
      && |q| == |v| + 1 && q[0] == s.vertices[0]
      && forall i | 0 <= i < |v| :: s.vertices[i] in q
  {
    PermutationOfRange(v, |v|);
    SolverPathFrom(s, v);
  }

  /** The solver's side of the pipeline, once the strategy holds a circuit `v` over graph indices. */
  lemma SolverPathFrom(s: Solver, v: seq<nat>)
    requires s.bestPath == [] && Distinct(s.vertices)
    requires TspStrategies.GetBestPath(s.strategy).Success? && TspStrategies.GetBestPath(s.strategy).value.1 == v + [0]
    requires Distinct(v) && |v| == |s.vertices| >= 1 && v[0] == 0
    requires forall k | 0 <= k < |v| :: v[k] < |v|
    requires forall i | 0 <= i < |v| :: i in v
    ensures GetBestPath(s).1.Success?
    ensures var q := GetBestPath(s).1.value;
      && ValidatePath(s.vertices, q).Success?
      && |q| == |v| + 1 && q[0] == s.vertices[0]
      && forall i | 0 <= i < |v| :: s.vertices[i] in q
  {
    var vs := s.vertices;
    assert forall k | 0 <= k < |v + [0]| :: 0 <= (v + [0])[k] < |vs|;
    var q := ToVertices(vs, v + [0]).value;
    MappedTour(vs, v, q);
    ValidatePathSpec(vs, q);
    assert q[0] == vs[(v + [0])[0]];
  }

  // ---------------------------------------------------------------------------
  // addDeliveryPoint

  /**
   * The extra length of leaving the path between its entries `i` and `i + 1`
   * for the vertex appended last; path entries are turned into graph
   * positions with `indexOf`.
   */
  function Detour(g: CompleteGraph, vs: seq<int>, path: seq<int>, i: nat): real
    requires WellFormed(g) && i + 1 < |path|
  {
    var a := IndexOf(vs, path[i]);
    var b := IndexOf(vs, path[i + 1]);
    var n := |vs| - 1;
    GetCost(g, a, n) + GetCost(g, n, b) - GetCost(g, a, b)
  }

  /** The number of legs of a path: consecutive pairs of entries. */
  function Legs(path: seq<int>): (n: nat)
    ensures n == 0 <==> |path| < 2
    ensures n > 0 ==> n + 1 == |path|
  {
    if |path| < 2 then 0 else |path| - 1
  }

  /** The detour of every leg, in path order. */
  function Detours(g: CompleteGraph, vs: seq<int>, path: seq<int>): (ds: seq<real>)
    requires WellFormed(g)
    ensures |ds| == Legs(path) && forall k | 0 <= k < |ds| :: ds[k] == Detour(g, vs, path, k)
  {
    seq(Legs(path), k requires 0 <= k < Legs(path) => Detour(g, vs, path, k))
  }

  /**
   * Insertion point `pos` is right after the first leg among legs `0 .. i-1`
   * with the least detour (0 before any leg is seen).
   */
  predicate LeastSoFar(ds: seq<real>, i: nat, pos: nat)
    requires i <= |ds|
  {
    if i == 0 then pos == 0
    else
      && 1 <= pos <= i
      && (forall k | 0 <= k < i :: ds[pos - 1] <= ds[k])
      && (forall k | 0 <= k < pos - 1 :: ds[pos - 1] < ds[k])
  }

  /** The scan's running minimum: `MAX_VALUE` before any leg, the best detour after. */
  function Minimum(ds: seq<real>, i: nat, pos: nat): Cost
    requires i <= |ds| && LeastSoFar(ds, i, pos)
  {
    if i == 0 then MaxValue else Fin(ds[pos - 1])
  }

  /** The loop of `addDeliveryPoint` from leg `i` on: a strictly smaller detour moves the insertion point. */
  function BestInsertion(ds: seq<real>, i: nat, minimum: Cost, pos: nat): (r: nat)
    requires i <= |ds| && LeastSoFar(ds, i, pos) && minimum == Minimum(ds, i, pos)
    ensures LeastSoFar(ds, |ds|, r)
    decreases |ds| - i
  {
    if i == |ds| then pos
    else if Fin(ds[i]).Less(minimum) then BestInsertion(ds, i + 1, Fin(ds[i]), i + 1)
    else BestInsertion(ds, i + 1, minimum, pos)
  }

  /**
   * Where the new vertex goes: right after the first leg of least detour,
   * so never before the start nor after the end of a path with a leg.
   */
  function Insertion(g: CompleteGraph, vs: seq<int>, path: seq<int>): (pos: nat)
    requires WellFormed(g)
    ensures LeastSoFar(Detours(g, vs, path), Legs(path), pos)
    ensures |path| < 2 ==> pos == 0
    ensures |path| >= 2 ==> 1 <= pos < |path|
  {
    BestInsertion(Detours(g, vs, path), 0, MaxValue, 0)
  }

  /**
   * `addDeliveryPoint(x)`: the vertex is appended and the complete graph
   * rebuilt (which throws, the vertex already appended and the previous
   * graph's rows cleared, when it is out of the plan), then `x` is spliced
   * into the path at the insertion point.
   */
  function AddDeliveryPoint(s: Solver, x: int): (r: (Solver, Result<seq<int>, string>))
    requires Valid(s)
    ensures Valid(r.0) && r.0.vertices == s.vertices + [x]
    ensures r.0.plan == s.plan && r.0.strategy == s.strategy && r.0.result == s.result
    ensures r.1.Success? <==> Addressable(s.plan, s.vertices + [x])
    ensures r.1.Failure? ==> r.0 == s.(vertices := s.vertices + [x], g := Cleared(s.g))
    ensures r.1.Success? ==> r.0.g.Some? && WellFormed(r.0.g.value) && r.0.bestPath == r.1.value
    ensures r.1.Success? ==> var pos := Insertion(r.0.g.value, r.0.vertices, s.bestPath);
      r.1.value == s.bestPath[..pos] + [x] + s.bestPath[pos..]
    ensures r.1.Success? ==> multiset(r.1.value) == multiset(s.bestPath) + multiset{x} && |r.1.value| == |s.bestPath| + 1
  {
    var vs := s.vertices + [x];
    match CreateCompleteGraph(s.plan, vs)
    case Failure(e) => (s.(vertices := vs, g := Cleared(s.g)), Failure(e))
    case Success(g) =>
      var pos := Insertion(g, vs, s.bestPath);
      var p := s.bestPath[..pos] + [x] + s.bestPath[pos..];
      SpliceCounts(s.bestPath, x, pos);
      (s.(vertices := vs, g := Some(g), bestPath := p), Success(p))
  }

  /** Splicing one entry into a list adds exactly that entry. */
  lemma SpliceCounts(p: seq<int>, x: int, pos: nat)
    requires pos <= |p|
    ensures multiset(p[..pos] + [x] + p[pos..]) == multiset(p) + multiset{x}
  {
    assert p == p[..pos] + p[pos..];
  }

  /**
   * An add that throws leaves the solver unable to use its path: the cached
   * closed tour still passes `validatePath` over the grown vertex list, but
   * its first leg now reads a row of the cleared graph, and so does the
   * search, where the graph built before answered both.
   */
  lemma FailedAddClearsGraph(s: Solver, x: int, budget: nat)
    requires Valid(s) && s.g.Some? && WellFormed(s.g.value) && s.g.value.nbVertices == |s.vertices|
    requires ClosedTour(s.vertices, s.bestPath) && |s.bestPath| >= 2
    requires AddDeliveryPoint(s, x).1.Failure?
    ensures PointsToBeServed(s.g, s.vertices, s.bestPath).Success?
    ensures var s1 := AddDeliveryPoint(s, x).0;
      && s1.bestPath == s.bestPath && ValidatePath(s1.vertices, s1.bestPath).Success?
      && PointsToBeServed(s1.g, s1.vertices, s1.bestPath).Failure?
      && ComputePointsToBeServed(s1).1.Failure?
      && Solve(s1, budget).1.Failure?
  {
    var s1 := AddDeliveryPoint(s, x).0;
    var p := s.bestPath;
    assert p[0] in s.vertices;
    ValidatePathSpec(s1.vertices, p);
    IndexOfGrown(s.vertices, x, p[0]);
    IndexOfGrown(s.vertices, x, p[1]);
    assert InRange(s1.g.value, IndexOf(s1.vertices, p[0])) && InRange(s1.g.value, IndexOf(s1.vertices, p[1]));
    assert ReadsRow(s1.g.value, s1.vertices, p);
  }

  /** A vertex already listed keeps its position when another is appended. */
  lemma IndexOfGrown(vs: seq<int>, x: int, e: int)
    requires e in vs
    ensures IndexOf(vs + [x], e) == IndexOf(vs, e)
  {
    assert (vs + [x])[IndexOf(vs, e)] == e;
  }

  /**
   * Adding a new point to a closed tour of two or more entries gives a closed
   * tour of the grown vertex list: the start stays first and the point is
   * visited once, between two consecutive stops.
   */
  lemma AddKeepsTour(s: Solver, x: int, s2: Solver)
    requires Valid(s) && ClosedTour(s.vertices, s.bestPath) && |s.bestPath| >= 2 && x !in s.vertices
    requires AddDeliveryPoint(s, x).1.Success? && s2 == AddDeliveryPoint(s, x).0
    ensures ClosedTour(s2.vertices, s2.bestPath)
    ensures s2.bestPath[0] == s.bestPath[0] && x in s2.bestPath
    ensures multiset(s2.bestPath) == multiset(s.bestPath) + multiset{x}
  {
    var p := s.bestPath;
    var pos := Insertion(s2.g.value, s2.vertices, p);
    SplicedTour(s.vertices, p, x, pos);
  }

  /** The list facts behind `AddKeepsTour`, for any insertion point strictly inside the path. */
  lemma SplicedTour(vs: seq<int>, p: seq<int>, x: int, pos: nat)
    requires ClosedTour(vs, p) && x !in vs && 1 <= pos < |p|
    ensures var q := p[..pos] + [x] + p[pos..];
      && ClosedTour(vs + [x], q) && q[0] == p[0] && x in q
      && multiset(q) == multiset(p) + multiset{x}
  {
    var n := |p|;
    var q := p[..pos] + [x] + p[pos..];
    assert p == p[..pos] + p[pos..];
    assert x !in p by {
      forall k | 0 <= k < n
        ensures p[k] != x
      {
        assert p[k] in vs;
      }
    }
    assert q[..n] == p[..pos] + [x] + p[pos..n - 1];
    assert p[..n - 1] == p[..pos] + p[pos..n - 1];
    DistinctInsert(p[..pos], x, p[pos..n - 1]);
    assert q[0] == p[0] && q[n] == p[n - 1] && q[pos] == x;
    forall k | 0 <= k < |q|
      ensures q[k] in vs + [x]
    {
      if k < pos {
        assert q[k] == p[k];
      } else if k > pos {
        assert q[k] == p[k - 1];
      }
    }
  }

  // ---------------------------------------------------------------------------
  // deleteDeliveryPoint

  /**
   * `deleteDeliveryPoint(x)` without its final index remapping (see
   * `DeleteDeliveryPointAsWritten`): the first occurrence of `x` leaves the
   * vertices, the complete graph is rebuilt, and the first occurrence of `x`
   * leaves the path.  A missing `x` throws, before anything changed when it
   * is not a vertex, after the vertex and graph changed when it is not on the
   * path.  A rebuild that throws clears the previous graph's rows.
   */
  function DeleteDeliveryPoint(s: Solver, x: int): (r: (Solver, Result<seq<int>, string>))
    requires Valid(s)
    ensures Valid(r.0) && r.0.plan == s.plan && r.0.strategy == s.strategy && r.0.result == s.result
    ensures x !in s.vertices ==> r.0 == s && r.1.Failure?
    ensures x in s.vertices ==> r.0.vertices == RemoveFirst(s.vertices, x) && |r.0.vertices| + 1 == |s.vertices|
    ensures r.1.Success? <==> x in s.vertices && x in s.bestPath && Addressable(s.plan, RemoveFirst(s.vertices, x))
    ensures r.1.Failure? ==> r.0.bestPath == s.bestPath
    ensures x in s.vertices && !Addressable(s.plan, RemoveFirst(s.vertices, x)) ==>
      r.0 == s.(vertices := RemoveFirst(s.vertices, x), g := Cleared(s.g))
    ensures r.1.Success? ==>
      && r.0.g.Some? && r.1.value == r.0.bestPath && r.1.value == RemoveFirst(s.bestPath, x)
      && multiset(r.1.value) == multiset(s.bestPath) - multiset{x} && |r.1.value| + 1 == |s.bestPath|
  {
    if IndexOf(s.vertices, x) == -1 then (s, Failure("IllegalArgumentException: not found in vertices"))
    else
      var vs := RemoveFirst(s.vertices, x);
      match CreateCompleteGraph(s.plan, vs)
      case Failure(e) => (s.(vertices := vs, g := Cleared(s.g)), Failure(e))
      case Success(g) =>
        if IndexOf(s.bestPath, x) == -1 then (s.(vertices := vs, g := Some(g)), Failure("IllegalArgumentException: not found in path"))
        else
          var p := RemoveFirst(s.bestPath, x);
          (s.(vertices := vs, g := Some(g), bestPath := p), Success(p))
  }

  /**
   * Deleting a stop other than the start from a closed tour leaves a closed
   * tour of the remaining vertices that no longer visits it.
   */
  lemma DeleteKeepsTour(s: Solver, x: int, s2: Solver)
    requires Valid(s) && ClosedTour(s.vertices, s.bestPath) && x in s.bestPath && x != s.bestPath[0]
    requires DeleteDeliveryPoint(s, x).1.Success? && s2 == DeleteDeliveryPoint(s, x).0
    ensures ClosedTour(s2.vertices, s2.bestPath) && x !in s2.bestPath
    ensures s2.bestPath[0] == s.bestPath[0]
  {
    RemovedTour(s.vertices, s.bestPath, x);
  }

  /** The list facts behind `DeleteKeepsTour`. */
  lemma RemovedTour(vs: seq<int>, p: seq<int>, x: int)
    requires ClosedTour(vs, p) && x in p && x != p[0]
    ensures var q := RemoveFirst(p, x);
      && ClosedTour(RemoveFirst(vs, x), q) && x !in q && q[0] == p[0]
  {
    var q := RemoveFirst(p, x);
    RemovedEntries(p, x);
    forall k | 0 <= k < |q|
      ensures q[k] in RemoveFirst(vs, x)
    {
      StaysIn(vs, x, q[k]);
    }
  }

  /** Removing `x` from a list keeps every other value it holds. */
  lemma StaysIn(vs: seq<int>, x: int, y: int)
    requires y in vs && y != x
    ensures y in RemoveFirst(vs, x)
  {
    assert multiset(RemoveFirst(vs, x))[y] == multiset(vs)[y];
  }

  /** Removing a stop other than the start from a closed list without repeats. */
  lemma RemovedEntries(p: seq<int>, x: int)
    requires |p| > 0 && Distinct(p[..|p| - 1]) && p[0] == p[|p| - 1] && x in p && x != p[0]
    ensures var q := RemoveFirst(p, x);
      && |q| + 1 == |p| && |q| > 0 && q[0] == p[0] && q[|q| - 1] == p[|p| - 1]
      && Distinct(q[..|q| - 1])
      && forall k | 0 <= k < |q| :: q[k] in p && q[k] != x
  {
    var i := IndexOf(p, x);
    assert i != 0 && i != |p| - 1;
    RemoveFirstAt(p, x, i);
    DropInside(p, i);
  }

  /** Dropping an entry strictly inside a closed list without repeats. */
  lemma DropInside(p: seq<int>, i: nat)
    requires |p| > 0 && Distinct(p[..|p| - 1]) && p[0] == p[|p| - 1] && 0 < i < |p| - 1
    ensures var q := p[..i] + p[i + 1..];
      && |q| + 1 == |p| && |q| > 0 && q[0] == p[0] && q[|q| - 1] == p[|p| - 1]
      && Distinct(q[..|q| - 1])
      && forall k | 0 <= k < |q| :: q[k] in p && q[k] != p[i]
  {
    var n := |p|;
    var d := p[..n - 1];
    var q := p[..i] + p[i + 1..];
    assert q[..n - 2] == d[..i] + d[i + 1..];
    DistinctRemoveAt(d, i);
    forall k | 0 <= k < |q|
      ensures q[k] in p && q[k] != p[i]
    {
      var k' := if k < i then k else k + 1;
      assert q[k] == p[k'];
      if k' < n - 1 {
        assert d[k'] != d[i];
      } else {
        assert d[0] != d[i];
      }
    }
  }

  /**
   * `getNewIndex(e, oldVertices, vertices)` for an entry `e >= 0`: read as a
   * position in the old vertex list, the vertex there is looked up in the new
   * list; an entry past the old list yields `null` and is left alone.
   */
  function NewIndex(before: seq<int>, after: seq<int>, e: nat): int {
    if e < |before| then IndexOf(after, before[e]) else e
  }

  /** `q` is `p` with every entry replaced by its `NewIndex`. */
  predicate Remapped(before: seq<int>, after: seq<int>, p: seq<int>, q: seq<int>) {
    |q| == |p| && forall k | 0 <= k < |p| :: p[k] >= 0 && q[k] == NewIndex(before, after, p[k])
  }

  /** The first negative entry at or after `i`, or `|path|`. */
  function FirstNegative(path: seq<int>, i: nat): (k: nat)
    requires i <= |path|
    ensures i <= k <= |path|
    ensures forall j | i <= j < k :: path[j] >= 0
    ensures k < |path| ==> path[k] < 0
    decreases |path| - i
  {
    if i == |path| || path[i] < 0 then i else FirstNegative(path, i + 1)
  }

  /**
   * The remapping loop of `deleteDeliveryPoint` on the entries from `i` on:
   * each entry is replaced by its `NewIndex`, until a negative one makes
   * `oldVertices.get` throw (second component `false`), leaving it and the
   * rest as they were.
   */
  function Remap(path: seq<int>, before: seq<int>, after: seq<int>, i: nat): (r: (seq<int>, bool))
    requires i <= |path|
    ensures |r.0| == |path| - i
    ensures r.1 <==> FirstNegative(path, i) == |path|
    ensures forall k | i <= k < FirstNegative(path, i) :: r.0[k - i] == NewIndex(before, after, path[k])
    ensures forall k | FirstNegative(path, i) <= k < |path| :: r.0[k - i] == path[k]
    decreases |path| - i
  {
    if i == |path| then ([], true)
    else if path[i] < 0 then (path[i..], false)
    else
      var t := Remap(path, before, after, i + 1);
      ([NewIndex(before, after, path[i])] + t.0, t.1)
  }

  /**
   * `deleteDeliveryPoint(x)` as written: after the removals, every path entry
   * is remapped as if it were a position in the old vertex list.  Path
   * entries are plan vertices, not positions, so the remapping corrupts the
   * path (see `DeleteRemapCounterexample`); the rest of the model uses
   * `DeleteDeliveryPoint`, which stops before it.
   */
  function DeleteDeliveryPointAsWritten(s: Solver, x: int): (r: (Solver, Result<seq<int>, string>))
    requires Valid(s)
    ensures var (s1, r1) := DeleteDeliveryPoint(s, x);
      && (r1.Failure? ==> r == (s1, r1))
      && (r1.Success? ==>
        && r.0 == s1.(bestPath := r.0.bestPath) && |r.0.bestPath| == |r1.value|
        && (r.1.Success? <==> forall k | 0 <= k < |r1.value| :: r1.value[k] >= 0)
        && (r.1.Success? ==> r.1.value == r.0.bestPath && Remapped(s.vertices, s1.vertices, r1.value, r.1.value)))
  {
    var (s1, r1) := DeleteDeliveryPoint(s, x);
    if r1.Failure? then (s1, r1)
    else
      var (p, ok) := Remap(r1.value, s.vertices, s1.vertices, 0);
      (s1.(bestPath := p), if ok then Success(p) else Failure("IndexOutOfBoundsException"))
  }

  /**
   * Vertices [2, 0, 5] and the valid tour [2, 0, 5, 2]: deleting 5 as written
   * turns the path into [-1, 0, -1], which `validatePath` rejects
   * (`DeleteFixedExample` gives the corrected outcome).  Any plan in which 2
   * and 0 are intersections will do.
   */
  lemma DeleteRemapCounterexample(s: Solver)
    requires Valid(s) && Addressable(s.plan, [2, 0])
    requires s.vertices == [2, 0, 5] && s.bestPath == [2, 0, 5, 2]
    ensures ValidatePath(s.vertices, s.bestPath).Success?
    ensures DeleteDeliveryPointAsWritten(s, 5).0.vertices == [2, 0]
    ensures DeleteDeliveryPointAsWritten(s, 5).1 == Success([-1, 0, -1])
    ensures ValidatePath([2, 0], [-1, 0, -1]).Failure?
  {
    CounterexampleTours();
    DeleteFixedExample(s);
    var r := DeleteDeliveryPointAsWritten(s, 5);
    assert r.1.Success? by {
      assert forall k | 0 <= k < 3 :: [2, 0, 2][k] >= 0;
    }
    CounterexampleRemap(s.vertices, [2, 0], [2, 0, 2], r.1.value);
  }

  /** The same deletion without the remapping keeps the valid tour [2, 0, 2]. */
  lemma DeleteFixedExample(s: Solver)
    requires Valid(s) && Addressable(s.plan, [2, 0])
    requires s.vertices == [2, 0, 5] && s.bestPath == [2, 0, 5, 2]
    ensures DeleteDeliveryPoint(s, 5).0.vertices == [2, 0]
    ensures DeleteDeliveryPoint(s, 5).1 == Success([2, 0, 2])
    ensures ValidatePath([2, 0], [2, 0, 2]).Success?
  {
    CounterexampleLists(s.vertices, s.bestPath, [2, 0], [2, 0, 2]);
    CounterexampleTours();
  }

  /** The list steps of `DeleteRemapCounterexample`, on lists given entry by entry. */
  lemma CounterexampleLists(vs: seq<int>, p: seq<int>, ws: seq<int>, q: seq<int>)
    requires |vs| == 3 && vs[0] == 2 && vs[1] == 0 && vs[2] == 5
    requires |p| == 4 && p[0] == 2 && p[1] == 0 && p[2] == 5 && p[3] == 2
    requires |ws| == 2 && ws[0] == 2 && ws[1] == 0
    requires |q| == 3 && q[0] == 2 && q[1] == 0 && q[2] == 2
    ensures 5 in vs && RemoveFirst(vs, 5) == ws
    ensures 5 in p && RemoveFirst(p, 5) == q
  {
    assert vs[..2] == ws && vs[3..] == [];
    assert p[..2] + p[3..] == q;
    RemoveFirstAt(vs, 5, 2);
    RemoveFirstAt(p, 5, 2);
  }

  /** The remapping step of `DeleteRemapCounterexample`. */
  lemma CounterexampleRemap(vs: seq<int>, ws: seq<int>, q: seq<int>, r: seq<int>)
    requires |vs| == 3 && vs[0] == 2 && vs[1] == 0 && vs[2] == 5
    requires |ws| == 2 && ws[0] == 2 && ws[1] == 0
    requires |q| == 3 && q[0] == 2 && q[1] == 0 && q[2] == 2
    requires Remapped(vs, ws, q, r)
    ensures r == [-1, 0, -1]
  {
    assert forall k | 0 <= k < 2 :: ws[k] != 5;
    assert IndexOf(ws, 2) == 0;
    assert r[0] == -1 && r[1] == 0 && r[2] == -1;
    Entries3(r, -1, 0, -1);
  }

  lemma Entries3(xs: seq<int>, a: int, b: int, c: int)
    requires |xs| == 3 && xs[0] == a && xs[1] == b && xs[2] == c
    ensures xs == [a, b, c]
  {
  }

  /** The validity verdicts of `DeleteRemapCounterexample`. */
  lemma CounterexampleTours()
    ensures ValidatePath([2, 0, 5], [2, 0, 5, 2]).Success?
    ensures ValidatePath([2, 0], [2, 0, 2]).Success?
    ensures ValidatePath([2, 0], [-1, 0, -1]).Failure?
  {
    var p: seq<int> := [2, 0, 5, 2];
    assert p[..3] == [2, 0, 5];
    ValidatePathSpec([2, 0, 5], p);
    var q: seq<int> := [2, 0, 2];
    assert q[..2] == [2, 0];
    ValidatePathSpec([2, 0], q);
    ValidatePathSpec([2, 0], [-1, 0, -1]);
    assert -1 !in [2, 0];
  }

  /**
   * Deleting a point just added takes the solver back to the vertices and
   * path it had, when the point was new to both.
   */
  lemma AddThenDelete(s: Solver, x: int, s2: Solver)
    requires Valid(s) && x !in s.vertices && x !in s.bestPath
    requires AddDeliveryPoint(s, x).1.Success? && s2 == AddDeliveryPoint(s, x).0
    ensures var (s3, r) := DeleteDeliveryPoint(s2, x);
      r == Success(s.bestPath) && s3.vertices == s.vertices && s3.bestPath == s.bestPath
  {
    var pos := Insertion(s2.g.value, s2.vertices, s.bestPath);
    SpliceRemoved(s.vertices, s.bestPath, x, pos);
    AddressableWithout(s.plan, s.vertices, x);
  }

  /** The list facts behind `AddThenDelete`. */
  lemma SpliceRemoved(vs: seq<int>, p: seq<int>, x: int, pos: nat)
    requires x !in vs && x !in p && pos <= |p|
    ensures x in vs + [x] && RemoveFirst(vs + [x], x) == vs
    ensures var q := p[..pos] + [x] + p[pos..];
      x in q && RemoveFirst(q, x) == p
  {
    assert (p[..pos] + [x] + p[pos..])[pos] == x;
    assert p == p[..pos] + p[pos..];
    assert x !in p[..pos];
    RemoveFirstInserted(p[..pos], x, p[pos..]);
    RemoveFirstAppended(vs, x);
    assert (vs + [x])[|vs|] == x;
  }

  /** A vertex list stays within the plan when its last vertex is dropped. */
  lemma AddressableWithout(m: Matrix, vs: seq<int>, x: int)
    requires Addressable(m, vs + [x])
    ensures Addressable(m, vs)
  {
    if |vs| >= 2 {
      assert forall k | 0 <= k < |vs| :: vs[k] == (vs + [x])[k];
    }
  }

  // ---------------------------------------------------------------------------
  // pointsToBeServed: the courier's day along the path

  /** 08:00, in seconds since midnight. */
  const DayStart: int := 28800
  /** Five minutes of service at every stop after the start. */
  const ServiceTime: int := 300
  /** Eight hours of work, in seconds. */
  const WorkLimit: real := 28800.0
  const SecondsPerDay: int := 86400

  /** `LocalTime.plusSeconds`: the time of day wraps around at midnight. */
  function Tick(clock: int, secs: int): (t: int)
    ensures 0 <= t < SecondsPerDay
    ensures 0 <= clock + secs < SecondsPerDay ==> t == clock + secs
  {
    (clock + secs) % SecondsPerDay
  }

  /** Seconds to ride `d` metres at 15 km/h. */
  function Travel(d: real): (t: real)
    ensures d >= 0.0 ==> t >= 0.0
  {
    d / 1000.0 / 15.0 * 3600.0
  }

  /** The service time spent before leg `j`: none before the first. */
  function Service(j: nat): (t: int)
    ensures 0 <= t <= ServiceTime
  {
    if j > 0 then ServiceTime else 0
  }

  /** The distance of leg `j`, read from the graph at the positions `indexOf` finds. */
  function LegCost(g: CompleteGraph, vs: seq<int>, path: seq<int>, j: nat): real
    requires WellFormed(g) && j < Legs(path)
  {
    GetCost(g, IndexOf(vs, path[j]), IndexOf(vs, path[j + 1]))
  }

  /** Seconds of the day used once the first `k` legs are ridden, service included. */
  function Elapsed(g: CompleteGraph, vs: seq<int>, path: seq<int>, k: nat): real
    requires WellFormed(g) && k <= Legs(path)
  {
    if k == 0 then 0.0
    else Elapsed(g, vs, path, k - 1) + Service(k - 1) as real + Travel(LegCost(g, vs, path, k - 1))
  }

  /** Whole seconds the clock has moved after `k` legs: each ride is truncated before it is added. */
  function Advanced(g: CompleteGraph, vs: seq<int>, path: seq<int>, k: nat): int
    requires WellFormed(g) && k <= Legs(path)
  {
    if k == 0 then 0
    else Advanced(g, vs, path, k - 1) + Service(k - 1) + Trunc(Travel(LegCost(g, vs, path, k - 1)))
  }

  /** The time of day on arrival at `path[k]`. */
  function Clock(g: CompleteGraph, vs: seq<int>, path: seq<int>, k: nat): int
    requires WellFormed(g) && k <= Legs(path)
  {
    (DayStart + Advanced(g, vs, path, k)) % SecondsPerDay
  }

  /** Metres ridden over the first `k` legs. */
  function Distance(g: CompleteGraph, vs: seq<int>, path: seq<int>, k: nat): real
    requires WellFormed(g) && k <= Legs(path)
  {
    if k == 0 then 0.0 else Distance(g, vs, path, k - 1) + LegCost(g, vs, path, k - 1)
  }

  /** The arrival times after `k` legs: the start at 08:00, then each stop as it is reached, a later visit overwriting an earlier one. */
  function Stamps(g: CompleteGraph, vs: seq<int>, path: seq<int>, k: nat): map<int, int>
    requires WellFormed(g) && |path| > 0 && k <= Legs(path)
  {
    if k == 0 then map[path[0] := DayStart]
    else Stamps(g, vs, path, k - 1)[path[k] := Clock(g, vs, path, k)]
  }

  /** The number of legs within the working day: those before the first leg that ends past eight hours. */
  function Recorded(g: CompleteGraph, vs: seq<int>, path: seq<int>, i: nat): (n: nat)
    requires WellFormed(g) && i <= Legs(path)
    ensures i <= n <= Legs(path)
    ensures forall j | i < j <= n :: Elapsed(g, vs, path, j) <= WorkLimit
    ensures n < Legs(path) ==> Elapsed(g, vs, path, n + 1) > WorkLimit
    decreases Legs(path) - i
  {
    if i == Legs(path) || Elapsed(g, vs, path, i + 1) > WorkLimit then i else Recorded(g, vs, path, i + 1)
  }

  /** The loop's variables after leg `k`: running time, clock, cost and arrival map. */
  predicate LoopAt(g: CompleteGraph, vs: seq<int>, path: seq<int>, k: nat, total: real, clock: int, cost: real, times: map<int, int>)
    requires WellFormed(g) && |path| > 0 && k <= Legs(path)
  {
    && total == Elapsed(g, vs, path, k) && clock == Clock(g, vs, path, k)
    && cost == Distance(g, vs, path, k) && times == Stamps(g, vs, path, k)
  }

  /** The running time after leg `i`: five minutes of service unless it is the first leg, then the ride. */
  function NextTotal(total: real, i: nat, d: real): real {
    (if i > 0 then total + ServiceTime as real else total) + Travel(d)
  }

  /** The clock after leg `i`: the same two additions, each by a whole number of seconds. */
  function NextClock(clock: int, i: nat, d: real): int {
    Tick(if i > 0 then Tick(clock, ServiceTime) else clock, Trunc(Travel(d)))
  }

  /** One pass of the loop takes its variables from leg `i` to leg `i + 1`. */
  lemma LoopStep(g: CompleteGraph, vs: seq<int>, path: seq<int>, i: nat, total: real, clock: int, cost: real, times: map<int, int>)
    requires WellFormed(g) && |path| > 0 && i < Legs(path) && LoopAt(g, vs, path, i, total, clock, cost, times)
    ensures var d := LegCost(g, vs, path, i);
      var c := NextClock(clock, i, d);
      && NextTotal(total, i, d) == Elapsed(g, vs, path, i + 1)
      && LoopAt(g, vs, path, i + 1, NextTotal(total, i, d), c, cost + d, times[path[i + 1] := c])
  {
    TotalAt(g, vs, path, i);
    ClockAt(g, vs, path, i);
  }

  lemma TotalAt(g: CompleteGraph, vs: seq<int>, path: seq<int>, i: nat)
    requires WellFormed(g) && i < Legs(path)
    ensures Elapsed(g, vs, path, i + 1) == NextTotal(Elapsed(g, vs, path, i), i, LegCost(g, vs, path, i))
  {
  }

  lemma ClockAt(g: CompleteGraph, vs: seq<int>, path: seq<int>, i: nat)
    requires WellFormed(g) && i < Legs(path)
    ensures Clock(g, vs, path, i + 1) == NextClock(Clock(g, vs, path, i), i, LegCost(g, vs, path, i))
  {
    var d := LegCost(g, vs, path, i);
    var a := Advanced(g, vs, path, i);
    assert Advanced(g, vs, path, i + 1) == a + Service(i) + Trunc(Travel(d));
    ClockStep(a, i, d);
  }

  /** Adding the service time and the ride to the clock one after the other, wrapping each time, wraps the sum once. */
  lemma ClockStep(a: int, i: nat, d: real)
    ensures NextClock((DayStart + a) % SecondsPerDay, i, d) == (DayStart + a + Service(i) + Trunc(Travel(d))) % SecondsPerDay
  {
    var t := Trunc(Travel(d));
    var c := (DayStart + a) % SecondsPerDay;
    if i > 0 {
      assert NextClock(c, i, d) == Tick(Tick(c, ServiceTime), t);
    } else {
      assert NextClock(c, i, d) == Tick(c, t);
    }
  }

  /**
   * The loop of `pointsToBeServed` from leg `i` on.  The first leg that ends
   * past eight hours breaks the loop before its distance and arrival are
   * recorded.
   */
  function Walk(g: CompleteGraph, vs: seq<int>, path: seq<int>, i: nat, total: real, clock: int, cost: real, times: map<int, int>): (r: (real, map<int, int>))
    requires WellFormed(g) && |path| > 0 && i <= Legs(path) && LoopAt(g, vs, path, i, total, clock, cost, times)
    ensures var n := Recorded(g, vs, path, i);
      r == (Distance(g, vs, path, n), Stamps(g, vs, path, n))
    decreases Legs(path) - i
  {
    if i == Legs(path) then (cost, times)
    else
      var d := LegCost(g, vs, path, i);
      var total' := NextTotal(total, i, d);
      var clock' := NextClock(clock, i, d);
      LoopStep(g, vs, path, i, total, clock, cost, times);
      if total' > WorkLimit then (cost, times)
      else Walk(g, vs, path, i + 1, total', clock', cost + d, times[path[i + 1] := clock'])
  }

  /**
   * A square graph of `n` vertices costing -1.0 everywhere: what `getCost`
   * answers on a graph with cleared rows wherever it does not throw.
   */
  function Blank(n: nat): (h: CompleteGraph)
    ensures WellFormed(h) && h.nbVertices == n
    ensures forall i, j :: GetCost(h, i, j) == -1.0
  {
    CompleteGraph(n, seq(n, _ => seq(n, _ => -1.0)))
  }

  /**
   * On a graph with cleared rows, the walk reaches a leg whose two positions
   * are in the vertex range, where `cost.get(i)` throws: every leg before it
   * read -1.0 as on `Blank`, so the legs read are the recorded legs of
   * `Blank` and the one that ends its walk.
   */
  predicate ReadsRow(g: CompleteGraph, vs: seq<int>, path: seq<int>)
    requires g.nbVertices >= 0
  {
    exists j | 0 <= j < Legs(path) && j <= Recorded(Blank(g.nbVertices), vs, path, 0) ::
      InRange(g, IndexOf(vs, path[j])) && InRange(g, IndexOf(vs, path[j + 1]))
  }

  /**
   * `pointsToBeServed()`: `served` is the number of legs of the whole path,
   * however many fit in the day; the cost and the arrival times cover the
   * recorded legs only.  An empty path throws on `get(0)`, and a path with a
   * leg throws on a missing graph, or on a graph with cleared rows once a
   * leg inside its vertex range is read.
   */
  function PointsToBeServed(g: Option<CompleteGraph>, vs: seq<int>, path: seq<int>): (r: Result<Served, string>)
    requires g.Some? ==> Readable(g.value)
    ensures |path| == 0 || (|path| >= 2 && g.None?) ==> r.Failure?
    ensures |path| >= 1 && (|path| == 1 || (g.Some? && WellFormed(g.value))) ==> r.Success?
    ensures |path| >= 2 && g.Some? && !WellFormed(g.value) ==> (r.Failure? <==> ReadsRow(g.value, vs, path))
    ensures |path| == 1 ==> r == Success(Served(0, 0.0, map[path[0] := DayStart]))
    ensures |path| >= 2 && g.Some? && r.Success? ==>
      var h := Seen(g.value);
      var n := Recorded(h, vs, path, 0);
      r == Success(Served(|path| - 1, Distance(h, vs, path, n), Stamps(h, vs, path, n)))
  {
    if |path| == 0 then Failure("IndexOutOfBoundsException")
    else if |path| == 1 then Success(Served(0, 0.0, map[path[0] := DayStart]))
    else if g.None? then Failure("NullPointerException")
    else if !WellFormed(g.value) && ReadsRow(g.value, vs, path) then Failure("IndexOutOfBoundsException")
    else
      var (cost, times) := Walk(Seen(g.value), vs, path, 0, 0.0, DayStart, 0.0, map[path[0] := DayStart]);
      Success(Served(|path| - 1, cost, times))
  }

  /** The costs the walk reads: the graph itself, or -1.0 everywhere once its rows are cleared. */
  function Seen(g: CompleteGraph): (h: CompleteGraph)
    requires Readable(g)
    ensures WellFormed(h) && h.nbVertices == g.nbVertices
    ensures WellFormed(g) ==> h == g
  {
    if WellFormed(g) then g else Blank(g.nbVertices)
  }

  /**
   * With no leg of negative length, the clock never wraps within the
   * recorded legs: it starts at 08:00, only moves forward, and stays within
   * eight hours of the start.
   */
  lemma ClockInOrder(g: CompleteGraph, vs: seq<int>, path: seq<int>, a: nat, b: nat)
    requires WellFormed(g) && a <= b <= Recorded(g, vs, path, 0)
    requires forall j | 0 <= j < Recorded(g, vs, path, 0) :: LegCost(g, vs, path, j) >= 0.0
    ensures DayStart <= Clock(g, vs, path, a) <= Clock(g, vs, path, b) <= DayStart + 28800
  {
    assert Elapsed(g, vs, path, b) <= WorkLimit;
    ClockWithin(g, vs, path, a, b);
  }

  /** The same, for any `b` legs that fit in the day. */
  lemma ClockWithin(g: CompleteGraph, vs: seq<int>, path: seq<int>, a: nat, b: nat)
    requires WellFormed(g) && a <= b <= Legs(path) && Elapsed(g, vs, path, b) <= WorkLimit
    requires forall j | 0 <= j < b :: LegCost(g, vs, path, j) >= 0.0
    ensures DayStart <= Clock(g, vs, path, a) <= Clock(g, vs, path, b) <= DayStart + 28800
  {
    var x := Advanced(g, vs, path, a);
    var y := Advanced(g, vs, path, b);
    AdvancedGrows(g, vs, path, a, b);
    AdvancedWithin(g, vs, path, b);
    AdvancedGrows(g, vs, path, 0, a);
    assert 0 <= x <= y && y as real <= WorkLimit;
    NoWrap(x, y);
  }

  /** Within eight hours of 08:00 the time of day does not wrap. */
  lemma NoWrap(x: int, y: int)
    requires 0 <= x <= y <= 28800
    ensures DayStart <= (DayStart + x) % SecondsPerDay <= (DayStart + y) % SecondsPerDay <= DayStart + 28800
  {
  }

  /** The clock's advance never outruns the exact time used. */
  lemma {:induction false} AdvancedWithin(g: CompleteGraph, vs: seq<int>, path: seq<int>, k: nat)
    requires WellFormed(g) && k <= Legs(path)
    requires forall j | 0 <= j < k :: LegCost(g, vs, path, j) >= 0.0
    ensures Advanced(g, vs, path, k) as real <= Elapsed(g, vs, path, k)
  {
    if k > 0 {
      AdvancedWithin(g, vs, path, k - 1);
      var t := Travel(LegCost(g, vs, path, k - 1));
      assert Trunc(t) as real <= t;
    }
  }

  /** The clock's advance is monotone in the number of legs. */
  lemma {:induction false} AdvancedGrows(g: CompleteGraph, vs: seq<int>, path: seq<int>, a: nat, b: nat)
    requires WellFormed(g) && a <= b <= Legs(path)
    requires forall j | 0 <= j < b :: LegCost(g, vs, path, j) >= 0.0
    ensures Advanced(g, vs, path, a) <= Advanced(g, vs, path, b)
    decreases b
  {
    if a < b {
      AdvancedGrows(g, vs, path, a, b - 1);
      assert Trunc(Travel(LegCost(g, vs, path, b - 1))) >= 0;
    }
  }

  /**
   * The arrival map after `k` legs holds exactly the stops reached so far,
   * and a stop not visited again later carries the time it was reached.
   */
  lemma {:induction false} StampsAt(g: CompleteGraph, vs: seq<int>, path: seq<int>, k: nat, j: nat)
    requires WellFormed(g) && |path| > 0 && j <= k <= Legs(path)
    requires path[j] !in path[j + 1..k + 1]
    ensures path[j] in Stamps(g, vs, path, k) && Stamps(g, vs, path, k)[path[j]] == Clock(g, vs, path, j)
  {
    if k > j {
      assert path[k] in path[j + 1..k + 1] by {
        assert path[j + 1..k + 1][k - j - 1] == path[k];
      }
      assert path[j + 1..k] == path[j + 1..k + 1][..k - j - 1];
      StampsAt(g, vs, path, k - 1, j);
    }
  }

  /**
   * On a closed tour with no leg of negative length, the arrival times
   * recorded for the stops between the start and the return are in path
   * order and all within the working day.
   */
  lemma ArrivalTimesInOrder(g: CompleteGraph, vs: seq<int>, path: seq<int>, sv: Served, a: nat, b: nat)
    requires WellFormed(g) && ClosedTour(vs, path) && |path| >= 2
    requires forall j | 0 <= j < Legs(path) :: LegCost(g, vs, path, j) >= 0.0
    requires PointsToBeServed(Some(g), vs, path) == Success(sv)
    requires 1 <= a <= b <= Recorded(g, vs, path, 0) && b < |path| - 1
    ensures path[a] in sv.pointsWithTime && path[b] in sv.pointsWithTime
    ensures DayStart <= sv.pointsWithTime[path[a]] <= sv.pointsWithTime[path[b]] <= DayStart + 28800
  {
    var n := Recorded(g, vs, path, 0);
    OnceOnTour(path, a, n);
    OnceOnTour(path, b, n);
    StampsAt(g, vs, path, n, a);
    StampsAt(g, vs, path, n, b);
    ClockInOrder(g, vs, path, a, b);
  }

  /** A stop strictly between the start and the return of a closed tour is not visited again. */
  lemma OnceOnTour(path: seq<int>, j: nat, k: nat)
    requires |path| > 0 && Distinct(path[..|path| - 1]) && path[0] == path[|path| - 1]
    requires 1 <= j <= k < |path| && j < |path| - 1
    ensures path[j] !in path[j + 1..k + 1]
  {
    var n := |path|;
    forall i | j < i <= k
      ensures path[i] != path[j]
    {
      if i < n - 1 {
        assert path[..n - 1][j] != path[..n - 1][i];
      } else {
        assert path[..n - 1][j] != path[..n - 1][0];
      }
    }
  }

  // ---------------------------------------------------------------------------
  // computePointsToBeServed and getBestPossiblePath

  /**
   * `computePointsToBeServed()`: an empty path is first fetched with
   * `getBestPath`, then validated, then walked; only a complete walk stores
   * its result.
   */
  function ComputePointsToBeServed(s: Solver): (r: (Solver, Result<(), string>))
    requires Valid(s)
    ensures var (s1, p) := GetBestPath(s);
      && r.0 == s1.(result := r.0.result) && Valid(r.0)
      && (r.1.Success? <==>
          && p.Success? && ClosedTour(s1.vertices, s1.bestPath)
          && PointsToBeServed(s1.g, s1.vertices, s1.bestPath).Success?)
      && (r.1.Success? ==> r.0.result == Some(PointsToBeServed(s1.g, s1.vertices, s1.bestPath).value))
      && (r.1.Failure? ==> r.0.result == s.result)
  {
    var (s1, p) := GetBestPath(s);
    ValidatePathSpec(s1.vertices, s1.bestPath);
    if p.Failure? then (s1, Failure(p.error))
    else match ValidatePath(s1.vertices, s1.bestPath)
      case Failure(e) => (s1, Failure(e))
      case Success(_) =>
        match PointsToBeServed(s1.g, s1.vertices, s1.bestPath)
        case Failure(e) => (s1, Failure(e))
        case Success(sv) => (s1.(result := Some(sv)), Success(()))
  }

  /**
   * `getBestPossiblePath()`: the first `served + 1` entries of the path, as a
   * view on it.  When more than one stop is served and the view does not
   * close on its start, the start is appended to it, which also inserts it
   * into the solver's path.  Without a result, unboxing `served` throws.
   */
  function GetBestPossiblePath(s: Solver): (r: (Solver, Result<seq<int>, string>))
    ensures r.0.plan == s.plan && r.0.vertices == s.vertices && r.0.g == s.g && r.0.result == s.result
    ensures var (s1, p) := GetBestPath(s);
      && (r.1.Success? <==> p.Success? && s1.result.Some? && 0 <= s1.result.value.served + 1 <= |s1.bestPath|)
      && (r.1.Success? ==>
          var n := s1.result.value.served;
          && n + 1 <= |r.1.value| <= n + 2 && r.1.value[..n + 1] == s1.bestPath[..n + 1]
          && (n > 0 ==> r.1.value[0] == r.1.value[|r.1.value| - 1])
          && (n > 0 && s1.bestPath[0] != s1.bestPath[n] ==> |r.1.value| == n + 2 && r.0.bestPath == r.1.value + s1.bestPath[n + 1..])
          && (!(n > 0 && s1.bestPath[0] != s1.bestPath[n]) ==> r == (s1, Success(s1.bestPath[..n + 1]))))
      && (r.1.Failure? ==> r.0 == s1)
  {
    var (s1, p) := GetBestPath(s);
    if p.Failure? then (s1, Failure(p.error))
    else if s1.result.None? then (s1, Failure("NullPointerException"))
    else
      var n := s1.result.value.served;
      if n + 1 < 0 then (s1, Failure("IllegalArgumentException"))
      else if n + 1 > |s1.bestPath| then (s1, Failure("IndexOutOfBoundsException"))
      else
        var sub := s1.bestPath[..n + 1];
        if n > 0 && sub[0] != sub[n] then
          var closed := sub + [sub[0]];
          (s1.(bestPath := closed + s1.bestPath[n + 1..]), Success(closed))
        else (s1, Success(sub))
  }

  /**
   * Because `served` counts every leg, not just the recorded ones, the best
   * possible path after a successful computation is the whole closed path.
   */
  lemma WholePathServed(s: Solver, s2: Solver)
    requires Valid(s) && ComputePointsToBeServed(s).1.Success? && s2 == ComputePointsToBeServed(s).0
    ensures GetBestPossiblePath(s2) == (s2, Success(s2.bestPath))
  {
    var (s1, p) := GetBestPath(s);
    ServedCount(s1.g, s1.vertices, s1.bestPath);
    ClosedServed(s2);
  }

  /** A cached closed path whose `served` counts all its legs is its own best possible path. */
  lemma ClosedServed(s: Solver)
    requires |s.bestPath| > 0 && s.bestPath[0] == s.bestPath[|s.bestPath| - 1]
    requires s.result.Some? && s.result.value.served == |s.bestPath| - 1
    ensures GetBestPossiblePath(s) == (s, Success(s.bestPath))
  {
    assert s.bestPath[..|s.bestPath|] == s.bestPath;
  }

  /** `served` is the number of legs of any path that can be walked. */
  lemma ServedCount(g: Option<CompleteGraph>, vs: seq<int>, path: seq<int>)
    requires g.Some? ==> Readable(g.value)
    requires PointsToBeServed(g, vs, path).Success?
    ensures PointsToBeServed(g, vs, path).value.served == |path| - 1
  {
  }
}

=== FILE: template_tsp.dfy ===
/**
 * `algorithm/tsp/TemplateTSP.java` with its one concrete subclass `TSP1.java`:
 * branch and bound over Hamiltonian circuits from vertex 0 on a
 * `CompleteGraph`, with `visited` and `unvisited` as array lists that each
 * branch extends and shrinks and then puts back, a pluggable lower `bound`,
 * and `SeqIter` as the candidate order.
 *
 * The wall clock is replaced by a budget: the time test passes for the first
 * `budget` calls of `branchAndBound` and fails for every later one, which is
 * all the source relies on (elapsed time only grows).  Each result carries
 * the number of calls made, so the search was cut short exactly when that
 * number exceeds the budget.
 */
module TemplateTsp {
  import opened Costs
  import opened Wrappers
  import opened Seqs
  import opened CompleteGraphs
  import SeqIters

  /** The abstract `bound(currentVertex, unvisited)` of the template. */
  type Bound = (nat, seq<nat>) -> int

  /** `TSP1.bound`: the trivial bound, so only the cost so far can prune. */
  function Tsp1Bound(current: nat, unvisited: seq<nat>): (b: int)
    ensures b == 0
  {
    0
  }

  /**
   * `TSP1.iterator`: a `SeqIter` over the same collection and vertex, which
   * hands out every unvisited arc-successor of `current` and nothing else.
   */
  function Tsp1Iterator(current: nat, unvisited: seq<nat>, g: CompleteGraph): (it: SeqIters.SeqIter)
    ensures SeqIters.Valid(it)
    ensures forall x :: x in SeqIters.Drain(it).0 <==> x in unvisited && IsArc(g, current, x)
    ensures multiset(SeqIters.Drain(it).0) == multiset(SeqIters.Successors(g, unvisited, current))
  {
    var it := SeqIters.New(g, unvisited, current);
    SeqIters.NewDrain(g, unvisited, current);
    it
  }

  // ---------------------------------------------------------------------------
  // Tours on a complete graph

  /** Cost of following `p` with `getCost` (no return edge). */
  function WalkCost(g: CompleteGraph, p: seq<nat>): real
    requires WellFormed(g)
    decreases |p|
  {
    if |p| <= 1 then 0.0 else WalkCost(g, p[..|p| - 1]) + GetCost(g, p[|p| - 2], p[|p| - 1])
  }

  /** `currentCost + g.getCost(currentVertex, nextVertex)`: the cost of the walk once it moves on to `next`. */
  function StepCost(g: CompleteGraph, cost: real, current: nat, next: nat): real
    requires WellFormed(g)
  {
    cost + GetCost(g, current, next)
  }

  /** There is an arc from the k-th vertex of `p` to the next one. */
  predicate ArcAt(g: CompleteGraph, p: seq<nat>, k: nat)
    requires k + 1 < |p|
  {
    IsArc(g, p[k], p[k + 1])
  }

  predicate Chain(g: CompleteGraph, p: seq<nat>) {
    forall k: nat | k + 1 < |p| :: ArcAt(g, p, k)
  }

  /** A Hamiltonian circuit from 0 as `bestSol` stores it: every vertex once, 0 first, arcs all the way round. */
  predicate Hamiltonian(g: CompleteGraph, p: seq<nat>) {
    && |p| >= 1 && |p| == g.nbVertices && p[0] == 0
    && multiset(p) == multiset(Range(0, |p|))
    && Chain(g, p) && IsArc(g, p[|p| - 1], 0)
  }

  function CycleCost(g: CompleteGraph, p: seq<nat>): real
    requires WellFormed(g) && |p| >= 1
  {
    WalkCost(g, p) + GetCost(g, p[|p| - 1], 0)
  }

  function Somes(xs: seq<nat>): (r: seq<Option<nat>>)
    ensures |r| == |xs| && forall k | 0 <= k < |xs| :: r[k] == Some(xs[k])
  {
    seq(|xs|, k requires 0 <= k < |xs| => Some(xs[k]))
  }

  predicate AllSome(s: seq<Option<nat>>) {
    forall k | 0 <= k < |s| :: s[k].Some?
  }

  function Values(s: seq<Option<nat>>): (r: seq<nat>)
    requires AllSome(s)
    ensures |r| == |s| && forall k | 0 <= k < |s| :: s[k] == Some(r[k])
  {
    seq(|s|, k requires 0 <= k < |s| => s[k].value)
  }

  /**
   * `visited.toArray(bestSol)`: copies the list into the array when it fits,
   * putting `null` right after it when there is room; a list longer than the
   * array goes to a new array that the source discards.
   */
  function ToArray(xs: seq<nat>, arr: seq<Option<nat>>): (r: seq<Option<nat>>)
    ensures |r| == |arr|
    ensures |xs| <= |arr| ==> r[..|xs|] == Somes(xs)
    ensures |xs| < |arr| ==> r[|xs|] == None && r[|xs| + 1..] == arr[|xs| + 1..]
    ensures |xs| > |arr| ==> r == arr
  {
    if |xs| > |arr| then arr
    else if |xs| == |arr| then Somes(xs)
    else Somes(xs) + [None] + arr[|xs| + 1..]
  }

  // ---------------------------------------------------------------------------
  // branchAndBound

  /** The fields `bestSol` and `bestSolCost`, and the number of `branchAndBound` calls so far. */
  datatype Best = Best(sol: seq<Option<nat>>, cost: Cost, calls: nat)

  /** One more call of `branchAndBound` made, the best solution as it was. */
  function Tick(s: Best): Best {
    s.(calls := s.calls + 1)
  }

  /** The two lists and the best solution after a call. */
  datatype Frame = Frame(unvisited: seq<nat>, visited: seq<nat>, best: Best)

  /** `bestSol` holds a circuit and `bestSolCost` is its closed cost. */
  predicate Found(g: CompleteGraph, b: Best) {
    && WellFormed(g) && b.cost.Fin? && AllSome(b.sol)
    && Hamiltonian(g, Values(b.sol)) && b.cost.r == CycleCost(g, Values(b.sol))
  }

  /** `visited` starts at 0, and `visited` and `unvisited` split the vertices between them. */
  predicate Split(g: CompleteGraph, visited: seq<nat>, unvisited: seq<nat>) {
    && WellFormed(g) && |visited| >= 1 && visited[0] == 0
    && multiset(visited) + multiset(unvisited) == multiset(Range(0, g.nbVertices))
  }

  /** What holds on entry to `branchAndBound(currentVertex, unvisited, visited, currentCost)`. */
  predicate Entry(g: CompleteGraph, current: nat, unvisited: seq<nat>, visited: seq<nat>, cost: real, s: Best) {
    && Split(g, visited, unvisited) && Chain(g, visited)
    && current == visited[|visited| - 1] && cost == WalkCost(g, visited)
    && |s.sol| == g.nbVertices
  }

  /**
   * What a call promises: both lists hold what they held on entry (`visited`
   * in the same order), `bestSolCost` never grows, and it changes only to the
   * closed cost of a circuit that extends `visited`, recorded in `bestSol`.
   */
  predicate Exit(g: CompleteGraph, unvisited: seq<nat>, visited: seq<nat>, s: Best, r: Frame) {
    && multiset(r.unvisited) == multiset(unvisited)
    && r.visited == visited
    && Improved(g, visited, s, r.best)
  }

  /** `b` is `s` or a strictly cheaper circuit extending `visited`, with at least as many calls made. */
  predicate Improved(g: CompleteGraph, visited: seq<nat>, s: Best, b: Best) {
    && |b.sol| == |s.sol|
    && b.cost.AtMost(s.cost)
    && b.calls >= s.calls
    && (b.cost == s.cost ==> b.sol == s.sol)
    && (b.cost != s.cost ==>
          && b.cost.Less(s.cost) && Found(g, b)
          && |visited| <= |b.sol| && b.sol[..|visited|] == Somes(visited))
  }

  /**
   * `branchAndBound`.  Whatever the lists hold, `unvisited` comes back as a
   * rearrangement of itself; started from a state that satisfies `Entry`,
   * the call keeps the promises of `Exit`.
   */
  function Explore(g: CompleteGraph, bound: Bound, budget: nat, current: nat, unvisited: seq<nat>,
                   visited: seq<nat>, cost: real, s: Best): (r: Frame)
    requires WellFormed(g)
    ensures r.best.calls > s.calls && r.best.cost.AtMost(s.cost)
    ensures multiset(r.unvisited) == multiset(unvisited) && |r.unvisited| == |unvisited|
    ensures Entry(g, current, unvisited, visited, cost, s) ==> Exit(g, unvisited, visited, s, r)
    decreases |unvisited|, 1, 0
  {
    var s1 := Tick(s);
    if s.calls >= budget then Frame(unvisited, visited, s1)
    else if |unvisited| == 0 then Leaf(g, current, visited, cost, s)
    else if Fin(cost + bound(current, unvisited) as real).Less(s.cost) then
      ExploreLoop(g, bound, budget, current, SeqIters.New(g, unvisited, current), unvisited, visited, cost, s1)
    else Frame(unvisited, visited, s1)
  }

  /**
   * The leaf of `branchAndBound`, once the clock has allowed the call: when
   * the arc back to 0 closes a circuit cheaper than `bestSolCost`, `visited`
   * is copied into `bestSol` and the closed cost becomes `bestSolCost`.
   */
  function Leaf(g: CompleteGraph, current: nat, visited: seq<nat>, cost: real, s: Best): (r: Frame)
    requires WellFormed(g)
    ensures r.best.calls == s.calls + 1 && r.unvisited == [] && r.visited == visited
    ensures r.best.cost.AtMost(s.cost)
    ensures Entry(g, current, [], visited, cost, s) ==> Improved(g, visited, s, r.best)
  {
    if IsArc(g, current, 0) && Fin(cost + GetCost(g, current, 0)).Less(s.cost) then
      var r := Frame([], visited, Best(ToArray(visited, s.sol), Fin(cost + GetCost(g, current, 0)), s.calls + 1));
      assert Entry(g, current, [], visited, cost, s) ==> Improved(g, visited, s, r.best) by {
        if Entry(g, current, [], visited, cost, s) {
          LeafCircuit(g, visited, [], cost);
        }
      }
      r
    else Frame([], visited, Tick(s))
  }

  /** The candidate iterator still holds unvisited arc-successors of `current` only. */
  predicate Pending(g: CompleteGraph, current: nat, it: SeqIters.SeqIter, unvisited: seq<nat>) {
    && SeqIters.Valid(it)
    && forall k | 0 <= k < it.nbCandidates :: it.candidates[k] in unvisited && IsArc(g, current, it.candidates[k])
  }

  /** The `while (it.hasNext())` loop of `branchAndBound`. */
  function ExploreLoop(g: CompleteGraph, bound: Bound, budget: nat, current: nat, it: SeqIters.SeqIter,
                       unvisited: seq<nat>, visited: seq<nat>, cost: real, s: Best): (r: Frame)
    requires WellFormed(g) && Pending(g, current, it, unvisited)
    ensures r.best.calls >= s.calls && r.best.cost.AtMost(s.cost)
    ensures multiset(r.unvisited) == multiset(unvisited) && |r.unvisited| == |unvisited|
    ensures Entry(g, current, unvisited, visited, cost, s) ==> Exit(g, unvisited, visited, s, r)
    decreases |unvisited|, 0, it.nbCandidates
  {
    match SeqIters.Next(it)
    case Failure(_) => Frame(unvisited, visited, s)
    case Success((it', next)) =>
      var b := Branch(g, bound, budget, current, next, unvisited, visited, cost, s);
      PendingKept(g, current, it, unvisited, b.unvisited);
      var r := ExploreLoop(g, bound, budget, current, it', b.unvisited, visited, cost, b.best);
      assert Entry(g, current, unvisited, visited, cost, s) ==> Exit(g, unvisited, visited, s, r) by {
        if Entry(g, current, unvisited, visited, cost, s) {
          EntryKept(g, current, unvisited, b.unvisited, visited, cost, s, b.best);
          ExitChain(g, unvisited, b.unvisited, visited, s, b, r);
        }
      }
      r
  }

  /** Once the front candidate is taken, the rest are still pending in any rearrangement of `unvisited`. */
  lemma PendingKept(g: CompleteGraph, current: nat, it: SeqIters.SeqIter, unvisited: seq<nat>, u: seq<nat>)
    requires Pending(g, current, it, unvisited) && it.nbCandidates > 0 && multiset(u) == multiset(unvisited)
    ensures Pending(g, current, SeqIters.Advance(it), u)
  {
    forall k | 0 <= k < it.nbCandidates - 1
      ensures it.candidates[k] in u
    {
      assert it.candidates[k] in multiset(unvisited);
    }
  }

  /**
   * One turn of the loop: `visited.add(next)`, `unvisited.remove(next)`, the
   * recursive call, then `visited.remove(next)` and `unvisited.add(next)`,
   * which puts `next` at the end of `unvisited`.
   */
  function Branch(g: CompleteGraph, bound: Bound, budget: nat, current: nat, next: nat, unvisited: seq<nat>,
                  visited: seq<nat>, cost: real, s: Best): (r: Frame)
    requires WellFormed(g) && next in unvisited
    ensures r.best.calls > s.calls && r.best.cost.AtMost(s.cost)
    ensures multiset(r.unvisited) == multiset(unvisited) && |r.unvisited| == |unvisited|
    ensures r.best == Explore(g, bound, budget, next, RemoveFirst(unvisited, next), visited + [next],
                              StepCost(g, cost, current, next), s).best
    ensures Entry(g, current, unvisited, visited, cost, s) && IsArc(g, current, next) ==>
      && Entry(g, next, RemoveFirst(unvisited, next), visited + [next], StepCost(g, cost, current, next), s)
      && Exit(g, unvisited, visited, s, r)
    decreases |unvisited|, 0, 0
  {
    var c := Explore(g, bound, budget, next, RemoveFirst(unvisited, next), visited + [next],
                     StepCost(g, cost, current, next), s);
    var r := Frame(c.unvisited + [next], RemoveFirst(c.visited, next), c.best);
    assert multiset(r.unvisited) == multiset(unvisited) by {
      assert multiset(r.unvisited) == multiset(c.unvisited) + multiset{next};
    }
    assert Entry(g, current, unvisited, visited, cost, s) && IsArc(g, current, next) ==>
      && Entry(g, next, RemoveFirst(unvisited, next), visited + [next], StepCost(g, cost, current, next), s)
      && Exit(g, unvisited, visited, s, r) by {
      if Entry(g, current, unvisited, visited, cost, s) && IsArc(g, current, next) {
        ChildEntry(g, current, next, unvisited, visited, cost, s);
        SplitDisjoint(g, visited, unvisited, next);
        BranchExit(g, unvisited, visited, next, s, c);
      }
    }
    r
  }

  /** Undoing the two list edits after the recursive call gives back what the caller had. */
  lemma BranchExit(g: CompleteGraph, unvisited: seq<nat>, visited: seq<nat>, next: nat, s: Best, c: Frame)
    requires next in unvisited && next !in visited
    requires Exit(g, RemoveFirst(unvisited, next), visited + [next], s, c)
    ensures Exit(g, unvisited, visited, s, Frame(c.unvisited + [next], RemoveFirst(c.visited, next), c.best))
    ensures |c.unvisited + [next]| == |unvisited|
  {
    var u := c.unvisited + [next];
    RemoveFirstAppended(visited, next);
    assert multiset(u) == multiset(unvisited) by {
      assert multiset(u) == multiset(c.unvisited) + multiset{next};
    }
    assert |u| == |unvisited| by {
      assert |u| == |multiset(u)|;
    }
    ImprovedPrefix(g, visited, next, s, c.best);
  }

  lemma ImprovedPrefix(g: CompleteGraph, visited: seq<nat>, next: nat, s: Best, b: Best)
    requires Improved(g, visited + [next], s, b)
    ensures Improved(g, visited, s, b)
  {
    if b.cost != s.cost {
      assert b.sol[..|visited|] == b.sol[..|visited| + 1][..|visited|];
    }
  }

  /** Two consecutive calls compose. */
  /** `Entry` depends on `unvisited` only through its contents and on the best solution only through its length. */
  lemma EntryKept(g: CompleteGraph, current: nat, u: seq<nat>, u': seq<nat>, visited: seq<nat>, cost: real, s: Best, s': Best)
    requires Entry(g, current, u, visited, cost, s)
    requires multiset(u') == multiset(u) && |s'.sol| == |s.sol|
    ensures Entry(g, current, u', visited, cost, s')
  {
  }

  lemma ExitChain(g: CompleteGraph, u0: seq<nat>, u1: seq<nat>, visited: seq<nat>, s: Best, b: Frame, r: Frame)
    requires Exit(g, u0, visited, s, b) && b.visited == visited && b.unvisited == u1
    requires Exit(g, u1, visited, b.best, r)
    ensures Exit(g, u0, visited, s, r)
  {
  }

  /** A vertex still to visit is not on the partial circuit. */
  lemma SplitDisjoint(g: CompleteGraph, visited: seq<nat>, unvisited: seq<nat>, x: nat)
    requires Split(g, visited, unvisited) && x in unvisited
    ensures x !in visited
  {
    RangeCount(0, g.nbVertices, x);
  }

  /** The recursive call of the loop meets the entry condition. */
  lemma ChildEntry(g: CompleteGraph, current: nat, next: nat, unvisited: seq<nat>, visited: seq<nat>, cost: real, s: Best)
    requires Entry(g, current, unvisited, visited, cost, s) && next in unvisited && IsArc(g, current, next)
    ensures Entry(g, next, RemoveFirst(unvisited, next), visited + [next], StepCost(g, cost, current, next), s)
  {
    var child := visited + [next];
    ChildSplit(g, visited, unvisited, next);
    assert child[..|child| - 1] == visited;
    ChainExtend(g, visited, next);
  }

  lemma ChildSplit(g: CompleteGraph, visited: seq<nat>, unvisited: seq<nat>, next: nat)
    requires Split(g, visited, unvisited) && next in unvisited
    ensures Split(g, visited + [next], RemoveFirst(unvisited, next))
  {
    assert (visited + [next])[0] == visited[0];
    assert multiset(visited + [next]) == multiset(visited) + multiset{next};
  }

  lemma ChainExtend(g: CompleteGraph, p: seq<nat>, next: nat)
    requires |p| >= 1 && Chain(g, p) && IsArc(g, p[|p| - 1], next)
    ensures Chain(g, p + [next])
  {
    var q := p + [next];
    forall k: nat | k + 1 < |q|
      ensures ArcAt(g, q, k)
    {
      if k + 1 < |p| {
        assert ArcAt(g, p, k);
        assert q[k] == p[k] && q[k + 1] == p[k + 1];
      }
    }
  }

  /** With nothing left to visit, `visited` plus the arc home is a circuit of cost `cost` plus that arc. */
  lemma LeafCircuit(g: CompleteGraph, visited: seq<nat>, unvisited: seq<nat>, cost: real)
    requires Split(g, visited, unvisited) && Chain(g, visited) && cost == WalkCost(g, visited)
    requires |unvisited| == 0 && IsArc(g, visited[|visited| - 1], 0)
    ensures |visited| == g.nbVertices
    ensures Hamiltonian(g, visited) && CycleCost(g, visited) == cost + GetCost(g, visited[|visited| - 1], 0)
    ensures Values(Somes(visited)) == visited
  {
    assert multiset(visited) == multiset(Range(0, g.nbVertices));
    assert |visited| == |multiset(visited)|;
  }

  // ---------------------------------------------------------------------------
  // searchSolution and the getters

  /** The fields of a `TemplateTSP`; `g` is `null` until a search has started. */
  datatype Tsp = Tsp(bestSol: seq<Option<nat>>, g: Option<CompleteGraph>, bestSolCost: Cost, timeLimit: int)

  /** A search that has run: the engine and the number of `branchAndBound` calls it made. */
  datatype Run = Run(tsp: Tsp, calls: nat)

  /** A new engine: no graph yet, so both getters answer -1 whatever is asked. */
  function NewTsp(): (t: Tsp)
    ensures t.g.None? && Ready(t)
    ensures GetSolutionCost(t) == Fin(-1.0)
    ensures forall i: int :: GetSolution(t, i) == Some(-1)
  {
    Tsp([], None, MaxValue, 0)
  }

  /** `bestSol` is as long as the graph has vertices. */
  predicate Ready(t: Tsp) {
    t.g.Some? ==> |t.bestSol| == t.g.value.nbVertices
  }

  /**
   * `searchSolution(timeLimit, g)`: nothing happens with a non-positive time
   * limit; otherwise `bestSol` is a fresh array of nulls, `bestSolCost` is
   * reset to `MAX_VALUE` and the search starts with `visited = [0]`,
   * `unvisited = [1, ..., n-1]` and cost 0.  A negative vertex count throws
   * on the array; zero vertices throw on the list capacity `n - 1`.
   */
  function SearchSolution(t: Tsp, timeLimit: int, g: CompleteGraph, bound: Bound, budget: nat)
    : (r: Result<Run, string>)
    requires g.nbVertices < 0 || WellFormed(g)
    ensures timeLimit <= 0 ==> r == Success(Run(t, 0))
    ensures timeLimit > 0 ==> (r.Failure? <==> g.nbVertices < 1)
    ensures r.Success? && timeLimit > 0 ==>
      var u := r.value.tsp;
      && u.g == Some(g) && u.timeLimit == timeLimit && Ready(u) && r.value.calls >= 1
      && (u.bestSolCost == MaxValue ==> u.bestSol == seq(g.nbVertices, _ => None))
      && (u.bestSolCost != MaxValue ==> Found(g, Best(u.bestSol, u.bestSolCost, r.value.calls)))
  {
    if timeLimit <= 0 then Success(Run(t, 0))
    else if g.nbVertices < 0 then Failure("NegativeArraySizeException")
    else if g.nbVertices == 0 then Failure("IllegalArgumentException")
    else
      var n := g.nbVertices;
      var s := Best(seq(n, _ => None), MaxValue, 0);
      StartEntry(g);
      var f := Explore(g, bound, budget, 0, Range(1, n), [0], 0.0, s);
      Success(Run(Tsp(f.best.sol, Some(g), f.best.cost, timeLimit), f.best.calls))
  }

  lemma StartEntry(g: CompleteGraph)
    requires WellFormed(g) && g.nbVertices >= 1
    ensures Entry(g, 0, Range(1, g.nbVertices), [0], 0.0, Best(seq(g.nbVertices, _ => None), MaxValue, 0))
  {
    assert Range(0, g.nbVertices) == [0] + Range(1, g.nbVertices);
  }

  /** `getSolution(i)`: the i-th vertex of the best circuit (`null` if none was found), or -1 before a search or out of range. */
  function GetSolution(t: Tsp, i: int): (r: Option<int>)
    requires Ready(t)
    ensures t.g.None? || i < 0 || i >= t.g.value.nbVertices ==> r == Some(-1)
    ensures t.g.Some? && 0 <= i < t.g.value.nbVertices ==>
      (r.None? <==> t.bestSol[i].None?) && (r.Some? ==> r.value == t.bestSol[i].value)
  {
    if t.g.Some? && 0 <= i < t.g.value.nbVertices then
      match t.bestSol[i]
      case None => None
      case Some(v) => Some(v as int)
    else Some(-1 as int)
  }

  /** `getSolutionCost`: -1.0 before any search, else `bestSolCost`. */
  function GetSolutionCost(t: Tsp): (r: Cost)
    ensures t.g.None? ==> r == Fin(-1.0)
    ensures t.g.Some? ==> r == t.bestSolCost
  {
    if t.g.Some? then t.bestSolCost else Fin(-1.0)
  }
}

=== FILE: text.dfy ===
/**
 * Java's `String.trim()`, which the round applies to intersection ids before
 * it compares or looks them up: every leading and trailing character whose
 * code is at most that of the space character is removed.
 */
module Text {

  predicate Blank(c: char) {
    c <= ' '
  }

  /** The first position at or after `i` that does not hold a blank (`|s|` if none). */
  function FirstKept(s: string, i: nat): (k: nat)
    requires i <= |s|
    ensures i <= k <= |s|
    ensures forall j | i <= j < k :: Blank(s[j])
    ensures k < |s| ==> !Blank(s[k])
    decreases |s| - i
  {
    if i < |s| && Blank(s[i]) then FirstKept(s, i + 1) else i
  }

  /** The end of `s[lo..hi]` once its trailing blanks are dropped. */
  function LastKept(s: string, lo: nat, hi: nat): (k: nat)
    requires lo <= hi <= |s|
    ensures lo <= k <= hi
    ensures forall j | k <= j < hi :: Blank(s[j])
    ensures k > lo ==> !Blank(s[k - 1])
  {
    if hi > lo && Blank(s[hi - 1]) then LastKept(s, lo, hi - 1) else hi
  }

  /**
   * `t` is `s` cut at `i`: the slice `s[i..i + |t|]`, with nothing but blanks
   * around it and no blank at either of its own ends.
   */
  predicate TrimmedAt(s: string, t: string, i: nat) {
    && i + |t| <= |s| && t == s[i..i + |t|]
    && (forall k | 0 <= k < i :: Blank(s[k]))
    && (forall k | i + |t| <= k < |s| :: Blank(s[k]))
    && (|t| > 0 ==> !Blank(t[0]) && !Blank(t[|t| - 1]))
  }

  /** `trim()`. */
  function Trim(s: string): (t: string)
    ensures TrimmedAt(s, t, FirstKept(s, 0))
  {
    var lo := FirstKept(s, 0);
    s[lo..LastKept(s, lo, |s|)]
  }

  /** The characterisation is unique: any blank-free core cut out of `s` is `Trim(s)`. */
  lemma TrimUnique(s: string, t: string, i: nat)
    requires TrimmedAt(s, t, i)
    ensures t == Trim(s)
  {
    var j := FirstKept(s, 0);
    var u := Trim(s);
    // Both cores start at the first non-blank and end at the last one.
    if |t| > 0 {
      assert s[i] == t[0] && s[i + |t| - 1] == t[|t| - 1];
    }
    if |u| > 0 {
      assert s[j] == u[0] && s[j + |u| - 1] == u[|u| - 1];
    }
  }

  /** Trimming twice trims nothing more. */
  lemma TrimIdempotent(s: string)
    ensures Trim(Trim(s)) == Trim(s)
  {
    var t := Trim(s);
    assert TrimmedAt(t, t, 0) by {
      assert t[0..0 + |t|] == t;
    }
    TrimUnique(t, t, 0);
  }
}

=== FILE: tsp_optimality.dfy ===
/**
 * The interface promise of `algorithm/tsp/TSP.java`: a search that is not
 * cut short by the clock returns a cheapest Hamiltonian circuit from vertex
 * 0.  It holds for the template whenever arc costs are non-negative and the
 * bound never exceeds 0, which covers `TSP1`.
 */
module TspOptimality {
  import opened Costs
  import opened Wrappers
  import opened Seqs
  import opened CompleteGraphs
  import SeqIters
  import opened TemplateTsp

  /** Every arc costs at least 0. */
  ghost predicate NonNegative(g: CompleteGraph) {
    WellFormed(g) && forall i, j | IsArc(g, i, j) :: GetCost(g, i, j) >= 0.0
  }

  /** The bound never promises more than 0, so it is a lower bound on any non-negative completion. */
  ghost predicate Optimistic(bound: Bound) {
    forall current: nat, unvisited: seq<nat> :: bound(current, unvisited) <= 0
  }

  /** The part of `Entry` the cost argument needs: `cost` is the cost of the walk `visited`, which ends at `current`. */
  predicate At(g: CompleteGraph, current: nat, visited: seq<nat>, cost: real) {
    WellFormed(g) && |visited| >= 1 && current == visited[|visited| - 1] && cost == WalkCost(g, visited)
  }

  lemma AtStep(g: CompleteGraph, current: nat, visited: seq<nat>, cost: real, next: nat)
    requires At(g, current, visited, cost)
    ensures At(g, next, visited + [next], StepCost(g, cost, current, next))
  {
    assert (visited + [next])[..|visited|] == visited;
  }

  /** Along a chain of arcs with non-negative costs, extending the walk never makes it cheaper. */
  lemma {:induction false} WalkCostGrows(g: CompleteGraph, p: seq<nat>, w: seq<nat>)
    requires WellFormed(g) && NonNegative(g) && |p| >= 1 && Chain(g, p + w)
    ensures WalkCost(g, p) <= WalkCost(g, p + w)
    decreases |w|
  {
    if |w| > 0 {
      var q := p + w;
      var w' := w[..|w| - 1];
      assert q[..|q| - 1] == p + w';
      assert Chain(g, p + w') by {
        forall k: nat | k + 1 < |p + w'|
          ensures ArcAt(g, p + w', k)
        {
          assert ArcAt(g, q, k);
          assert (p + w')[k] == q[k] && (p + w')[k + 1] == q[k + 1];
        }
      }
      WalkCostGrows(g, p, w');
      assert ArcAt(g, q, |q| - 2);
      assert GetCost(g, q[|q| - 2], q[|q| - 1]) >= 0.0;
      assert WalkCost(g, q) == WalkCost(g, p + w') + GetCost(g, q[|q| - 2], q[|q| - 1]);
    } else {
      assert p + w == p;
    }
  }

  /** A circuit costs at least the walk along its first vertices. */
  lemma CycleCostAtLeast(g: CompleteGraph, p: seq<nat>, w: seq<nat>)
    requires WellFormed(g) && NonNegative(g) && |p| >= 1 && Hamiltonian(g, p + w)
    ensures WalkCost(g, p) <= CycleCost(g, p + w)
  {
    WalkCostGrows(g, p, w);
  }

  /**
   * `branchAndBound` is exhaustive when not cut short: its final
   * `bestSolCost` is at most the cost of every circuit that extends
   * `visited` by some arrangement of `unvisited`.
   */
  lemma {:induction false} ExploreOptimal(g: CompleteGraph, bound: Bound, budget: nat, current: nat, unvisited: seq<nat>,
                                          visited: seq<nat>, cost: real, s: Best, w: seq<nat>)
    requires At(g, current, visited, cost) && NonNegative(g) && Optimistic(bound)
    requires Explore(g, bound, budget, current, unvisited, visited, cost, s).best.calls <= budget
    requires multiset(w) == multiset(unvisited) && Hamiltonian(g, visited + w)
    ensures Explore(g, bound, budget, current, unvisited, visited, cost, s).best.cost.AtMost(Fin(CycleCost(g, visited + w)))
    decreases |unvisited|, 1, 0, 0
  {
    if |unvisited| == 0 {
      LeafOptimal(g, bound, budget, current, unvisited, visited, cost, s, w);
    } else if !Fin(cost + bound(current, unvisited) as real).Less(s.cost) {
      PrunedOptimal(g, bound, budget, current, unvisited, visited, cost, s, w);
    } else {
      ExpandOptimal(g, bound, budget, current, unvisited, visited, cost, s, w);
    }
  }

  /** Where the bound prunes, `bestSolCost` is already at most the walk so far, hence at most every completion. */
  lemma PrunedOptimal(g: CompleteGraph, bound: Bound, budget: nat, current: nat, unvisited: seq<nat>,
                                          visited: seq<nat>, cost: real, s: Best, w: seq<nat>)
    requires At(g, current, visited, cost) && NonNegative(g) && Optimistic(bound)
    requires Explore(g, bound, budget, current, unvisited, visited, cost, s).best.calls <= budget
    requires multiset(w) == multiset(unvisited) && Hamiltonian(g, visited + w)
    requires |unvisited| > 0 && !Fin(cost + bound(current, unvisited) as real).Less(s.cost)
    ensures Explore(g, bound, budget, current, unvisited, visited, cost, s).best.cost.AtMost(Fin(CycleCost(g, visited + w)))
  {
    assert s.calls < budget;
    assert bound(current, unvisited) <= 0;
    CycleCostAtLeast(g, visited, w);
  }

  /** Otherwise every completion starts with one of the candidates the loop goes through. */
  lemma {:induction false} ExpandOptimal(g: CompleteGraph, bound: Bound, budget: nat, current: nat, unvisited: seq<nat>,
                                          visited: seq<nat>, cost: real, s: Best, w: seq<nat>)
    requires At(g, current, visited, cost) && NonNegative(g) && Optimistic(bound)
    requires Explore(g, bound, budget, current, unvisited, visited, cost, s).best.calls <= budget
    requires multiset(w) == multiset(unvisited) && Hamiltonian(g, visited + w)
    requires |unvisited| > 0 && Fin(cost + bound(current, unvisited) as real).Less(s.cost)
    ensures Explore(g, bound, budget, current, unvisited, visited, cost, s).best.cost.AtMost(Fin(CycleCost(g, visited + w)))
    decreases |unvisited|, 0, |unvisited| + 1, 0
  {
    assert s.calls < budget;
    var it := SeqIters.New(g, unvisited, current);
    var k := FirstStep(g, current, unvisited, visited, w);
    LoopOptimal(g, bound, budget, current, it, unvisited, visited, cost, Tick(s), k, w[0], w[1..]);
  }


  /** At a leaf the only completion is the empty one, and the leaf keeps the cheaper of it and `bestSolCost`. */
  lemma LeafOptimal(g: CompleteGraph, bound: Bound, budget: nat, current: nat, unvisited: seq<nat>,
                                          visited: seq<nat>, cost: real, s: Best, w: seq<nat>)
    requires At(g, current, visited, cost) && NonNegative(g) && Optimistic(bound)
    requires Explore(g, bound, budget, current, unvisited, visited, cost, s).best.calls <= budget
    requires multiset(w) == multiset(unvisited) && Hamiltonian(g, visited + w)
    requires |unvisited| == 0
    ensures Explore(g, bound, budget, current, unvisited, visited, cost, s).best.cost.AtMost(Fin(CycleCost(g, visited + w)))
  {
    assert s.calls < budget;
    assert w == [];
    assert visited + w == visited;
  }


  /** The first vertex of a completion is an unvisited arc-successor, so it is among the candidates. */
  lemma FirstStep(g: CompleteGraph, current: nat, unvisited: seq<nat>, visited: seq<nat>, w: seq<nat>) returns (k: nat)
    requires |visited| >= 1 && current == visited[|visited| - 1] && |w| >= 1
    requires multiset(w) == multiset(unvisited) && Hamiltonian(g, visited + w)
    ensures var it := SeqIters.New(g, unvisited, current);
      && k < it.nbCandidates && it.candidates[k] == w[0] && Pending(g, current, it, unvisited)
      && multiset(w[1..]) == multiset(unvisited) - multiset{w[0]}
      && visited + w == (visited + [w[0]]) + w[1..]
  {
    var x := w[0];
    assert w == [x] + w[1..];
    assert x in multiset(unvisited) by {
      assert x in multiset(w);
    }
    assert IsArc(g, current, x) by {
      assert ArcAt(g, visited + w, |visited| - 1);
      assert (visited + w)[|visited| - 1] == current && (visited + w)[|visited|] == x;
    }
    k := CandidateIndex(g, unvisited, current, x);
  }

  /** An unvisited arc-successor sits among the iterator's candidates. */
  lemma CandidateIndex(g: CompleteGraph, unvisited: seq<nat>, current: nat, x: nat) returns (k: nat)
    requires x in unvisited && IsArc(g, current, x)
    ensures var it := SeqIters.New(g, unvisited, current);
      k < it.nbCandidates && it.candidates[k] == x
      && Pending(g, current, it, unvisited)
  {
    var it := SeqIters.New(g, unvisited, current);
    var c := SeqIters.Successors(g, unvisited, current);
    assert x in c;
    k :| 0 <= k < |c| && c[k] == x;
    assert it.candidates[..it.nbCandidates][k] == x;
    forall j | 0 <= j < it.nbCandidates
      ensures it.candidates[j] in unvisited && IsArc(g, current, it.candidates[j])
    {
      assert it.candidates[j] == c[j];
      assert c[j] in c;
    }
  }

  /**
   * The loop is exhaustive too: for a candidate still pending in the
   * iterator, the loop's result is at most every circuit that continues with
   * that candidate.
   */
  lemma {:induction false} LoopOptimal(g: CompleteGraph, bound: Bound, budget: nat, current: nat, it: SeqIters.SeqIter,
                                       unvisited: seq<nat>, visited: seq<nat>, cost: real, s: Best, k: nat, x: nat, w: seq<nat>)
    requires At(g, current, visited, cost) && Pending(g, current, it, unvisited)
    requires NonNegative(g) && Optimistic(bound)
    requires ExploreLoop(g, bound, budget, current, it, unvisited, visited, cost, s).best.calls <= budget
    requires k < it.nbCandidates && it.candidates[k] == x
    requires multiset(w) == multiset(unvisited) - multiset{x}
    requires Hamiltonian(g, (visited + [x]) + w)
    ensures ExploreLoop(g, bound, budget, current, it, unvisited, visited, cost, s).best.cost
              .AtMost(Fin(CycleCost(g, (visited + [x]) + w)))
    decreases |unvisited|, 0, it.nbCandidates, 2
  {
    if k == it.nbCandidates - 1 {
      TopIsLast(it, k);
      LoopFirst(g, bound, budget, current, it, unvisited, visited, cost, s, x, w);
    } else {
      LoopRest(g, bound, budget, current, it, unvisited, visited, cost, s, k, x, w);
    }
  }

  lemma TopIsLast(it: SeqIters.SeqIter, k: nat)
    requires SeqIters.Valid(it) && k + 1 == it.nbCandidates
    ensures SeqIters.Top(it) == it.candidates[k]
  {
  }

  /** A candidate other than the last one is reached by the rest of the loop, whatever the first turn did. */
  lemma {:induction false} LoopRest(g: CompleteGraph, bound: Bound, budget: nat, current: nat, it: SeqIters.SeqIter,
                                    unvisited: seq<nat>, visited: seq<nat>, cost: real, s: Best, k: nat, x: nat, w: seq<nat>)
    requires At(g, current, visited, cost) && Pending(g, current, it, unvisited)
    requires NonNegative(g) && Optimistic(bound)
    requires ExploreLoop(g, bound, budget, current, it, unvisited, visited, cost, s).best.calls <= budget
    requires k + 1 < it.nbCandidates && it.candidates[k] == x
    requires multiset(w) == multiset(unvisited) - multiset{x}
    requires Hamiltonian(g, (visited + [x]) + w)
    ensures ExploreLoop(g, bound, budget, current, it, unvisited, visited, cost, s).best.cost
              .AtMost(Fin(CycleCost(g, (visited + [x]) + w)))
    decreases |unvisited|, 0, it.nbCandidates, 1
  {
    var next := SeqIters.Top(it);
    var b := Branch(g, bound, budget, current, next, unvisited, visited, cost, s);
    LoopUnfold(g, bound, budget, current, it, unvisited, visited, cost, s, next);
    LoopOptimal(g, bound, budget, current, SeqIters.Advance(it), b.unvisited, visited, cost, b.best, k, x, w);
  }

  /** The loop's first turn takes the last candidate, and the rest of the loop can only lower the cost it finds. */
  lemma {:induction false} LoopFirst(g: CompleteGraph, bound: Bound, budget: nat, current: nat, it: SeqIters.SeqIter,
                                     unvisited: seq<nat>, visited: seq<nat>, cost: real, s: Best, x: nat, w: seq<nat>)
    requires At(g, current, visited, cost) && Pending(g, current, it, unvisited)
    requires NonNegative(g) && Optimistic(bound)
    requires ExploreLoop(g, bound, budget, current, it, unvisited, visited, cost, s).best.calls <= budget
    requires it.nbCandidates > 0 && SeqIters.Top(it) == x
    requires multiset(w) == multiset(unvisited) - multiset{x}
    requires Hamiltonian(g, (visited + [x]) + w)
    ensures ExploreLoop(g, bound, budget, current, it, unvisited, visited, cost, s).best.cost
              .AtMost(Fin(CycleCost(g, (visited + [x]) + w)))
    decreases |unvisited|, 0, it.nbCandidates, 0
  {
    LoopUnfold(g, bound, budget, current, it, unvisited, visited, cost, s, x);
    BranchOptimal(g, bound, budget, current, x, unvisited, visited, cost, s, w);
  }



  /** One branch is exhaustive over the circuits that continue with its vertex. */
  lemma {:induction false} BranchOptimal(g: CompleteGraph, bound: Bound, budget: nat, current: nat, next: nat,
                                         unvisited: seq<nat>, visited: seq<nat>, cost: real, s: Best, w: seq<nat>)
    requires At(g, current, visited, cost) && next in unvisited
    requires NonNegative(g) && Optimistic(bound)
    requires Branch(g, bound, budget, current, next, unvisited, visited, cost, s).best.calls <= budget
    requires multiset(w) == multiset(unvisited) - multiset{next}
    requires Hamiltonian(g, (visited + [next]) + w)
    ensures Branch(g, bound, budget, current, next, unvisited, visited, cost, s).best.cost
              .AtMost(Fin(CycleCost(g, (visited + [next]) + w)))
    decreases |unvisited|, 0, 0, 0
  {
    AtStep(g, current, visited, cost, next);
    ExploreOptimal(g, bound, budget, next, RemoveFirst(unvisited, next), visited + [next], StepCost(g, cost, current, next), s, w);
  }

  /** A loop with a candidate left runs one `Branch` and then the rest of the loop. */
  lemma LoopUnfold(g: CompleteGraph, bound: Bound, budget: nat, current: nat, it: SeqIters.SeqIter,
                   unvisited: seq<nat>, visited: seq<nat>, cost: real, s: Best, next: nat)
    requires WellFormed(g) && Pending(g, current, it, unvisited) && it.nbCandidates > 0 && SeqIters.Top(it) == next
    ensures var b := Branch(g, bound, budget, current, next, unvisited, visited, cost, s);
      && Pending(g, current, SeqIters.Advance(it), b.unvisited)
      && ExploreLoop(g, bound, budget, current, it, unvisited, visited, cost, s)
         == ExploreLoop(g, bound, budget, current, SeqIters.Advance(it), b.unvisited, visited, cost, b.best)
  {
    var b := Branch(g, bound, budget, current, next, unvisited, visited, cost, s);
    PendingKept(g, current, it, unvisited, b.unvisited);
  }


  /** The circuit minus its leading 0 is an arrangement of the other vertices. */
  lemma CircuitTail(p: seq<nat>)
    requires |p| >= 1 && p[0] == 0 && multiset(p) == multiset(Range(0, |p|))
    ensures p == [0] + p[1..] && multiset(p[1..]) == multiset(Range(1, |p|))
  {
    assert p == [0] + p[1..];
    assert multiset(p) == multiset{0} + multiset(p[1..]);
    assert Range(0, |p|) == [0] + Range(1, |p|);
    assert multiset(Range(0, |p|)) == multiset{0} + multiset(Range(1, |p|));
    forall x
      ensures multiset(p[1..])[x] == multiset(Range(1, |p|))[x]
    {
      assert multiset(p)[x] == multiset(Range(0, |p|))[x];
    }
  }

  /**
   * `searchSolution` followed by `getSolutionCost`: when the search is not
   * cut short, arc costs are non-negative and the bound is at most 0, the
   * result is at most the cost of every Hamiltonian circuit from 0, and the
   * circuit recorded in `bestSol` attains it.
   */
  lemma SearchOptimal(t: Tsp, timeLimit: int, g: CompleteGraph, bound: Bound, budget: nat, p: seq<nat>)
    requires WellFormed(g) && NonNegative(g) && Optimistic(bound) && timeLimit > 0
    requires Hamiltonian(g, p)
    requires var r := SearchSolution(t, timeLimit, g, bound, budget); r.Success? && r.value.calls <= budget
    ensures var r := SearchSolution(t, timeLimit, g, bound, budget).value;
      && GetSolutionCost(r.tsp).AtMost(Fin(CycleCost(g, p)))
      && Found(g, Best(r.tsp.bestSol, r.tsp.bestSolCost, r.calls))
  {
    var n := g.nbVertices;
    var s := Best(seq(n, _ => None), MaxValue, 0);
    StartEntry(g);
    var f := Explore(g, bound, budget, 0, Range(1, n), [0], 0.0, s);
    var r := SearchSolution(t, timeLimit, g, bound, budget).value;
    assert r.tsp.bestSolCost == f.best.cost && r.calls == f.best.calls && r.tsp.g == Some(g);
    var w := p[1..];
    CircuitTail(p);
    ExploreOptimal(g, bound, budget, 0, Range(1, n), [0], 0.0, s, w);
  }

  /** `TSP1`'s bound qualifies. */
  lemma Tsp1Optimistic()
    ensures Optimistic(Tsp1Bound)
  {
  }
}

=== FILE: tsp_strategy.dfy ===
/**
 * `strategy/TspStrategy.java`: runs a `TSP1` search on a complete graph and
 * keeps the circuit it found as a list of vertex indices.  The 20000 ms time
 * limit `solve` hands to `searchSolution` is positive, so the search always
 * runs; how long the clock lets it go on is the `budget` of `TemplateTsp`.
 */
module TspStrategies {
  import opened Wrappers
  import opened Costs
  import opened CompleteGraphs
  import opened TemplateTsp

  /** The time limit, in milliseconds, that `solve` passes to `searchSolution`. */
  const TimeLimit: int := 20000

  /**
   * The fields `tsp`, `bestPath` and `bestCost`.  `bestCost` is never
   * assigned anywhere, so it keeps Java's default 0.0.
   */
  datatype Strategy = Strategy(tsp: Tsp, bestPath: seq<int>, bestCost: real)

  /** The constructor: a fresh `TSP1`, an empty `bestPath`. */
  function NewStrategy(): (st: Strategy)
    ensures st.bestPath == [] && st.bestCost == 0.0 && st.tsp.g.None? && Ready(st.tsp)
  {
    Strategy(NewTsp(), [], 0.0)
  }

  /**
   * The loop of `solve` from `i` on: `bestPath.add(tsp.getSolution(i))`.
   * Unboxing a `null` solution into `int iSol` throws, which the second
   * component reports as `false`; what was appended before stays.
   */
  function Collect(t: Tsp, i: nat, acc: seq<int>): (r: (seq<int>, bool))
    requires Ready(t) && t.g.Some? && i <= t.g.value.nbVertices
    ensures AllSome(t.bestSol) ==> r == (acc + Values(t.bestSol)[i..], true)
    ensures i < t.g.value.nbVertices && t.bestSol[i].None? ==> r == (acc, false)
    decreases t.g.value.nbVertices - i
  {
    if i == t.g.value.nbVertices then
      assert AllSome(t.bestSol) ==> acc + Values(t.bestSol)[i..] == acc;
      (acc, true)
    else
      match GetSolution(t, i)
      case None => (acc, false)
      case Some(v) =>
        var r := Collect(t, i + 1, acc + [v]);
        assert AllSome(t.bestSol) ==> acc + [v] + Values(t.bestSol)[i + 1..] == acc + Values(t.bestSol)[i..] by {
          if AllSome(t.bestSol) {
            var vs := Values(t.bestSol);
            assert vs[i] == v;
            assert vs[i..] == [vs[i]] + vs[i + 1..];
          }
        }
        r
  }

  /**
   * `solve(g)`: `searchSolution(20000, g)` on the strategy's `TSP1`, then the
   * solution's vertices appended to `bestPath`, which is never cleared.  The
   * number of `branchAndBound` calls is returned so that a search the clock
   * cut short (more calls than the budget) can be told apart.  Without a
   * circuit every solution entry is `null` and the loop throws at once.
   */
  function Solve(st: Strategy, g: CompleteGraph, budget: nat): (r: (Strategy, Result<nat, string>))
    requires g.nbVertices < 0 || WellFormed(g)
    ensures r.0.bestCost == st.bestCost
    ensures g.nbVertices < 1 ==> r.1.Failure? && r.0 == st
    ensures g.nbVertices >= 1 ==>
      && r.0.tsp.g == Some(g) && Ready(r.0.tsp)
      && (r.1.Success? <==> r.0.tsp.bestSolCost != MaxValue)
    ensures g.nbVertices >= 1 && r.1.Failure? ==> r.0.bestPath == st.bestPath
    ensures r.1.Success? ==>
      && AllSome(r.0.tsp.bestSol)
      && r.0.bestPath == st.bestPath + Values(r.0.tsp.bestSol)
      && Found(g, Best(r.0.tsp.bestSol, r.0.tsp.bestSolCost, r.1.value))
  {
    match SearchSolution(st.tsp, TimeLimit, g, Tsp1Bound, budget)
    case Failure(e) => (st, Failure(e))
    case Success(run) =>
      var t := run.tsp;
      var c := Collect(t, 0, st.bestPath);
      if c.1 then (Strategy(t, c.0, st.bestCost), Success(run.calls))
      else (Strategy(t, c.0, st.bestCost), Failure("NullPointerException"))
  }

  /**
   * `getBestPath()`: appends the first vertex again, on every call, and hands
   * back the field itself; `get(0)` on an empty list throws.
   */
  function GetBestPath(st: Strategy): (r: Result<(Strategy, seq<int>), string>)
    ensures r.Failure? <==> |st.bestPath| == 0
    ensures r.Success? ==>
      && r.value.1 == r.value.0.bestPath
      && r.value.0.tsp == st.tsp && r.value.0.bestCost == st.bestCost
      && |r.value.1| == |st.bestPath| + 1 && r.value.1[..|st.bestPath|] == st.bestPath
      && r.value.1[|st.bestPath|] == st.bestPath[0]
  {
    if |st.bestPath| == 0 then Failure("IndexOutOfBoundsException")
    else
      var p := st.bestPath + [st.bestPath[0]];
      Success((st.(bestPath := p), p))
  }

  /** `getBestCost()`: the never-assigned field. */
  function GetBestCost(st: Strategy): (c: real)
    ensures c == st.bestCost
  {
    st.bestCost
  }

  /** `getTimeExceeded()`: a constant, however the search ended. */
  function GetTimeExceeded(st: Strategy): (b: bool)
    ensures !b
  {
    false
  }

  // ---------------------------------------------------------------------------
  // Properties across calls

  /**
   * A fresh strategy that solved a graph returns the circuit closed back to
   * its start: vertex 0, every vertex once, then 0 again.  Its cost stays 0.0
   * whatever the circuit costs.
   */
  lemma SolveThenBestPath(g: CompleteGraph, budget: nat, st: Strategy)
    requires WellFormed(g)
    requires Solve(NewStrategy(), g, budget).1.Success? && st == Solve(NewStrategy(), g, budget).0
    ensures AllSome(st.tsp.bestSol) && Hamiltonian(g, Values(st.tsp.bestSol))
    ensures GetBestPath(st).Success?
    ensures var p := GetBestPath(st).value.1;
      && p == Values(st.tsp.bestSol) + [0]
      && |p| == g.nbVertices + 1 && p[0] == 0 && p[|p| - 1] == 0
    ensures GetBestCost(st) == 0.0
  {
    var v := Values(st.tsp.bestSol);
    assert st.bestPath == [] + v;
    assert |v| == g.nbVertices && v[0] == 0;
    ClosedCircuit(st, v);
  }

  lemma ClosedCircuit(st: Strategy, v: seq<nat>)
    requires |v| >= 1 && v[0] == 0 && st.bestPath == [] + v
    ensures GetBestPath(st).Success?
    ensures var p := GetBestPath(st).value.1;
      p == v + [0] && |p| == |v| + 1 && p[0] == 0 && p[|p| - 1] == 0
  {
    assert st.bestPath == v;
  }

  /**
   * `solve` accumulates: a second run on the same graph finds the same
   * circuit again and appends it behind the first.
   */
  lemma SolveTwice(st: Strategy, g: CompleteGraph, budget: nat)
    requires WellFormed(g) && Solve(st, g, budget).1.Success?
    ensures var s1 := Solve(st, g, budget).0;
      var s2 := Solve(s1, g, budget).0;
      && Solve(s1, g, budget).1.Success?
      && s2.bestPath == st.bestPath + Values(s1.tsp.bestSol) + Values(s1.tsp.bestSol)
  {
    var s1 := Solve(st, g, budget).0;
    assert SearchSolution(s1.tsp, TimeLimit, g, Tsp1Bound, budget) == SearchSolution(st.tsp, TimeLimit, g, Tsp1Bound, budget);
  }

  /** `getBestPath` is not idempotent: each call adds the first vertex once more. */
  lemma GetBestPathTwice(st: Strategy)
    requires |st.bestPath| > 0
    ensures var r1 := GetBestPath(st);
      && r1.Success? && GetBestPath(r1.value.0).Success?
      && GetBestPath(r1.value.0).value.1 == st.bestPath + [st.bestPath[0], st.bestPath[0]]
      && GetBestPath(r1.value.0).value.1 != r1.value.1
  {
    var r1 := GetBestPath(st);
    assert r1.value.1 == st.bestPath + [st.bestPath[0]];
    assert r1.value.1[0] == st.bestPath[0];
    var r2 := GetBestPath(r1.value.0);
    assert |r2.value.1| != |r1.value.1|;
  }
}

=== FILE: wrappers.dfy ===
/** Option and Result types standing in for Java's `null` returns and thrown exceptions. */
module Wrappers {

  datatype Option<+T> = None | Some(value: T)

  /** The outcome of an operation that may throw: a value, or the exception it raised. */
  datatype Result<+T, +E> = Success(value: T) | Failure(error: E) {
    predicate IsFailure() {
      Failure?
    }

    function PropagateFailure<U>(): Result<U, E>
      requires Failure?
    {
      Failure(error)
    }

    function Extract(): T
      requires Success?
    {
      value
    }
  }
}
